=== FILE: README.md ===
# SmartDrive Kenya rental rules in Dafny

This project models the business rules of SmartDrive Kenya, a car-rental product with two clients that share one hosted database:

- a Kotlin Android app: repositories, view models and Compose screens;
- a React/TypeScript web app: pages, an admin dashboard and a settings context.

Every data access in either client fetches rows and then processes them in a fixed order. The model takes what the database returns as an input and states the processing as pure functions. A backend read is a `Result` value. A write is recorded in an ordered list of requests, and the response to each write is another input. Each view model or page is a state transformer over an immutable record.

The model covers these areas:

- **Rental quoting and booking (Android).**
  - `RentalRepository`: date overlap, vehicle availability, the day count, tiered insurance, 16% VAT and a 30% deposit.
  - `RentalRepository`: the guard order of `createRental` and `submitReview`, the extras it stores, and a user's rentals newest first.
  - `BookingViewModel`: the booking form's state, repricing and validity gate, and the request it builds.
  - A lemma proves that, in exact arithmetic, the total the form quotes is the total `createRental` charges.
- **Enum codecs (Android).** `Rental.kt`, `Vehicle.kt`, `Booking.kt` and `User.kt` define `fromString` parsers with fallback values. The model proves their round-trips, the fallbacks and the insurance coverage table.
- **Authentication.**
  - `AuthViewModel`: ordered input validation, with the e-mail pattern as a parameter.
  - `AuthRepository` and `DatabaseHelper`: the sign-up decision, the e-mail fallbacks, and role and profile lookups.
- **Screens (Android).** Vehicle lookup, the 3-day integer estimate with 32-bit wrap-around, the category filter, card labels, the actions offered for each rental status, and the cancel dialog.
- **Web pages.**
  - `BookVehicle`: the day count rounded up, then lock before booking.
  - `AustinCarDetails`: the 49 fallback rate.
  - `FleetManagement`: the features text and its round-trip.
  - `Vehicles`: the feature preview.
  - `Bookings`: role scoping and cancelling.
  - `UserManagement`: search and activation.
  - `AdminDashboard`: the fleet tally and the revenue sum.
  - `SettingsContext` and `SystemSettings`: the key/value settings with `'true'`/`'false'` flags.

Where the two clients disagree, each is modelled as written, and lemmas state the difference:

- the web page cancels pending bookings only, while the Android screens also cancel confirmed ones (`BookingsPage.CancelEligibilityDiffersFromAndroid`);
- Kotlin's vehicle status `unavailable` stands where the database has `out_of_service`, and `VehicleStatus.fromString` maps the latter to AVAILABLE (`VehicleModel.OutOfServiceReadsAsAvailable`);
- the settings page switches a flag off when its row is missing, while the settings provider keeps the flag (`SystemSettings.MissingRowsDiffer`).

Conventions:

- Money is an exact `real`. Products of a money amount and a day count go through `Money.Scale`, which is repeated addition and is proved equal to the product.
- Android dates are integer epoch days. Web dates are strings, read through a `toMillis` parameter.
- Kotlin's `Long.toInt()` and `Double.toInt()` are written out in `Ints`.
- Text is `seq<char>`; case mapping covers ASCII letters only. Kotlin `String.length` counts UTF-16 code units and is `Text.Utf16Length`. JavaScript `x || fallback` on text is `WebModel.OrElse`.

The modules follow the source files: one module per file, plus `Wrappers`, `Seqs`, `Text`, `Ints`, `Money` and `WebModel` as shared helpers.

## Model

| member | source | states |
|---|---|---|
| Ints.LongToInt | app/src/main/java/com/smartdrive/kenya/data/repository/RentalRepository.kt:181 | Kotlin's `Long.toInt()` keeps the low 32 bits: the result is an Int congruent to the input modulo 2^32, and equal to it when it already fits |
| Ints.DoubleToInt | app/src/main/java/com/smartdrive/kenya/ui/screens/austin/AustinCarDetailsScreen.kt:455 | Kotlin's `Double.toInt()` rounds toward zero and saturates at the Int bounds |
| Text.Split | src/pages/admin/FleetManagement.tsx:82 | `split(',')` gives at least one piece and no piece holds a comma |
| Text.SplitJoin | src/pages/admin/FleetManagement.tsx:82-118 | splitting pieces joined with ", " gives the first piece and the others each with one leading space |
| Text.Utf16Length | app/src/main/java/com/smartdrive/kenya/ui/screens/auth/AuthViewModel.kt:146 | Kotlin's `String.length` counts UTF-16 code units: between the number of characters and twice it, and equal to it exactly when no character lies outside the Basic Multilingual Plane |
| Text.UpperFirst | src/pages/Bookings.tsx:147 | `charAt(0).toUpperCase() + slice(1)` upper-cases the first character and keeps the length and the rest |
| RentalModel.RentalStatusesComplete | app/src/main/java/com/smartdrive/kenya/data/model/Rental.kt:51-57 | the six rental statuses are all listed, each once |
| RentalModel.RentalStatusFromString | app/src/main/java/com/smartdrive/kenya/data/model/Rental.kt:59-63 | a known value parses to the status with that value; any other string parses to PENDING |
| RentalModel.RentalStatusValuesDistinct | app/src/main/java/com/smartdrive/kenya/data/model/Rental.kt:52-57 | no two statuses share a stored value, so the value identifies the status |
| RentalModel.RentalStatusRoundTrip | app/src/main/java/com/smartdrive/kenya/data/model/Rental.kt:51-63 | parsing a status's value gives the status back |
| RentalModel.InsuranceTypesComplete | app/src/main/java/com/smartdrive/kenya/data/model/Rental.kt:67-71 | the four insurance types are all listed |
| RentalModel.InsuranceCoverageIncreasing | app/src/main/java/com/smartdrive/kenya/data/model/Rental.kt:68-71 | coverage rises strictly from NONE (0%) through BASIC and COMPREHENSIVE to PREMIUM (25%), and every coverage lies in 0..25 |
| RentalModel.InsuranceTypeFromString | app/src/main/java/com/smartdrive/kenya/data/model/Rental.kt:73-77 | a known value parses to its type; any other string parses to BASIC |
| RentalModel.InsuranceTypeValuesDistinct | app/src/main/java/com/smartdrive/kenya/data/model/Rental.kt:68-71 | the stored values identify the insurance type |
| RentalModel.InsuranceTypeRoundTrip | app/src/main/java/com/smartdrive/kenya/data/model/Rental.kt:67-77 | parsing a type's value gives the type back |
| RentalModel.RentalWithDefaults | app/src/main/java/com/smartdrive/kenya/data/model/Rental.kt:10-48 | a rental built from its required fields has status PENDING, BASIC insurance, zero insurance and tax, no requests or notes, and keeps the given fields |
| RentalModel.RentalRequestWithDefaults | app/src/main/java/com/smartdrive/kenya/data/model/Rental.kt:182-193 | a request built from its required fields has BASIC insurance, no extras and no special requests, and keeps the given vehicle and dates |
| PaymentModel.PaymentMethodsComplete | app/src/main/java/com/smartdrive/kenya/data/model/Rental.kt:134-139 | the five payment methods are all listed |
| PaymentModel.PaymentMethodFromString | app/src/main/java/com/smartdrive/kenya/data/model/Rental.kt:141-145 | a known value parses to its method; any other string parses to MPESA |
| PaymentModel.PaymentMethodValuesDistinct | app/src/main/java/com/smartdrive/kenya/data/model/Rental.kt:135-139 | the stored values identify the payment method |
| PaymentModel.PaymentMethodRoundTrip | app/src/main/java/com/smartdrive/kenya/data/model/Rental.kt:134-145 | parsing a method's value gives the method back |
| PaymentModel.PaymentStatusesComplete | app/src/main/java/com/smartdrive/kenya/data/model/Rental.kt:149-155 | the six payment statuses are all listed |
| PaymentModel.PaymentStatusFromString | app/src/main/java/com/smartdrive/kenya/data/model/Rental.kt:157-161 | a known value parses to its status; any other string parses to PENDING |
| PaymentModel.PaymentStatusValuesDistinct | app/src/main/java/com/smartdrive/kenya/data/model/Rental.kt:150-155 | the stored values identify the payment status |
| PaymentModel.PaymentStatusRoundTrip | app/src/main/java/com/smartdrive/kenya/data/model/Rental.kt:149-161 | parsing a status's value gives the status back |
| VehicleModel.FuelTypesComplete | app/src/main/java/com/smartdrive/kenya/data/model/Vehicle.kt:27-31 | the four fuel types are all listed |
| VehicleModel.FuelTypeFromString | app/src/main/java/com/smartdrive/kenya/data/model/Vehicle.kt:33-37 | a known value parses to its fuel type; any other string parses to PETROL |
| VehicleModel.FuelTypeValuesDistinct | app/src/main/java/com/smartdrive/kenya/data/model/Vehicle.kt:28-31 | the stored values identify the fuel type |
| VehicleModel.FuelTypeRoundTrip | app/src/main/java/com/smartdrive/kenya/data/model/Vehicle.kt:27-37 | parsing a fuel type's value gives it back |
| VehicleModel.GasolineReadsAsPetrol | app/src/main/java/com/smartdrive/kenya/data/model/Vehicle.kt:33-37 | the database's "gasoline" is not a Kotlin value and `fromString` maps it to PETROL |
| VehicleModel.TransmissionsComplete | app/src/main/java/com/smartdrive/kenya/data/model/Vehicle.kt:41-43 | both transmissions are listed |
| VehicleModel.TransmissionFromString | app/src/main/java/com/smartdrive/kenya/data/model/Vehicle.kt:45-49 | a known value parses to its transmission; any other string parses to MANUAL |
| VehicleModel.TransmissionValuesDistinct | app/src/main/java/com/smartdrive/kenya/data/model/Vehicle.kt:42-43 | the stored values identify the transmission |
| VehicleModel.TransmissionRoundTrip | app/src/main/java/com/smartdrive/kenya/data/model/Vehicle.kt:41-49 | parsing a transmission's value gives it back |
| VehicleModel.VehicleStatusesComplete | app/src/main/java/com/smartdrive/kenya/data/model/Vehicle.kt:53-57 | the four Kotlin vehicle statuses are all listed |
| VehicleModel.VehicleStatusFromString | app/src/main/java/com/smartdrive/kenya/data/model/Vehicle.kt:59-63 | a known value parses to its status; any other string parses to AVAILABLE |
| VehicleModel.VehicleStatusValuesDistinct | app/src/main/java/com/smartdrive/kenya/data/model/Vehicle.kt:54-57 | the stored values identify the vehicle status |
| VehicleModel.VehicleStatusRoundTrip | app/src/main/java/com/smartdrive/kenya/data/model/Vehicle.kt:53-63 | parsing a status's value gives it back |
| VehicleModel.OutOfServiceReadsAsAvailable | app/src/main/java/com/smartdrive/kenya/data/model/Vehicle.kt:57-62 | the database's "out_of_service" is not a Kotlin value (Kotlin has "unavailable") and `fromString` maps it to AVAILABLE |
| VehicleModel.VehicleWithDefaults | app/src/main/java/com/smartdrive/kenya/data/model/Vehicle.kt:7-24 | a vehicle built from its required fields is petrol, manual, available, without features, colour, image, agent or update time, and keeps the given fields |
| BookingModel.BookingStatusesComplete | app/src/main/java/com/smartdrive/kenya/data/model/Booking.kt:26-31 | the five booking statuses are all listed |
| BookingModel.BookingStatusFromString | app/src/main/java/com/smartdrive/kenya/data/model/Booking.kt:33-37 | a known value parses to its status; any other string parses to PENDING |
| BookingModel.BookingStatusValuesDistinct | app/src/main/java/com/smartdrive/kenya/data/model/Booking.kt:27-31 | the stored values identify the booking status |
| BookingModel.BookingStatusRoundTrip | app/src/main/java/com/smartdrive/kenya/data/model/Booking.kt:26-37 | parsing a status's value gives it back |
| BookingModel.UnknownBookingStatusesArePending | app/src/main/java/com/smartdrive/kenya/data/model/Booking.kt:33-37 | "overdue", "awaiting_payment" and "scheduled", which the Kotlin enum lacks, are mapped by `fromString` to PENDING |
| BookingModel.BookingWithDefaults | app/src/main/java/com/smartdrive/kenya/data/model/Booking.kt:6-23 | a booking built from its required fields is PENDING, without notes, locations, joined rows (the joined customer is a `UserModel.Profile`) or update time, and keeps the given fields |
| UserModel.UserRolesComplete | app/src/main/java/com/smartdrive/kenya/data/model/User.kt:15-18 | the three roles are all listed |
| UserModel.UserRoleFromString | app/src/main/java/com/smartdrive/kenya/data/model/User.kt:20-24 | a known value parses to its role; any other string parses to CUSTOMER |
| UserModel.UserRoleValuesDistinct | app/src/main/java/com/smartdrive/kenya/data/model/User.kt:16-18 | the stored values identify the role |
| UserModel.UserRoleRoundTrip | app/src/main/java/com/smartdrive/kenya/data/model/User.kt:15-24 | parsing a role's value gives it back |
| UserModel.CapitalisedRoleIsCustomer | app/src/main/java/com/smartdrive/kenya/data/model/User.kt:20-24 | matching is case-sensitive: `fromString` maps "Admin" to CUSTOMER |
| RentalRepository.DatesOverlapSymmetric | app/src/main/java/com/smartdrive/kenya/data/repository/RentalRepository.kt:80-82 | the overlap test gives the same answer with the two ranges swapped |
| RentalRepository.DatesOverlapIffCommonDay | app/src/main/java/com/smartdrive/kenya/data/repository/RentalRepository.kt:80-82 | for well-ordered ranges, overlap holds exactly when some day lies in both inclusive ranges; ranges sharing a boundary day overlap |
| RentalRepository.FirstUnparseable | app/src/main/java/com/smartdrive/kenya/data/repository/RentalRepository.kt:63-71 | finds the first rental whose dates would make LocalDate.parse throw while it is still a candidate (same vehicle, not cancelled or completed), or reports there is none |
| RentalRepository.CheckVehicleAvailability | app/src/main/java/com/smartdrive/kenya/data/repository/RentalRepository.kt:52-78 | a failed read gives the "Failed to check availability: " error; an unparseable candidate date gives an error; otherwise the answer is true exactly when no fetched rental of that vehicle, outside CANCELLED and COMPLETED, overlaps the dates |
| RentalRepository.AvailabilityIgnoresNonCandidates | app/src/main/java/com/smartdrive/kenya/data/repository/RentalRepository.kt:63-74 | inserting a rental of another vehicle, or a cancelled or completed one, anywhere in the fetched rows never changes the answer |
| RentalRepository.CalculateDaysBetween | app/src/main/java/com/smartdrive/kenya/data/repository/RentalRepository.kt:180-184 | the day count is at least 1; it is the epoch-day difference when that is positive and fits an Int, and 1 when the difference is zero or negative |
| RentalRepository.CalculateInsuranceCost | app/src/main/java/com/smartdrive/kenya/data/repository/RentalRepository.kt:186-188 | insurance is the daily rate times the type's coverage percent over 100; it is zero for NONE and at most a quarter of a non-negative rate |
| RentalRepository.ComputeCharge | app/src/main/java/com/smartdrive/kenya/data/repository/RentalRepository.kt:113-119 | subtotal = (rate + insurance) x days + the sum of the extras' totals; total = 1.16 x subtotal; tax = total - subtotal; deposit = 30% of total |
| RentalRepository.ChargeBounds | app/src/main/java/com/smartdrive/kenya/data/repository/RentalRepository.kt:113-119 | for non-negative rate, days and extras, 0 <= subtotal <= total, the tax is non-negative and 0 <= deposit <= total |
| RentalRepository.PersistedExtraCost | app/src/main/java/com/smartdrive/kenya/data/repository/RentalRepository.kt:203 | an extra's stored cost is its daily rate times its quantity, charged for every day of the rental; rate x days for quantity 1; never negative for non-negative inputs |
| RentalRepository.AddRentalExtras | app/src/main/java/com/smartdrive/kenya/data/repository/RentalRepository.kt:190-206 | one insert per extra, in order, with the rental id, the extra and its computed cost; the first failing insert stops the rest, and all are written when none fails |
| RentalRepository.PendingRental | app/src/main/java/com/smartdrive/kenya/data/repository/RentalRepository.kt:146-167 | the returned rental is PENDING, carries the request's vehicle, locations, dates, insurance and requests, and the computed charge |
| RentalRepository.CreateRental | app/src/main/java/com/smartdrive/kenya/data/repository/RentalRepository.kt:86-178 | fails with "User not authenticated", then "Vehicle is not available for the selected dates" (also when the check itself fails), then "Vehicle not found", writing nothing on these paths; a failed vehicle read, rental insert or extra insert gives "Failed to create rental: " and that failure's message, the extras failure being the first insert that raised; otherwise inserts the PENDING rental first, then its extras, and returns the rental priced from the vehicle's rate, Ok only when every insert succeeded |
| RentalRepository.InsertRentalWithExtras | app/src/main/java/com/smartdrive/kenya/data/repository/RentalRepository.kt:122-176 | the rental insert is the first write; Ok exactly when it and every extra insert succeed, then with one write per extra; otherwise the prefixed message of the first insert that raised, with nothing written after it |
| RentalRepository.CreateRentalSucceeds | app/src/main/java/com/smartdrive/kenya/data/repository/RentalRepository.kt:86-178 | with a signed-in user, an available vehicle found at a known rate and every insert succeeding, the result is the PENDING rental priced at that rate |
| RentalRepository.SortNewestFirst | app/src/main/java/com/smartdrive/kenya/data/repository/RentalRepository.kt:217 | sorting by creation time descending yields newest-first order and the same rentals |
| RentalRepository.GetUserRentals | app/src/main/java/com/smartdrive/kenya/data/repository/RentalRepository.kt:210-227 | a failed read gives the "Failed to fetch user rentals: " error; otherwise exactly the user's rentals, each as often as fetched, newest first |
| RentalRepository.GetUserRentalsExactlyOwn | app/src/main/java/com/smartdrive/kenya/data/repository/RentalRepository.kt:216 | every returned rental belongs to the user and was fetched, and every fetched rental of the user is returned |
| RentalRepository.SubmitReview | app/src/main/java/com/smartdrive/kenya/data/repository/RentalRepository.kt:356-406 | fails with "User not authenticated", then with "Failed to submit review: " and the fetch error, then "Rental not found or not authorized" unless the user owns the rental, then "Can only review completed rentals" for the user's first matching rental when it is not COMPLETED, all without a write; an insert error is reported with the same prefix after the one write; a success writes exactly one unapproved, unfeatured review of the rental's vehicle with the given rating, title and comment |
| RentalRepository.SubmitReviewSucceeds | app/src/main/java/com/smartdrive/kenya/data/repository/RentalRepository.kt:356-406 | a signed-in user reviewing their own completed rental, whose id is unique among the fetched rows, succeeds when the insert succeeds |
| RentalRepository.FindOwnRental | app/src/main/java/com/smartdrive/kenya/data/repository/RentalRepository.kt:367-372 | the user's first fetched rental with the id, or none exactly when no fetched rental has both the id and the user |
| RentalRepository.SubmitReviewNeedsCompleted | app/src/main/java/com/smartdrive/kenya/data/repository/RentalRepository.kt:371-376 | the user's first matching rental not being COMPLETED refuses the review with "Can only review completed rentals" and writes nothing, whatever the insert would answer |
| BookingViewModel.QuoteDays | app/src/main/java/com/smartdrive/kenya/ui/screens/booking/BookingViewModel.kt:131-133 | for ordered dates whose difference fits an Int, the quoted days are the difference, or 1 on a same-day booking; the result is never 0 and fits an Int |
| BookingViewModel.InsuranceCost | app/src/main/java/com/smartdrive/kenya/ui/screens/booking/BookingViewModel.kt:157-163 | the stay's insurance times 100 is the daily rate times the tier's coverage percent times the days; NONE costs nothing |
| BookingViewModel.FindExtra | app/src/main/java/com/smartdrive/kenya/ui/screens/booking/BookingViewModel.kt:171 | the lookup finds an available extra with that id, or reports that none has it |
| BookingViewModel.ExtraDailyRate | app/src/main/java/com/smartdrive/kenya/ui/screens/booking/BookingViewModel.kt:171-172 | an unknown extra costs 0 a day; a known one costs the daily rate of an available extra with its id |
| BookingViewModel.ExtrasCostIgnoresUnknown | app/src/main/java/com/smartdrive/kenya/ui/screens/booking/BookingViewModel.kt:170-173 | removing a selected id that matches no available extra leaves the extras cost unchanged |
| BookingViewModel.ExtrasCostNonNegative | app/src/main/java/com/smartdrive/kenya/ui/screens/booking/BookingViewModel.kt:165-174 | with non-negative rates and days the extras cost is non-negative |
| BookingViewModel.CalculatePricing | app/src/main/java/com/smartdrive/kenya/ui/screens/booking/BookingViewModel.kt:122-155 | nothing changes without a vehicle, without both dates, or with the return before pickup; otherwise days, rate, insurance, extras, subtotal, 16% tax, total and 30% deposit are set, and the form is bookable exactly when both locations are chosen and days > 0; no input field changes |
| BookingViewModel.CalculatePricingIdempotent | app/src/main/java/com/smartdrive/kenya/ui/screens/booking/BookingViewModel.kt:122-155 | repricing a priced form changes nothing |
| BookingViewModel.PricedFormGate | app/src/main/java/com/smartdrive/kenya/ui/screens/booking/BookingViewModel.kt:122-183 | after pricing ordered dates the day count is at least 1, so the validity gate reduces to both locations being chosen |
| BookingViewModel.UpdateDates | app/src/main/java/com/smartdrive/kenya/ui/screens/booking/BookingViewModel.kt:80-86 | both dates are set and the rest of the form kept; with a vehicle and ordered dates the form carries the full quote for the new dates (day count, vehicle rate, insurance, extras, subtotal, 16% VAT, total, 30% deposit) and the gate of its locations; without a vehicle or with reversed dates the previous quote and validity are kept |
| BookingViewModel.UpdateTimes | app/src/main/java/com/smartdrive/kenya/ui/screens/booking/BookingViewModel.kt:88-93 | only the times change; the quote is untouched |
| BookingViewModel.UpdateLocations | app/src/main/java/com/smartdrive/kenya/ui/screens/booking/BookingViewModel.kt:95-100 | only the locations change, without repricing, so the validity flag is not recomputed |
| BookingViewModel.UpdateInsurance | app/src/main/java/com/smartdrive/kenya/ui/screens/booking/BookingViewModel.kt:102-105 | the tier is set and the rest of the form kept; when pricing can run the form carries the full quote for the new tier and the gate of its locations; otherwise the previous quote, now stale for the tier, is kept |
| BookingViewModel.UpdateSpecialRequests | app/src/main/java/com/smartdrive/kenya/ui/screens/booking/BookingViewModel.kt:118-120 | only the requests text changes |
| BookingViewModel.AddId | app/src/main/java/com/smartdrive/kenya/ui/screens/booking/BookingViewModel.kt:108-110 | adding an id to the selected set: it is then present, nothing else is added, no duplicates arise, and an id already present changes nothing |
| BookingViewModel.RemoveId | app/src/main/java/com/smartdrive/kenya/ui/screens/booking/BookingViewModel.kt:108-113 | removing an id from the selected set: it is then absent, the rest keep their order, no duplicates arise |
| BookingViewModel.ToggleExtra | app/src/main/java/com/smartdrive/kenya/ui/screens/booking/BookingViewModel.kt:107-116 | after the toggle the extra is selected exactly when asked, other selections are unchanged and the selection stays duplicate-free; when pricing can run the form carries the full quote with the new selection's extras cost; otherwise the previous quote is kept |
| BookingViewModel.ToggleExtraIdempotent | app/src/main/java/com/smartdrive/kenya/ui/screens/booking/BookingViewModel.kt:107-116 | toggling the same extra to the same state twice is the same as once |
| BookingViewModel.LoadBookingData | app/src/main/java/com/smartdrive/kenya/ui/screens/booking/BookingViewModel.kt:27-78 | a failed vehicle read shows "Failed to load vehicle details"; otherwise tomorrow to the day after, 09:00 to 17:00, the first location for both ends, failed location or extras reads as empty lists, one day at the vehicle's rate, bookable exactly when there is a location; the kept insurance, extras and requests text are priced for that day (insurance, extras, subtotal, VAT, total, deposit) |
| BookingViewModel.LoadedFormIsPriced | app/src/main/java/com/smartdrive/kenya/ui/screens/booking/BookingViewModel.kt:66-69 | a loaded form already carries the quote of its own inputs, so pricing it again changes nothing |
| BookingViewModel.ExtraSelections | app/src/main/java/com/smartdrive/kenya/ui/screens/booking/BookingViewModel.kt:194-206 | one selection per selected id that names an available extra, each carrying that extra's id and daily rate, quantity 1 and cost rate x days; none is dropped when all ids are known |
| BookingViewModel.SelectionsStoredAtSentCost | app/src/main/java/com/smartdrive/kenya/data/repository/RentalRepository.kt:190-206 | every selection the form sends is stored by the repository at exactly the cost the form sent with it, for the same day count |
| BookingViewModel.ExtraSelectionsCost | app/src/main/java/com/smartdrive/kenya/ui/screens/booking/BookingViewModel.kt:165-206 | the selections sent with the request cost in total exactly the quoted extras cost |
| BookingViewModel.BuildRequest | app/src/main/java/com/smartdrive/kenya/ui/screens/booking/BookingViewModel.kt:208-219 | a request exists exactly when vehicle, dates and locations are set; it carries the vehicle id, the pickup and the return location ids each in its own field, the dates, the 09:00/17:00 fallback times, the insurance, the extra selections, and the requests text unless blank |
| BookingViewModel.CreateBooking | app/src/main/java/com/smartdrive/kenya/ui/screens/booking/BookingViewModel.kt:185-240 | nothing happens unless the form is bookable; a successful createRental reports the rental id; a failed createRental restores the form as it was with the creating flag off and createRental's message as the error; a bookable form missing a field shows "Unknown error occurred" the same way |
| BookingViewModel.FailedBookingRetriesSameRequest | app/src/main/java/com/smartdrive/kenya/ui/screens/booking/BookingViewModel.kt:185-236 | after a failed booking the form is still bookable, and submitting it again sends the same request |
| BookingViewModel.QuoteEqualsCharge | app/src/main/java/com/smartdrive/kenya/ui/screens/booking/BookingViewModel.kt:122-221 | for a bookable priced form whose vehicle is found at the same rate, the rental createRental returns carries (by RentalRepository.kt lines 113-119) the quoted days, rate, subtotal, tax, total and deposit |
| BookingViewModel.QuoteIsBooked | app/src/main/java/com/smartdrive/kenya/ui/screens/booking/BookingViewModel.kt:185-221 | under the same conditions createRental (RentalRepository.kt lines 86-174) succeeds with the PENDING rental priced at the quote |
| BookingViewModel.QuoteDaysChargedDays | app/src/main/java/com/smartdrive/kenya/ui/screens/booking/BookingViewModel.kt:131-133 | whenever the quote's day count is positive, the repository's day count (RentalRepository.kt lines 180-184) is the same number of days |
| BookingViewModel.ChargeMatchesQuote | app/src/main/java/com/smartdrive/kenya/ui/screens/booking/BookingViewModel.kt:139-142 | the repository's charge (RentalRepository.kt lines 113-119) for a priced form's inputs equals the form's subtotal, tax, total and deposit |
| BookingViewModel.StaleGateAfterReversedDates | app/src/main/java/com/smartdrive/kenya/ui/screens/booking/BookingViewModel.kt:80-155 | for any form with a vehicle and both locations: priced for ordered dates it is bookable with their day count; after the return date is moved before pickup it stays bookable with that old day count, while the request built from it is charged one day |
| BookingViewModel.StaleGateExample | app/src/main/java/com/smartdrive/kenya/ui/screens/booking/BookingViewModel.kt:122-129 | the form priced for days 10 to 12 and then given the dates 10 and 5 is bookable with a two-day quote and is charged one day |
| BookingViewModel.CalculatePricingGated | app/src/main/java/com/smartdrive/kenya/ui/screens/booking/BookingViewModel.kt:122-183 | the corrected pricing also clears validity when it cannot price; a bookable form is always priced for its current dates |
| BookingViewModel.UpdateDatesGated | app/src/main/java/com/smartdrive/kenya/ui/screens/booking/BookingViewModel.kt:80-86 | with the corrected pricing, reversed dates are never bookable |
| BookingViewModel.GatedBookableIsPriced | app/src/main/java/com/smartdrive/kenya/ui/screens/booking/BookingViewModel.kt:80-155 | with the corrected pricing, a bookable form has ordered dates and its quote is current |
| BookingViewModel.GatedBookingChargesQuote | app/src/main/java/com/smartdrive/kenya/ui/screens/booking/BookingViewModel.kt:80-219 | with the corrected pricing, every form shown as bookable after a date change is charged by `createRental` the total and days it quoted |
| VehicleRepository.GetAvailableVehicles | app/src/main/java/com/smartdrive/kenya/data/repository/VehicleRepository.kt:16-29 | a failed read passes its error on; otherwise the result holds exactly the fetched vehicles whose status is available, each as many times as it was fetched |
| VehicleRepository.AvailableVehiclesInFetchedOrder | app/src/main/java/com/smartdrive/kenya/data/repository/VehicleRepository.kt:23 | the available vehicles come in the order the table returned them |
| VehicleRepository.GetAllVehicles | app/src/main/java/com/smartdrive/kenya/data/repository/VehicleRepository.kt:31-42 | succeeds exactly when the read does, with every fetched vehicle in place; a failure keeps the read's message |
| VehicleRepository.AvailableAmongAll | app/src/main/java/com/smartdrive/kenya/data/repository/VehicleRepository.kt:16-42 | from one read, the available list is the part of the full list whose status is available |
| VehicleRepository.GetVehicleById | app/src/main/java/com/smartdrive/kenya/data/repository/VehicleRepository.kt:44-58 | fails with "Vehicle not found" exactly when no fetched vehicle has the id, and otherwise returns the first one that does |
| VehicleRepository.GetVehicleByIdFindsListed | app/src/main/java/com/smartdrive/kenya/data/repository/VehicleRepository.kt:51-52 | with distinct ids, looking up a listed vehicle's id returns that vehicle |
| DatabaseHelper.VerifyUserProfile | app/src/main/java/com/smartdrive/kenya/utils/DatabaseHelper.kt:33-45 | a failed read passes its error on; otherwise the answer is true exactly when some profile row has the user's id |
| DatabaseHelper.EmptyTableVerifiesNobody | app/src/main/java/com/smartdrive/kenya/utils/DatabaseHelper.kt:40 | an empty profiles table verifies no user |
| DatabaseHelper.RoleOf | app/src/main/java/com/smartdrive/kenya/utils/DatabaseHelper.kt:58 | the role is the row's `role` column when that is a string, and "customer" when the row, the column or its string type is missing |
| DatabaseHelper.GetUserRole | app/src/main/java/com/smartdrive/kenya/utils/DatabaseHelper.kt:50-63 | a failed read passes its error on; otherwise the role comes from the first row with the user's id, and is "customer" when there is none |
| DatabaseHelper.RoleOfUnverifiedIsCustomer | app/src/main/java/com/smartdrive/kenya/utils/DatabaseHelper.kt:33-63 | a user whose profile does not verify is given the customer role |
| AuthRepository.GetSessionStatus | app/src/main/java/com/smartdrive/kenya/data/repository/AuthRepository.kt:25-26 | the session is active exactly when there is a current user |
| AuthRepository.ToUser | app/src/main/java/com/smartdrive/kenya/data/repository/AuthRepository.kt:44-48 | the app user keeps the auth user's id and creation time, and takes the auth e-mail, or the fallback when there is none |
| AuthRepository.GetCurrentUser | app/src/main/java/com/smartdrive/kenya/data/repository/AuthRepository.kt:91-99 | there is a user exactly when the session has one, with "" for a missing e-mail |
| AuthRepository.SessionStatusIsCurrentUser | app/src/main/java/com/smartdrive/kenya/data/repository/AuthRepository.kt:25-99 | the session flag is true exactly when the current user is present |
| AuthRepository.ProfileRow | app/src/main/java/com/smartdrive/kenya/data/repository/AuthRepository.kt:117-127 | the inserted profile has the user's id, the full name, the customer role and the `mobile_app` sign-up source |
| AuthRepository.SignUp | app/src/main/java/com/smartdrive/kenya/data/repository/AuthRepository.kt:28-58 | a failed auth call gives "Registration failed: " and its message with no write; no user afterwards gives the confirmation message; otherwise one profile insert is made, and the result succeeds exactly when the profile then verifies, else "Profile creation failed. Please try again." |
| AuthRepository.SignUpIgnoresProfileInsertError | app/src/main/java/com/smartdrive/kenya/data/repository/AuthRepository.kt:117-131 | a failing profile insert is swallowed: sign-up's outcome does not depend on it |
| AuthRepository.InsertedProfileCompletesSignUp | app/src/main/java/com/smartdrive/kenya/data/repository/AuthRepository.kt:36-48 | when the inserted profile row is in the table afterwards, sign-up succeeds and the new user's role reads as customer |
| AuthRepository.SignIn | app/src/main/java/com/smartdrive/kenya/data/repository/AuthRepository.kt:60-80 | a failed auth call passes its message on; otherwise sign-in succeeds exactly when there is a current user, and fails with "Sign in failed" when there is none |
| AuthRepository.EmailFallbacksDiffer | app/src/main/java/com/smartdrive/kenya/data/repository/AuthRepository.kt:46-95 | for an auth user with no e-mail, sign-in and sign-up fill in the typed e-mail while the current-user lookup fills in "" |
| AuthRepository.SignOut | app/src/main/java/com/smartdrive/kenya/data/repository/AuthRepository.kt:82-89 | sign-out succeeds exactly when the auth call does, and a failure keeps its message |
| AuthRepository.GetUserProfile | app/src/main/java/com/smartdrive/kenya/data/repository/AuthRepository.kt:101-115 | fails with "Profile not found" exactly when no fetched profile has the id, and otherwise returns the first that does |
| AuthRepository.GetUserProfileFindsListed | app/src/main/java/com/smartdrive/kenya/data/repository/AuthRepository.kt:108-109 | with distinct ids, looking up a listed profile's id returns that profile |
| AuthViewModel.UserRoleOf | app/src/main/java/com/smartdrive/kenya/ui/screens/auth/AuthViewModel.kt:32-33 | the role is known exactly when a profile is loaded, and is that profile's role |
| AuthViewModel.InputError | app/src/main/java/com/smartdrive/kenya/ui/screens/auth/AuthViewModel.kt:132-152 | the checks run in order, blank meaning Kotlin whitespace only, U+001C to U+001F and the Unicode separators included (blank e-mail, e-mail pattern, blank password, a `password.length` under 6, counted in UTF-16 code units), the first that fails names the error, and there is none exactly when the input is acceptable |
| AuthViewModel.ValidateInput | app/src/main/java/com/smartdrive/kenya/ui/screens/auth/AuthViewModel.kt:132-152 | the input passes exactly when it is acceptable and then nothing changes; a rejection changes only the error, which is the first failing check's message |
| AuthViewModel.ValidateSignUpInput | app/src/main/java/com/smartdrive/kenya/ui/screens/auth/AuthViewModel.kt:154-163 | a blank full name is rejected first with "Full name is required"; otherwise the sign-in checks decide, so sign-up input passes exactly when the name is not blank and the sign-in input is acceptable |
| AuthViewModel.SixCharacterPasswordPasses | app/src/main/java/com/smartdrive/kenya/ui/screens/auth/AuthViewModel.kt:146 | a well-formed e-mail with a non-blank six-character password is accepted, leaving the state as it was |
| AuthViewModel.AstralPasswordPasses | app/src/main/java/com/smartdrive/kenya/ui/screens/auth/AuthViewModel.kt:146-151 | three emoji are six UTF-16 code units and pass the length check, while three letters are too short |
| AuthViewModel.SeparatorPasswordIsRequired | app/src/main/java/com/smartdrive/kenya/ui/screens/auth/AuthViewModel.kt:142-147 | `isBlank` counts U+001C as whitespace, so six of them are a missing password, not an accepted one |
| AuthViewModel.WhitespacePasswordIsRequired | app/src/main/java/com/smartdrive/kenya/ui/screens/auth/AuthViewModel.kt:142-147 | a password of spaces shorter than 6 characters is reported as required, not as too short, because the blank check comes first |
| AuthViewModel.AttemptOf | app/src/main/java/com/smartdrive/kenya/ui/screens/auth/AuthViewModel.kt:84-95 | the response folds to success with the user exactly when the repository succeeded, and otherwise carries its message |
| AuthViewModel.Submit | app/src/main/java/com/smartdrive/kenya/ui/screens/auth/AuthViewModel.kt:81-96 | while the call runs loading is on and the error cleared; afterwards loading is off, a success sets the current user with no error, and a failure keeps the user and shows the error's message or the fallback |
| AuthViewModel.SignIn | app/src/main/java/com/smartdrive/kenya/ui/screens/auth/AuthViewModel.kt:78-97 | input that fails the checks makes no call and changes only the error; acceptable input is submitted with "Sign in failed" as the fallback message |
| AuthViewModel.SignUp | app/src/main/java/com/smartdrive/kenya/ui/screens/auth/AuthViewModel.kt:99-118 | input that fails the sign-up checks makes no call and changes only the error, to "Full name is required" for a blank name and otherwise to the first failing sign-in check's message; acceptable input is submitted with "Sign up failed" as the fallback message |
| AuthViewModel.SignUpAgreesWithSignIn | app/src/main/java/com/smartdrive/kenya/ui/screens/auth/AuthViewModel.kt:78-118 | with a non-blank full name, sign-up makes the call exactly when sign-in would, and ends in the same state unless a failure has no message |
| AuthViewModel.SignInEndsLoading | app/src/main/java/com/smartdrive/kenya/ui/screens/auth/AuthViewModel.kt:78-97 | after sign-in, loading is on only if it already was and the input was rejected before any call |
| AuthViewModel.SignInFailureMessage | app/src/main/java/com/smartdrive/kenya/ui/screens/auth/AuthViewModel.kt:89-93 | a failed sign-in on acceptable input shows the failure's message, or "Sign in failed" when it has none |
| AuthViewModel.SignOut | app/src/main/java/com/smartdrive/kenya/ui/screens/auth/AuthViewModel.kt:120-126 | sign-out clears the current user and the profile and leaves the loading flag and error alone |
| AuthViewModel.ClearError | app/src/main/java/com/smartdrive/kenya/ui/screens/auth/AuthViewModel.kt:128-130 | clearing removes the error and changes nothing else |
| AuthViewModel.ClearErrorUndoesRejection | app/src/main/java/com/smartdrive/kenya/ui/screens/auth/AuthViewModel.kt:128-152 | clearing twice is clearing once, and clearing after a rejected validation gives the state clearing alone gives |
| AuthViewModel.LoadUserProfile | app/src/main/java/com/smartdrive/kenya/ui/screens/auth/AuthViewModel.kt:63-76 | a loaded profile replaces the stored one; a failure changes only the error, to the failure's message |
| AuthViewModel.SessionChanged | app/src/main/java/com/smartdrive/kenya/ui/screens/auth/AuthViewModel.kt:40-53 | losing the session is sign-out; gaining it sets the current user, and loads that user's profile storing the profile (so the role becomes the profile's role) when the read succeeds and showing the failure's message as the error otherwise |
| AustinCarDetailsScreen.FindVehicle | app/src/main/java/com/smartdrive/kenya/ui/screens/austin/AustinCarDetailsScreen.kt:47-49 | no vehicle is found exactly when no listed vehicle has the id; a found one is listed and has the id |
| AustinCarDetailsScreen.FindVehicleAgreesWithRepository | app/src/main/java/com/smartdrive/kenya/ui/screens/austin/AustinCarDetailsScreen.kt:47-49 | the screen's lookup finds what the repository's lookup by id returns, and fails exactly when that one does |
| AustinCarDetailsScreen.DetailsScreen | app/src/main/java/com/smartdrive/kenya/ui/screens/austin/AustinCarDetailsScreen.kt:51-75 | the details show exactly when a listed vehicle has the id; otherwise a spinner shows while loading, and "Vehicle not found" after |
| AustinCarDetailsScreen.PricingEstimate | app/src/main/java/com/smartdrive/kenya/ui/screens/austin/AustinCarDetailsScreen.kt:454-458 | the daily rate is the price truncated to an Int, insurance is 1500 a day for the 3 days of the estimate when premium is chosen, and subtotal and total are the 32-bit wrapped products and sums |
| AustinCarDetailsScreen.EstimateWithoutOverflow | app/src/main/java/com/smartdrive/kenya/ui/screens/austin/AustinCarDetailsScreen.kt:454-458 | for a price below 700 million the rate is the price's whole part, the subtotal is three days of it, and premium adds 4500 to the total |
| AustinCarDetailsScreen.PremiumAddsFortyFiveHundred | app/src/main/java/com/smartdrive/kenya/ui/screens/austin/AustinCarDetailsScreen.kt:457-458 | for such prices, premium cover leaves the subtotal and raises the total by exactly 4500 |
| AustinCarDetailsScreen.ToggleInsurance | app/src/main/java/com/smartdrive/kenya/ui/screens/austin/AustinCarDetailsScreen.kt:198 | the toggle flips the premium choice |
| AustinCarDetailsScreen.SelectBasic | app/src/main/java/com/smartdrive/kenya/ui/screens/austin/AustinCarDetailsScreen.kt:524-525 | choosing basic always leaves basic chosen, and changes nothing when it already was |
| AustinCarDetailsScreen.SelectPremium | app/src/main/java/com/smartdrive/kenya/ui/screens/austin/AustinCarDetailsScreen.kt:565-566 | choosing premium always leaves premium chosen, and changes nothing when it already was |
| AustinCarDetailsScreen.ToggleLaws | app/src/main/java/com/smartdrive/kenya/ui/screens/austin/AustinCarDetailsScreen.kt:198-566 | toggling twice restores the choice, and choosing basic or premium twice is choosing once |
| AustinCarDetailsScreen.ToggleFavorite | app/src/main/java/com/smartdrive/kenya/ui/screens/austin/AustinCarDetailsScreen.kt:93 | the heart flips the favourite flag |
| AustinCarDetailsScreen.FavoriteTwiceRestores | app/src/main/java/com/smartdrive/kenya/ui/screens/austin/AustinCarDetailsScreen.kt:93 | two taps on the heart restore the flag |
| AustinBrowseCarsScreen.FilteredVehicles | app/src/main/java/com/smartdrive/kenya/ui/screens/austin/AustinBrowseCarsScreen.kt:44-55 | only the "electric" chip filters, keeping exactly the electric vehicles with their multiplicities; every other chip shows the whole list |
| AustinBrowseCarsScreen.FilteredIsSubsequence | app/src/main/java/com/smartdrive/kenya/ui/screens/austin/AustinBrowseCarsScreen.kt:44-55 | the shown list keeps the loaded order, and the search text does not change it |
| AustinBrowseCarsScreen.TransmissionAbbreviation | app/src/main/java/com/smartdrive/kenya/ui/screens/austin/AustinBrowseCarsScreen.kt:340 | the transmission label is its first four letters with the first one upper-cased |
| AustinBrowseCarsScreen.FuelAbbreviation | app/src/main/java/com/smartdrive/kenya/ui/screens/austin/AustinBrowseCarsScreen.kt:344 | the fuel label is its first three letters with the first one upper-cased |
| AustinBrowseCarsScreen.AbbreviationsDistinct | app/src/main/java/com/smartdrive/kenya/ui/screens/austin/AustinBrowseCarsScreen.kt:340-344 | different transmissions, and different fuel types, get different labels |
| MyRentalsScreen.RentalsScreen | app/src/main/java/com/smartdrive/kenya/ui/screens/rentals/MyRentalsScreen.kt:39-121 | loading shows the spinner; otherwise an error shows its message; otherwise an empty list shows the empty state; otherwise the rentals are listed in the order loaded |
| MyRentalsScreen.ListShownIff | app/src/main/java/com/smartdrive/kenya/ui/screens/rentals/MyRentalsScreen.kt:39-121 | the list shows exactly when nothing is loading, there is no error and there is at least one rental |
| MyRentalsScreen.CardActions | app/src/main/java/com/smartdrive/kenya/ui/screens/rentals/MyRentalsScreen.kt:236-283 | a pending rental offers Cancel; a confirmed one Cancel and View Details; a completed one Leave Review; active, cancelled and overdue ones View Details |
| MyRentalsScreen.CancelOfferedIff | app/src/main/java/com/smartdrive/kenya/ui/screens/rentals/MyRentalsScreen.kt:236-283 | Cancel is offered exactly for pending and confirmed rentals, Leave Review exactly for completed ones, and every card has an action |
| MyRentalsScreen.OnCancelRental | app/src/main/java/com/smartdrive/kenya/ui/screens/rentals/MyRentalsScreen.kt:116 | the cancel button asks for that rental to be cancelled with the reason "Cancelled by user" |
| MyRentalsScreen.ChipLabel | app/src/main/java/com/smartdrive/kenya/ui/screens/rentals/MyRentalsScreen.kt:289-321 | every status has a non-empty chip label |
| MyRentalsScreen.ChipLabelsDistinct | app/src/main/java/com/smartdrive/kenya/ui/screens/rentals/MyRentalsScreen.kt:289-321 | different statuses have different chip labels |
| MyRentalsScreen.FormatRentalDate | app/src/main/java/com/smartdrive/kenya/ui/screens/rentals/MyRentalsScreen.kt:337-344 | a date that parses is shown in the display format; one that does not is shown as stored |
| AustinBookingsScreen.BookingsScreen | app/src/main/java/com/smartdrive/kenya/ui/screens/austin/AustinBookingsScreen.kt:73-125 | loading shows the spinner; otherwise an error shows its message; otherwise an empty list shows the empty state; otherwise the rentals are listed |
| AustinBookingsScreen.ScreensAgree | app/src/main/java/com/smartdrive/kenya/ui/screens/austin/AustinBookingsScreen.kt:73-125 | the bookings tab and the My Rentals screen choose the same view for every state |
| AustinBookingsScreen.CancelEligibilityAgrees | app/src/main/java/com/smartdrive/kenya/ui/screens/austin/AustinBookingsScreen.kt:298 | the bookings card offers cancelling for exactly the statuses the My Rentals card offers it for |
| AustinBookingsScreen.Step | app/src/main/java/com/smartdrive/kenya/ui/screens/austin/AustinBookingsScreen.kt:115-155 | tapping cancel on a pending or confirmed booking opens the dialog for it; confirming an open dialog requests that booking's cancellation and closes it; Keep Booking and dismissing close it without a request; nothing else changes anything |
| AustinBookingsScreen.Run | app/src/main/java/com/smartdrive/kenya/ui/screens/austin/AustinBookingsScreen.kt:115-155 | a run of taps never issues more requests than there were events |
| AustinBookingsScreen.RequestsTargetTappedBookings | app/src/main/java/com/smartdrive/kenya/ui/screens/austin/AustinBookingsScreen.kt:115-155 | every cancellation the dialog requests carries the fixed reason and names a booking whose cancel button was tapped while it was pending or confirmed |
| AustinBookingsScreen.DismissNeverCancels | app/src/main/java/com/smartdrive/kenya/ui/screens/austin/AustinBookingsScreen.kt:129-152 | taps on cancel followed only by Keep Booking or dismissals never request a cancellation |
| AustinBookingsScreen.BadgeLabel | app/src/main/java/com/smartdrive/kenya/ui/screens/austin/AustinBookingsScreen.kt:351-384 | the bookings badge reads the same as the My Rentals chip for every status |
| AustinBookingsScreen.BadgeLabelsDistinct | app/src/main/java/com/smartdrive/kenya/ui/screens/austin/AustinBookingsScreen.kt:351-384 | badge labels are non-empty and different statuses read differently |
| WebModel.OrElse | src/pages/BookVehicle.tsx:132 | `x \|\| fallback` on text: a present, non-empty value is kept, and a missing or empty one gives the fallback |
| WebModel.GetFeatures | src/pages/BookVehicle.tsx:140-144 | a JSON array of features is returned as it is; anything else, null included, gives the empty list |
| BookVehicle.SingleBookable | src/pages/BookVehicle.tsx:45-52 | `.single()` on the id and `available` filters succeeds exactly when one row has the id and is available, returning that listed row; no match or several matches fail with the unavailable message |
| BookVehicle.NoneBookableFiltersNothing | src/pages/BookVehicle.tsx:48-49 | when no row has both the id and the available status, the filtered result is empty |
| BookVehicle.FetchVehicle | src/pages/BookVehicle.tsx:43-70 | a failed read leaves no vehicle and sends the user to the vehicles page; a found vehicle is shown and both locations default to its location, or to "" when it has none, with the dates and notes untouched |
| BookVehicle.CeilDays | src/pages/BookVehicle.tsx:77 | the day count is the smallest whole number of days covering the span |
| BookVehicle.ChargedDays | src/pages/BookVehicle.tsx:77-79 | at least one day is charged; a positive span is charged its whole days rounded up, and a zero or negative span one day |
| BookVehicle.ChargedDaysExamples | src/pages/BookVehicle.tsx:77-79 | k whole days cost k days, any part of a further day costs one more, and an empty or reversed span costs one day |
| BookVehicle.CalculateTotalCost | src/pages/BookVehicle.tsx:72-80 | with no vehicle or either date empty the cost is 0; otherwise it is the daily rate times the charged days |
| BookVehicle.CostPositiveIffRate | src/pages/BookVehicle.tsx:72-80 | with both dates filled in, the cost is positive exactly when the daily rate is, so reversed dates are still charged a day |
| BookVehicle.SubmitDisabled | src/pages/BookVehicle.tsx:305 | the button is disabled while submitting or while either date is empty, and enabled otherwise |
| BookVehicle.EnabledSubmitIsCharged | src/pages/BookVehicle.tsx:305 | whenever the button is enabled the cost is the daily rate times a day count of at least one |
| BookVehicle.HandleSubmit | src/pages/BookVehicle.tsx:82-138 | without a user or vehicle nothing happens; a booking is made exactly when the cost is positive and both inserts succeed; the lock insert is made first and the booking insert only after it succeeds, with the form's fields and the computed cost; a failure shows its message or the generic one |
| BookVehicle.InvalidDatesIffNoCost | src/pages/BookVehicle.tsx:88-92 | submission fails with "Invalid booking dates" before any write exactly when the cost is not positive, which with both dates filled in happens exactly when the daily rate is not positive |
| BookVehicle.LockComesFirst | src/pages/BookVehicle.tsx:94-120 | a booking insert is always the second write, preceded by a lock on the same vehicle, customer and dates; when the lock fails no booking is written |
| AustinCarDetailsPage.DailyRate | src/pages/AustinCarDetails.tsx:93 | `daily_rate \|\| 49`: a non-zero rate is used as it is and a zero rate becomes 49, so the rate used is never zero |
| AustinCarDetailsPage.PricingEstimate | src/pages/AustinCarDetails.tsx:92-96 | the estimate is three days at the daily rate, plus 15 a day of insurance when premium is chosen |
| AustinCarDetailsPage.PremiumAddsFortyFive | src/pages/AustinCarDetails.tsx:92-96 | premium adds exactly 45 to the total and leaves the subtotal, and a zero-rate vehicle's basic total is 147 |
| AustinCarDetailsPage.Images | src/pages/AustinCarDetails.tsx:83-90 | a vehicle with an image shows just that image; one without shows four copies of the placeholder; there is always at least one |
| AustinCarDetailsPage.FourOfFiveStars | src/pages/AustinCarDetails.tsx:148-155 | the rating always shows four filled stars out of five |
| AustinCarDetailsPage.HandleBookNow | src/pages/AustinCarDetails.tsx:50-61 | a signed-out visitor is sent to the sign-in page; a signed-in one to the booking page of this vehicle |
| AustinCarDetailsPage.ChooseBasic | src/pages/AustinCarDetails.tsx:261 | choosing basic cover leaves basic chosen |
| AustinCarDetailsPage.ChoosePremium | src/pages/AustinCarDetails.tsx:280 | choosing premium cover leaves premium chosen |
| AustinCarDetailsPage.ChoicesAgreeWithAndroid | src/pages/AustinCarDetails.tsx:261-280 | the web cover buttons are idempotent and behave as the Android screen's basic and premium choices do |
| FleetManagement.InitialForm | src/pages/admin/FleetManagement.tsx:22-37 | the empty form has the current year, no features and gasoline as its fuel |
| FleetManagement.ResetForm | src/pages/admin/FleetManagement.tsx:160-177 | the reset form is available, economy, five seats |
| FleetManagement.ResetIsInitial | src/pages/admin/FleetManagement.tsx:22-177 | resetting gives exactly the initial form, whose fuel "gasoline" the Android `FuelType.fromString` maps to PETROL |
| FleetManagement.TrimAll | src/pages/admin/FleetManagement.tsx:82 | every piece is trimmed, and none is dropped or reordered |
| FleetManagement.ParseFeatures | src/pages/admin/FleetManagement.tsx:82 | an empty text gives no features; otherwise one feature per comma-separated piece, each trimmed and without a comma |
| FleetManagement.FeaturesText | src/pages/admin/FleetManagement.tsx:118 | an array of features is shown joined with ", "; anything else shows as empty text |
| FleetManagement.FeaturesRoundTrip | src/pages/admin/FleetManagement.tsx:82-118 | trimmed features without commas survive being shown in the form and saved back, unless the list is a single empty feature |
| FleetManagement.SingleEmptyFeatureIsLost | src/pages/admin/FleetManagement.tsx:82-118 | a list holding one empty feature is saved back as no features |
| FleetManagement.EditForm | src/pages/admin/FleetManagement.tsx:116-134 | editing fills the form from the vehicle: missing mileage becomes 0, a missing location "", and features their joined text; the other fields are copied |
| FleetManagement.ToVehicleData | src/pages/admin/FleetManagement.tsx:68-83 | the saved row carries the form's fields and the parsed features |
| FleetManagement.EditThenSaveKeepsVehicle | src/pages/admin/FleetManagement.tsx:68-134 | opening a vehicle for editing and saving without changes writes back its fields and features, with missing mileage and location filled in |
| FleetManagement.HandleEdit | src/pages/admin/FleetManagement.tsx:116-136 | editing opens the dialog on that vehicle with its form |
| FleetManagement.HandleSubmit | src/pages/admin/FleetManagement.tsx:64-114 | an edited vehicle is updated by id and a new one inserted; success closes the dialog and resets the form, and a failure keeps everything and shows its message or "Failed to save vehicle." |
| FleetManagement.HandleDelete | src/pages/admin/FleetManagement.tsx:138-158 | nothing happens unless confirmed; a confirmed delete removes that vehicle by id and reports an error exactly when the write fails: the error's message, or "Failed to delete vehicle." when it is empty |
| FleetManagement.EditThenSubmitUpdatesSameRow | src/pages/admin/FleetManagement.tsx:85-104 | saving right after opening a vehicle updates that same vehicle and resets the form |
| FleetManagement.StatusColor | src/pages/admin/FleetManagement.tsx:179-187 | each of the four statuses has its colour, and any other status the grey one |
| FleetManagement.StatusColorsDistinct | src/pages/admin/FleetManagement.tsx:179-187 | the four statuses' colours differ from each other and from the grey one |
| FleetManagement.BadgeText | src/pages/admin/FleetManagement.tsx:431 | the badge has as many characters as the status |
| FleetManagement.BadgeReplacesFirstUnderscore | src/pages/admin/FleetManagement.tsx:431 | `replace('_', ' ')` changes only the first underscore into a space |
| FleetManagement.OutOfServiceBadge | src/pages/admin/FleetManagement.tsx:431 | the out-of-service badge reads "out of_service" |
| VehiclesPage.TypesAreTheEnum | src/pages/Vehicles.tsx:77 | the type filter lists exactly the database's vehicle types, each once |
| VehiclesPage.TypeOptions | src/pages/Vehicles.tsx:115-120 | the first option is "All Types" with an empty value, followed by one option per type in order, each labelled with the type with its first letter changed |
| VehiclesPage.TypeLabelsCapitalised | src/pages/Vehicles.tsx:118 | each type's label starts with the upper-case form of the type's first letter |
| VehiclesPage.FeaturePreview | src/pages/Vehicles.tsx:183-199 | up to three features are shown as they are; with more, the first three are shown and the rest counted |
| VehiclesPage.PreviewAccountsForAll | src/pages/Vehicles.tsx:183-199 | the shown features are a prefix of at most three, the shown and the counted add up to all of them, and the count is positive exactly when some are hidden |
| VehiclesPage.CardFeatures | src/pages/Vehicles.tsx:148-149 | a card whose features are not an array shows none; otherwise shown and counted add up to the array's length |
| VehiclesPage.HandleBookVehicle | src/pages/Vehicles.tsx:64-75 | a signed-out visitor is sent to the sign-in page; a signed-in one to the booking page of that vehicle |
| VehiclesPage.BookingRoutesAgree | src/pages/Vehicles.tsx:64-75 | the list's Book button routes as the details page's Book Now button does |
| BookingsPage.Scoped | src/pages/Bookings.tsx:57-60 | a customer sees exactly the bookings with their own id; any other role sees every row |
| BookingsPage.FetchBookings | src/pages/Bookings.tsx:39-76 | without a user nothing happens; otherwise loading ends, a failed read keeps the list and reports "Failed to load bookings. Please try again.", and a successful one shows the rows scoped to the role |
| BookingsPage.CustomerSeesOnlyOwn | src/pages/Bookings.tsx:43-65 | a customer's list holds exactly their own bookings in the order read; admins and agents see every row |
| BookingsPage.CancelShown | src/pages/Bookings.tsx:206 | the cancel button is shown exactly for a pending booking viewed by a customer |
| BookingsPage.CancelEligibilityDiffersFromAndroid | src/pages/Bookings.tsx:206 | a customer's confirmed booking can be cancelled on the Android bookings tab but not on the web page, while the two agree on pending ones |
| BookingsPage.ApplyUpdate | src/pages/Bookings.tsx:80-83 | the update sets the status of the rows with that id and leaves every other row alone |
| BookingsPage.CancelBooking | src/pages/Bookings.tsx:78-102 | one status update to cancelled is written; a failure keeps the table and reports "Failed to cancel booking. Please try again.", a success changes that booking only |
| BookingsPage.CancelledBookingLosesButton | src/pages/Bookings.tsx:78-102 | after a successful cancel the customer still sees the booking, now cancelled and without a cancel button, and every other booking is unchanged |
| BookingsPage.StatusLabel | src/pages/Bookings.tsx:147 | the label is the status with its first letter upper-cased |
| BookingsPage.LabelsAgreeWithAndroid | src/pages/Bookings.tsx:147 | for every status but overdue the web label reads as the Android chip |
| BookingsPage.StatusColor | src/pages/Bookings.tsx:104-113 | each of the five statuses has its colour, and any other status gets the default grey |
| BookingsPage.StatusColors | src/pages/Bookings.tsx:104-113 | the five known statuses get five different colour classes |
| BookingsPage.CompletedLooksUnknown | src/pages/Bookings.tsx:109-111 | a completed booking gets the same grey as a status the page does not know, such as "awaiting_payment" or "scheduled" |
| UserManagement.MarkAllActive | src/pages/admin/UserManagement.tsx:51-53 | every user read without the active column is marked active, and nothing else about the list changes |
| UserManagement.FetchUsers | src/pages/admin/UserManagement.tsx:34-68 | a successful first read is used as it is; an error naming the missing active column triggers a second read whose users are all marked active; any other error, or a failing second read, is reported with its message or "Failed to load users." |
| UserManagement.FallbackUsersAreActive | src/pages/admin/UserManagement.tsx:41-53 | when the active column is missing, every user of the second read is shown active, with the same ids and e-mails in the same order |
| UserManagement.FilteredUsers | src/pages/admin/UserManagement.tsx:150-152 | the shown users are exactly those whose e-mail contains the search term, ignoring case |
| UserManagement.SearchKeepsOrder | src/pages/admin/UserManagement.tsx:150-152 | the search keeps the loaded order, and an empty term shows everyone |
| UserManagement.SearchIgnoresCase | src/pages/admin/UserManagement.tsx:151 | searching for a term or for its lower-case form shows the same users |
| UserManagement.ToggleAction | src/pages/admin/UserManagement.tsx:100 | the action is "deactivate" exactly for an active user and "activate" exactly for an inactive one |
| UserManagement.ToggleUserActivation | src/pages/admin/UserManagement.tsx:99-142 | nothing is written unless confirmed; a confirmed toggle writes the opposite of the user's current activity, succeeds exactly when the write does, reports a missing active column as the feature being unavailable, and otherwise shows the error's message or "Failed to <action> user." |
| UserManagement.UnsetMeansActive | src/pages/admin/UserManagement.tsx:163-251 | a user whose activity was never set is shown as active and is deactivated by the toggle |
| UserManagement.StatusBadge | src/pages/admin/UserManagement.tsx:231-233 | the badge reads "Active" exactly when the user is not marked inactive, and "Inactive" otherwise |
| UserManagement.StatusColor | src/pages/admin/UserManagement.tsx:162-167 | active users get the green badge and inactive ones the red |
| UserManagement.ToggleCaption | src/pages/admin/UserManagement.tsx:252-263 | the button reads "Deactivate" exactly for active users and "Activate" for inactive ones |
| UserManagement.RowIsConsistent | src/pages/admin/UserManagement.tsx:231-263 | on every row the badge text, its colour, the button caption and the confirmed action agree |
| UserManagement.ToggleFlipsBadge | src/pages/admin/UserManagement.tsx:108-112 | the value a confirmed toggle writes flips the user's badge |
| UserManagement.HandleEditRole | src/pages/admin/UserManagement.tsx:144-148 | editing opens the role dialog on that user with their current role selected |
| UserManagement.UpdateUserRole | src/pages/admin/UserManagement.tsx:70-97 | without a user or a role nothing happens; otherwise the role is written by id, a success closes the dialog, and a failure keeps it open with the error's message or "Failed to update user role." |
| UserManagement.SavingUnchangedRoleRewritesIt | src/pages/admin/UserManagement.tsx:70-148 | saving the dialog without changing the role still writes the same role back, unless the role is empty |
| UserManagement.RoleColor | src/pages/admin/UserManagement.tsx:154-160 | admins are red, agents blue, and every other role green |
| UserManagement.RoleColoursShareStatusColours | src/pages/admin/UserManagement.tsx:154-167 | the admin colour is the inactive colour, the customer colour the active one, and the three role colours differ |
| SystemSettings.MapFromLastWins | src/pages/admin/SystemSettings.tsx:42-45 | folding rows into the record gives each key the value of its last row, and keeps the starting value of keys without a row |
| SystemSettings.SettingsMapLastWins | src/pages/admin/SystemSettings.tsx:42-45 | the settings record holds, for each key, the value of the last row with that key, and nothing for keys with no row |
| SystemSettings.LoadSettings | src/pages/admin/SystemSettings.tsx:34-56 | a failed read changes nothing; otherwise only currency, maintenance mode and auto backup change: the currency takes a non-empty stored value or keeps the old one, and each flag is on exactly when its stored value is "true" |
| SystemSettings.MissingRowsDiffer | src/pages/admin/SystemSettings.tsx:49-51 | with no rows the form keeps its currency, an empty stored currency is ignored, and maintenance mode is switched off, whereas the settings provider keeps its flag when the row is missing |
| SystemSettings.FlagsAgreeWithContext | src/pages/admin/SystemSettings.tsx:50-51 | when both flag rows are present the settings page and the settings provider read the same flags |
| SystemSettings.HandleSettingChange | src/pages/admin/SystemSettings.tsx:58-60 | a change of one field to a value of its type sets that field and leaves every other field as it was |
| SystemSettings.ReadDetermines | src/pages/admin/SystemSettings.tsx:58-60 | two forms that agree on every field are the same form |
| SystemSettings.ChangesCommute | src/pages/admin/SystemSettings.tsx:58-60 | changes to different fields can be made in either order |
| SystemSettings.LaterChangeWins | src/pages/admin/SystemSettings.tsx:58-60 | of two changes to the same field, the later one is what remains |
| SystemSettings.SaveRows | src/pages/admin/SystemSettings.tsx:66-70 | the save writes three rows in order: the currency as it is, then maintenance mode and auto backup as text that reads back as the flags |
| SystemSettings.HandleSave | src/pages/admin/SystemSettings.tsx:62-98 | the rows are upserted in order and the first failure stops the rest; "Settings saved" is shown exactly when all three succeed, and then the table holds all three; otherwise the failed write's message, or "Failed to save settings.", is shown and only the rows before it are applied |
| SystemSettings.AppliedStep | src/pages/admin/SystemSettings.tsx:72-82 | applying one more row is one more upsert on the table so far |
| SystemSettings.SavedTable | src/pages/admin/SystemSettings.tsx:66-82 | after a full save the table has the three keys, with the form's currency and its two flags as text |
| SystemSettings.SaveThenLoad | src/pages/admin/SystemSettings.tsx:34-98 | loading any listing of the saved table gives back the saved flags, and the saved currency when it is not empty |
| SettingsContext.FlagRoundTrip | src/contexts/SettingsContext.tsx:51-102 | a flag written as text reads back as itself; reading is exact, so only "true" and "false" survive a read and a write, and other spellings of truth read as false |
| SettingsContext.LastValue | src/contexts/SettingsContext.tsx:45-57 | there is no value exactly when no row has the key, and a value found is that of a row with the key |
| SettingsContext.ListedLastValue | src/contexts/SettingsContext.tsx:39-57 | whatever order the table's rows come in, the value read for a key is the table's value for it |
| SettingsContext.Upsert | src/contexts/SettingsContext.tsx:67-69 | the upsert gives the key its new value and leaves every other key as it was |
| SettingsContext.ApplySetting | src/contexts/SettingsContext.tsx:46-56 | a currency row sets the currency, a flag row sets its flag to whether the value is "true", and any other key changes nothing |
| SettingsContext.FetchSettings | src/contexts/SettingsContext.tsx:37-63 | loading always ends; a failed or empty read changes nothing else |
| SettingsContext.ApplyAllLastWins | src/contexts/SettingsContext.tsx:45-57 | after the loop each bound field has the value of the last row with its key, or keeps its old value without one, and dark mode and loading are untouched |
| SettingsContext.FetchSettingsLastWins | src/contexts/SettingsContext.tsx:37-63 | a successful read gives each bound field its last row's value and keeps fields without a row; dark mode is never read from the table |
| SettingsContext.UpdateSetting | src/contexts/SettingsContext.tsx:65-97 | one upsert of the key and value is made; only when it succeeds does the bound field change, and a failure leaves the settings and shows the error's message or "Failed to update settings." |
| SettingsContext.UpdateThenFetchAgrees | src/contexts/SettingsContext.tsx:37-97 | after a successful update of a bound key, reading the upserted table back gives that field the value the update gave it |
| SettingsContext.Mount | src/contexts/SettingsContext.tsx:26-35 | on mount dark mode is on exactly when storage holds "true"; then the dark class is added, and otherwise left as it was |
| SettingsContext.ToggleDarkMode | src/contexts/SettingsContext.tsx:99-109 | the toggle flips dark mode, stores the new value as text and sets the dark class to match |
| SettingsContext.DarkModeRoundTrip | src/contexts/SettingsContext.tsx:26-109 | two toggles restore the mode with the class matching, and the stored value is read back as the mode on the next mount |
| AdminDashboard.Tally | src/components/dashboards/AdminDashboard.tsx:34-51 | every vehicle adds one to the total and one to the counter of its status, when that is one of the four |
| AdminDashboard.ComputeFleetStats | src/components/dashboards/AdminDashboard.tsx:34-51 | without vehicle data all counters are zero |
| AdminDashboard.TallyAllCounts | src/components/dashboards/AdminDashboard.tsx:34-51 | folding from any start adds the number of vehicles to the total and the number with each status to its counter |
| AdminDashboard.FleetStatsCount | src/components/dashboards/AdminDashboard.tsx:34-51 | the total is the number of vehicles and each counter the number of vehicles with that status |
| AdminDashboard.KnownCountBound | src/components/dashboards/AdminDashboard.tsx:34-51 | the vehicles with one of the four statuses are never more than all vehicles, and are all of them exactly when every status is one of the four |
| AdminDashboard.CountersWithinTotal | src/components/dashboards/AdminDashboard.tsx:34-51 | the four counters add up to at most the total, and to exactly the total when every status is one of the database's four |
| AdminDashboard.Contribution | src/components/dashboards/AdminDashboard.tsx:82 | a cost that is not a number contributes 0 and a number contributes itself |
| AdminDashboard.Revenue | src/components/dashboards/AdminDashboard.tsx:74-83 | without cost data the revenue is 0 |
| AdminDashboard.RevenueFromIsSum | src/components/dashboards/AdminDashboard.tsx:82 | the left fold from any start adds the sum of the contributions to it |
| AdminDashboard.RevenueIsSum | src/components/dashboards/AdminDashboard.tsx:74-83 | the revenue is the sum of the contributions, and is never negative when no cost is |
| AdminDashboard.NaNAddsNothing | src/components/dashboards/AdminDashboard.tsx:82 | dropping the costs that are not numbers leaves the sum of contributions unchanged |
| AdminDashboard.DroppingNaNKeepsRevenue | src/components/dashboards/AdminDashboard.tsx:74-83 | the revenue over the numeric costs alone equals the revenue over all rows |
| AdminDashboard.FetchDashboardData | src/components/dashboards/AdminDashboard.tsx:25-95 | the four queries run in order and each card shows its result as it arrives; the first failure, whichever of the four it is, stops the rest, keeps the later cards as they were and shows its message or "Failed to load dashboard data.", and loading always ends |
| AdminDashboard.FailureStopsLaterCards | src/components/dashboards/AdminDashboard.tsx:25-95 | a failing profile count still shows the fleet but leaves the later cards at zero and shows the generic message when the error has none |

## Left out

- Network, database and authentication SDK calls are not modelled. Their results are inputs, and the writes they would make are recorded as data.
  - Filters that run inside a query are not modelled either; the rows they return are inputs. These are the `eq`/`in`/`gte` filters of `Vehicles.tsx`, the dashboard's counts, the month filter on revenue, the `created_at` ordering of the web lists, and `.single()` beyond its match/no-match outcome.
- Coroutines, `StateFlow` collection and React effects are not modelled. Each view-model method or handler is one sequential state transformer, so interleavings of concurrent calls are left out.
- Floating-point arithmetic is left out. Prices are exact reals, so IEEE rounding is not modelled. `String.format` and `toFixed` display formatting is left out too.
- `java.time` and JavaScript `Date` are left out.
  - Android dates are epoch days, and an ISO date string is either a parsed day or text that does not parse.
  - Web date strings reach milliseconds through a `toMillis` parameter. Invalid dates (`NaN` milliseconds) and daylight-saving effects on the day count are not modelled.
  - Time stamps (`created_at`, `updated_at`, `Clock.System.now()`) are plain string inputs.
- The Android e-mail regex is an uninterpreted predicate parameter, `isEmail`.
- Rendering is not modelled: layout, icons and toasts. Only the text, the colour class or the choice of view that a rule decides is kept.
- `RentalRepository` operations that only wrap a query or an update with no rule of their own are left out: `getRentalLocations`, `getRentalExtras`, `getRentalById`, `createPayment` and `cancelRental`. The `RentalSummary` decoration made by `createRentalSummary` is left out too, so `getUserRentals` is modelled up to that decoration.
- `DatabaseHelper.testConnection` is a connectivity probe and is not modelled.
- Text case mapping (`uppercase`, `toLowerCase`) covers ASCII letters only. Whitespace follows Kotlin `Char.isWhitespace` for `isBlank` and the ECMAScript whitespace set for `trim`, with the separators of current Unicode (U+180E is not one).
- Exceptions whose message is null are modelled only for sign-in and sign-up (`AuthViewModel.Attempt`). Elsewhere a failure carries a message, so fallbacks such as `createBooking`'s "Failed to create booking" for a message-less `createRental` failure are not reached, nor is the text "null" that `"${e.message}"` would produce. JavaScript `x || fallback` is modelled for an empty message.
- `SystemSettings` number fields are typed as `Int` or `NotANumber` for `parseInt`. The digits are not parsed: a change carries the parsed value as an input.
- Rows are decoded into the Kotlin enums through their `@SerialName` values by `decodeList`, which is not modelled. The `fromString` parsers are modelled as written, but no Kotlin source calls them, so their fallbacks say nothing about how decoding treats an unknown value such as "out_of_service".
- RentalRepository.CheckVehicleAvailability: a stored date that does not parse gives the availability prefix followed by that date's text. The JVM's `DateTimeParseException` message wraps the text ("Text '…' could not be parsed …"), and that wording is not modelled.
- AustinCarDetailsScreen.EstimateWithoutOverflow: states the plain arithmetic only for prices from 0 up to 700 million, where no 32-bit product wraps. `PricingEstimate` itself states the wrapped results for every price.
- AustinCarDetailsScreen.PremiumAddsFortyFiveHundred: holds for the same range of prices, for the same reason.
- BookingViewModel.QuoteEqualsCharge: holds in exact arithmetic only. With `Double` amounts, the quote and the charge group their sums differently and can differ in the last bits.

## Findings

| source | as written | input that shows it | evidently intended | confidence | as-written member | corrected member |
|---|---|---|---|---|---|---|
| app/src/main/java/com/smartdrive/kenya/ui/screens/booking/BookingViewModel.kt:122-129 | `calculatePricing` returns early on a return date before the pickup date, and leaves `isValidForBooking` from the previous pricing | a form priced for days 10 to 12 is bookable; `updateDates(10, 5)` keeps it bookable with the 2-day quote, and `createRental` then charges 1 day | a form that cannot be priced is not bookable, so a bookable form's quote is always current | not executed | BookingViewModel.StaleGateAfterReversedDates | BookingViewModel.GatedBookingChargesQuote |

=== FILE: admin_dashboard.dfy ===
/** The administrator's dashboard of the web client
    (src/components/dashboards/AdminDashboard.tsx): the fleet tally, the
    month's revenue, and the order in which the four queries are made and
    fail. The queries' filters run in the database; their results are
    inputs here. */
module AdminDashboard {
  import opened Wrappers
  import Seqs
  import opened WebModel

  /** The five fleet counters. */
  datatype FleetStats = FleetStats(total: nat, available: nat, rented: nat, maintenance: nat, outOfService: nat)

  const NoFleet: FleetStats := FleetStats(0, 0, 0, 0, 0)

  /** One step of the tally: every vehicle counts in `total`, and in the
      counter of its status when it has one of the four; any other status
      counts in `total` only. */
  function Tally(acc: FleetStats, status: string): (next: FleetStats)
    ensures next.total == acc.total + 1
    ensures next.available == acc.available + (if status == "available" then 1 else 0)
    ensures next.rented == acc.rented + (if status == "rented" then 1 else 0)
    ensures next.maintenance == acc.maintenance + (if status == "maintenance" then 1 else 0)
    ensures next.outOfService == acc.outOfService + (if status == "out_of_service" then 1 else 0)
  {
    var acc := acc.(total := acc.total + 1);
    match status
    case "available" => acc.(available := acc.available + 1)
    case "rented" => acc.(rented := acc.rented + 1)
    case "maintenance" => acc.(maintenance := acc.maintenance + 1)
    case "out_of_service" => acc.(outOfService := acc.outOfService + 1)
    case _ => acc
  }

  /** `vehicles.reduce(tally, acc)`, from the left. */
  function TallyAll(acc: FleetStats, statuses: seq<string>): FleetStats
    decreases |statuses|
  {
    if |statuses| == 0 then acc else TallyAll(Tally(acc, statuses[0]), statuses[1..])
  }

  /** The stats of the `status` column; a missing result gives all zeros. */
  function ComputeFleetStats(statuses: Option<seq<string>>): (s: FleetStats)
    ensures statuses.None? ==> s == NoFleet
  {
    match statuses
    case None => NoFleet
    case Some(xs) => TallyAll(NoFleet, xs)
  }

  /** Number of vehicles with one of the four known statuses. */
  function KnownCount(xs: seq<string>): nat {
    multiset(xs)["available"] + multiset(xs)["rented"] + multiset(xs)["maintenance"] + multiset(xs)["out_of_service"]
  }

  lemma {:induction false} TallyAllCounts(acc: FleetStats, xs: seq<string>)
    ensures TallyAll(acc, xs).total == acc.total + |xs|
    ensures TallyAll(acc, xs).available == acc.available + multiset(xs)["available"]
    ensures TallyAll(acc, xs).rented == acc.rented + multiset(xs)["rented"]
    ensures TallyAll(acc, xs).maintenance == acc.maintenance + multiset(xs)["maintenance"]
    ensures TallyAll(acc, xs).outOfService == acc.outOfService + multiset(xs)["out_of_service"]
    decreases |xs|
  {
    if |xs| > 0 {
      TallyAllCounts(Tally(acc, xs[0]), xs[1..]);
      assert xs == [xs[0]] + xs[1..];
      assert multiset(xs) == multiset([xs[0]]) + multiset(xs[1..]);
    }
  }

  /** Each counter is the number of vehicles with that status, and the
      total is the number of vehicles. */
  lemma FleetStatsCount(xs: seq<string>)
    ensures ComputeFleetStats(Some(xs)).total == |xs|
    ensures ComputeFleetStats(Some(xs)).available == multiset(xs)["available"]
    ensures ComputeFleetStats(Some(xs)).rented == multiset(xs)["rented"]
    ensures ComputeFleetStats(Some(xs)).maintenance == multiset(xs)["maintenance"]
    ensures ComputeFleetStats(Some(xs)).outOfService == multiset(xs)["out_of_service"]
  {
    TallyAllCounts(NoFleet, xs);
  }

  lemma {:induction false} KnownCountBound(xs: seq<string>)
    ensures KnownCount(xs) <= |xs|
    ensures KnownCount(xs) == |xs| <==> forall s :: s in xs ==> s in VehicleStatusEnum
  {
    if |xs| > 0 {
      var rest := xs[1..];
      KnownCountBound(rest);
      assert xs == [xs[0]] + rest;
      assert multiset(xs) == multiset([xs[0]]) + multiset(rest);
      if xs[0] in VehicleStatusEnum {
        assert KnownCount(xs) == KnownCount(rest) + 1;
        assert forall s :: s in xs <==> s == xs[0] || s in rest;
      } else {
        assert KnownCount(xs) == KnownCount(rest);
      }
    }
  }

  /** The four status counters never add up to more than the total, and
      they add up to it exactly when every vehicle's status is one of the
      database's four: a vehicle with another status is in the total only. */
  lemma CountersWithinTotal(xs: seq<string>)
    ensures var s := ComputeFleetStats(Some(xs));
      s.available + s.rented + s.maintenance + s.outOfService <= s.total
    ensures var s := ComputeFleetStats(Some(xs));
      s.available + s.rented + s.maintenance + s.outOfService == s.total <==> forall v :: v in xs ==> v in VehicleStatusEnum
  {
    FleetStatsCount(xs);
    KnownCountBound(xs);
  }

  // ---------------------------------------------------------------- revenue

  /** What `Number(total_cost)` gives: a number or NaN. */
  datatype NumberValue = Num(value: real) | NaN

  /** `Number(total_cost) || 0`: NaN (and zero) become zero. */
  function Contribution(n: NumberValue): (r: real)
    ensures n.NaN? ==> r == 0.0
    ensures n.Num? ==> r == n.value
  {
    match n
    case NaN => 0.0
    case Num(v) => if v == 0.0 then 0.0 else v
  }

  /** `reduce((sum, b) => sum + contribution, acc)`, from the left. */
  function RevenueFrom(acc: real, costs: seq<NumberValue>): real
    decreases |costs|
  {
    if |costs| == 0 then acc else RevenueFrom(acc + Contribution(costs[0]), costs[1..])
  }

  /** The revenue card; a missing result gives zero. */
  function Revenue(costs: Option<seq<NumberValue>>): (r: real)
    ensures costs.None? ==> r == 0.0
  {
    match costs
    case None => 0.0
    case Some(xs) => RevenueFrom(0.0, xs)
  }

  lemma {:induction false} RevenueFromIsSum(acc: real, xs: seq<NumberValue>)
    ensures RevenueFrom(acc, xs) == acc + Seqs.SumOf(xs, Contribution)
    decreases |xs|
  {
    if |xs| > 0 {
      RevenueFromIsSum(acc + Contribution(xs[0]), xs[1..]);
    }
  }

  /** The left fold is the plain sum of the contributions, so rows that are
      not numbers add nothing and non-negative costs give a non-negative
      revenue. */
  lemma RevenueIsSum(xs: seq<NumberValue>)
    ensures Revenue(Some(xs)) == Seqs.SumOf(xs, Contribution)
    ensures (forall i :: 0 <= i < |xs| ==> xs[i].NaN? || xs[i].value >= 0.0) ==> Revenue(Some(xs)) >= 0.0
  {
    RevenueFromIsSum(0.0, xs);
    if forall i :: 0 <= i < |xs| ==> xs[i].NaN? || xs[i].value >= 0.0 {
      Seqs.SumOfNonNegative(xs, Contribution);
    }
  }

  lemma {:induction false} NaNAddsNothing(xs: seq<NumberValue>)
    ensures Seqs.SumOf(Seqs.Filter(xs, IsNumber), Contribution) == Seqs.SumOf(xs, Contribution)
  {
    if |xs| > 0 {
      var rest := Seqs.Filter(xs[1..], IsNumber);
      NaNAddsNothing(xs[1..]);
      if IsNumber(xs[0]) {
        var kept := [xs[0]] + rest;
        assert Seqs.Filter(xs, IsNumber) == kept;
        assert kept[0] == xs[0] && kept[1..] == rest;
      } else {
        assert Seqs.Filter(xs, IsNumber) == rest;
      }
    }
  }

  predicate IsNumber(n: NumberValue) { n.Num? }

  /** Dropping the rows whose cost is not a number leaves the revenue unchanged. */
  lemma DroppingNaNKeepsRevenue(xs: seq<NumberValue>)
    ensures Revenue(Some(Seqs.Filter(xs, IsNumber))) == Revenue(Some(xs))
  {
    RevenueIsSum(xs);
    RevenueIsSum(Seqs.Filter(xs, IsNumber));
    NaNAddsNothing(xs);
  }

  // ---------------------------------------------------------------- loading

  datatype Dashboard = Dashboard(fleet: FleetStats, totalUsers: nat, activeBookings: nat, revenue: real, loading: bool, error: Option<string>)

  const Initial: Dashboard := Dashboard(NoFleet, 0, 0, 0.0, true, None)
  const LoadFailed: string := "Failed to load dashboard data."

  /** `fetchDashboardData`: the four queries in order (vehicles, the
      profile count, the count of active and confirmed bookings, the
      completed bookings' costs); each result is shown as it arrives, the
      first failure stops the rest with its message, and loading ends. */
  function FetchDashboardData(st: Dashboard, vehicles: Result<Option<seq<string>>>, users: Result<Option<nat>>,
                              bookings: Result<Option<nat>>, completed: Result<Option<seq<NumberValue>>>): (t: Dashboard)
    ensures !t.loading
    ensures vehicles.Err? ==> t == st.(loading := false, error := Some(OrElse(Some(vehicles.message), LoadFailed)))
    ensures vehicles.Ok? ==> t.fleet == ComputeFleetStats(vehicles.value)
    ensures vehicles.Ok? && users.Err? ==>
      t == st.(fleet := t.fleet, loading := false, error := Some(OrElse(Some(users.message), LoadFailed)))
    ensures vehicles.Ok? && users.Ok? ==> t.totalUsers == users.value.GetOr(0)
    ensures vehicles.Ok? && users.Ok? && bookings.Ok? ==> t.activeBookings == bookings.value.GetOr(0)
    ensures vehicles.Ok? && users.Ok? && bookings.Err? ==>
      t == st.(fleet := t.fleet, totalUsers := t.totalUsers, loading := false, error := Some(OrElse(Some(bookings.message), LoadFailed)))
    ensures vehicles.Ok? && users.Ok? && bookings.Ok? && completed.Err? ==>
      t == st.(fleet := t.fleet, totalUsers := t.totalUsers, activeBookings := t.activeBookings,
               loading := false, error := Some(OrElse(Some(completed.message), LoadFailed)))
    ensures vehicles.Ok? && users.Ok? && bookings.Ok? && completed.Ok? ==>
      t.revenue == Revenue(completed.value) && t.error == st.error
    ensures t.error != st.error ==> vehicles.Err? || users.Err? || bookings.Err? || completed.Err?
  {
    match vehicles
    case Err(m) => st.(loading := false, error := Some(OrElse(Some(m), LoadFailed)))
    case Ok(statuses) =>
      var st := st.(fleet := ComputeFleetStats(statuses));
      match users
      case Err(m) => st.(loading := false, error := Some(OrElse(Some(m), LoadFailed)))
      case Ok(userCount) =>
        var st := st.(totalUsers := userCount.GetOr(0));
        match bookings
        case Err(m) => st.(loading := false, error := Some(OrElse(Some(m), LoadFailed)))
        case Ok(bookingCount) =>
          var st := st.(activeBookings := bookingCount.GetOr(0));
          match completed
          case Err(m) => st.(loading := false, error := Some(OrElse(Some(m), LoadFailed)))
          case Ok(costs) => st.(revenue := Revenue(costs), loading := false)
  }

  /** A failing profile count still shows the fleet but keeps the initial
      zeros of everything after it, and the message falls back to the
      generic one when the error has none. */
  lemma FailureStopsLaterCards(statuses: seq<string>, b: Result<Option<nat>>, c: Result<Option<seq<NumberValue>>>)
    ensures var t := FetchDashboardData(Initial, Ok(Some(statuses)), Err(""), b, c);
      t.fleet.total == |statuses| && t.totalUsers == 0 && t.activeBookings == 0 && t.revenue == 0.0 && t.error == Some(LoadFailed)
  {
    FleetStatsCount(statuses);
  }
}

=== FILE: austin_bookings_screen.dfy ===
/** The bookings screen of the Android app
    (ui/screens/austin/AustinBookingsScreen.kt): the screen precedence, which
    bookings offer Cancel, the cancel confirmation dialog as a small state
    machine, and the status badge labels. */
module AustinBookingsScreen {
  import opened Wrappers
  import opened RentalModel
  import MyRentalsScreen

  /** The screen's `when`, over the same view model state as the rental
      history screen: loading, then an error, then the empty state, then
      the list. */
  function BookingsScreen(st: MyRentalsScreen.RentalsUiState): (v: MyRentalsScreen.RentalsView)
    ensures st.isLoading ==> v.LoadingView?
    ensures !st.isLoading && st.error.Some? ==> v == MyRentalsScreen.ErrorView(st.error.value)
    ensures !st.isLoading && st.error.None? && |st.rentals| == 0 ==> v.EmptyView?
    ensures !st.isLoading && st.error.None? && |st.rentals| > 0 ==> v == MyRentalsScreen.ListView(st.rentals)
  {
    if st.isLoading then MyRentalsScreen.LoadingView
    else if st.error.Some? then MyRentalsScreen.ErrorView(st.error.value)
    else if |st.rentals| == 0 then MyRentalsScreen.EmptyView
    else MyRentalsScreen.ListView(st.rentals)
  }

  /** Both Android rental screens show the same part for the same state. */
  lemma ScreensAgree(st: MyRentalsScreen.RentalsUiState)
    ensures BookingsScreen(st) == MyRentalsScreen.RentalsScreen(st)
  {
  }

  /** The Cancel button of a booking card. */
  predicate CancelShown(status: RentalStatus) {
    status == RentalStatus.Pending || status == RentalStatus.Confirmed
  }

  /** The bookings screen offers Cancel for exactly the statuses the rental
      history screen does. */
  lemma CancelEligibilityAgrees(status: RentalStatus)
    ensures CancelShown(status) <==> MyRentalsScreen.Cancel in MyRentalsScreen.CardActions(status)
  {
  }

  // ---------------------------------------------------------------- cancel dialog

  datatype DialogState = DialogState(showCancelDialog: bool, selectedRentalId: Option<string>)

  const Closed: DialogState := DialogState(false, None)

  /** The dialog is rendered only when it is open and a booking is selected. */
  predicate DialogShown(d: DialogState) {
    d.showCancelDialog && d.selectedRentalId.Some?
  }

  /** A tap on a card's Cancel, a confirmation, the "Keep Booking" button, or
      a dismissal (tap outside, back). */
  datatype DialogEvent = TapCancel(rental: Rental) | Confirm | KeepBooking | Dismiss

  datatype DialogStep = DialogStep(next: DialogState, request: Option<MyRentalsScreen.CancelRequest>)

  /** One event. A tap on Cancel selects the booking and opens the dialog
      (there is no button on a booking that is not PENDING or CONFIRMED).
      Confirming asks to cancel the selected booking with "Cancelled by
      user", then closes the dialog and clears the selection (there is no
      button while the dialog is not rendered). "Keep Booking" and a
      dismissal close the dialog and keep the selection. */
  function Step(d: DialogState, e: DialogEvent): (s: DialogStep)
    ensures e.TapCancel? && CancelShown(e.rental.status) ==>
      s == DialogStep(DialogState(true, Some(e.rental.id)), None)
    ensures e.Confirm? && DialogShown(d) ==>
      s.request == Some(MyRentalsScreen.CancelRequest(d.selectedRentalId.value, MyRentalsScreen.CancelReason)) && s.next == Closed
    ensures (e.KeepBooking? || e.Dismiss?) ==> s.request.None? && !DialogShown(s.next)
    ensures (e.KeepBooking? || e.Dismiss?) ==> s.next.selectedRentalId == d.selectedRentalId
    ensures s.request.Some? ==> e.Confirm? && DialogShown(d) && s.request.value.rentalId == d.selectedRentalId.value
    ensures !(e.TapCancel? && CancelShown(e.rental.status)) && !(e.Confirm? && DialogShown(d)) && !e.KeepBooking? && !e.Dismiss? ==>
      s == DialogStep(d, None)
  {
    match e
    case TapCancel(r) =>
      if CancelShown(r.status) then DialogStep(DialogState(true, Some(r.id)), None) else DialogStep(d, None)
    case Confirm =>
      if DialogShown(d) then
        DialogStep(Closed, Some(MyRentalsScreen.CancelRequest(d.selectedRentalId.value, MyRentalsScreen.CancelReason)))
      else DialogStep(d, None)
    case KeepBooking => DialogStep(d.(showCancelDialog := false), None)
    case Dismiss => DialogStep(d.(showCancelDialog := false), None)
  }

  /** A run of events from `d`: the final dialog state and the cancel
      requests made, in order. */
  function Run(d: DialogState, events: seq<DialogEvent>): (r: (DialogState, seq<MyRentalsScreen.CancelRequest>))
    ensures |r.1| <= |events|
    decreases |events|
  {
    if |events| == 0 then (d, [])
    else
      var s := Step(d, events[0]);
      var rest := Run(s.next, events[1..]);
      (rest.0, (if s.request.Some? then [s.request.value] else []) + rest.1)
  }

  /** `id` is the id of a booking whose Cancel was tapped in `events`. */
  predicate TappedCancellable(events: seq<DialogEvent>, id: string) {
    exists i :: 0 <= i < |events| && events[i].TapCancel? && CancelShown(events[i].rental.status) && events[i].rental.id == id
  }

  /** Starting from a closed dialog (or one whose selection was tapped
      before), every cancel request targets a booking whose Cancel button
      was tapped, hence a PENDING or CONFIRMED one, and carries the reason
      "Cancelled by user". */
  lemma {:induction false} RequestsTargetTappedBookings(d: DialogState, events: seq<DialogEvent>, earlier: seq<DialogEvent>)
    requires d.selectedRentalId.Some? ==> TappedCancellable(earlier, d.selectedRentalId.value)
    ensures forall k :: 0 <= k < |Run(d, events).1| ==>
      Run(d, events).1[k].reason == MyRentalsScreen.CancelReason &&
      TappedCancellable(earlier + events, Run(d, events).1[k].rentalId)
    decreases |events|
  {
    if |events| > 0 {
      var s := Step(d, events[0]);
      var all := earlier + events;
      assert all == (earlier + [events[0]]) + events[1..];
      if s.next.selectedRentalId.Some? {
        if events[0].TapCancel? && CancelShown(events[0].rental.status) {
          assert (earlier + [events[0]])[|earlier|] == events[0];
        } else {
          var i :| 0 <= i < |earlier| && earlier[i].TapCancel? && CancelShown(earlier[i].rental.status) &&
            earlier[i].rental.id == d.selectedRentalId.value;
          assert (earlier + [events[0]])[i] == earlier[i];
        }
      }
      RequestsTargetTappedBookings(s.next, events[1..], earlier + [events[0]]);
      var rest := Run(s.next, events[1..]);
      if s.request.Some? {
        var i :| 0 <= i < |earlier| && earlier[i].TapCancel? && CancelShown(earlier[i].rental.status) &&
          earlier[i].rental.id == d.selectedRentalId.value;
        assert all[i] == earlier[i];
        assert Run(d, events).1 == [s.request.value] + rest.1;
      } else {
        assert Run(d, events).1 == rest.1;
      }
    }
  }

  /** Dismissing or keeping the booking never asks to cancel anything. */
  lemma DismissNeverCancels(d: DialogState, events: seq<DialogEvent>)
    requires forall i :: 0 <= i < |events| ==> events[i].KeepBooking? || events[i].Dismiss? || events[i].TapCancel?
    ensures |Run(d, events).1| == 0
    decreases |events|
  {
    if |events| > 0 {
      DismissNeverCancels(Step(d, events[0]).next, events[1..]);
    }
  }

  // ---------------------------------------------------------------- badge

  /** `RentalStatusBadge`'s text. */
  function BadgeLabel(status: RentalStatus): (text: string)
    ensures text == MyRentalsScreen.ChipLabel(status)
  {
    match status
    case Pending => "Pending"
    case Confirmed => "Confirmed"
    case Active => "Active"
    case Completed => "Completed"
    case Cancelled => "Cancelled"
    case Overdue => "Overdue"
  }

  /** Badge labels are defined for every status and pairwise distinct. */
  lemma BadgeLabelsDistinct(a: RentalStatus, b: RentalStatus)
    ensures |BadgeLabel(a)| > 0
    ensures BadgeLabel(a) == BadgeLabel(b) ==> a == b
  {
    MyRentalsScreen.ChipLabelsDistinct(a, b);
  }
}

=== FILE: austin_browse_cars_screen.dfy ===
/** The browse screen of the Android app
    (ui/screens/austin/AustinBrowseCarsScreen.kt): the category filter over
    the loaded vehicles and the abbreviations on each vehicle card. */
module AustinBrowseCarsScreen {
  import Seqs
  import Text
  import opened VehicleModel

  /** The screen's own state: the selected category chip and the search box. */
  datatype BrowseState = BrowseState(selectedFilter: string, searchQuery: string)

  const InitialBrowse: BrowseState := BrowseState("all", "")

  predicate IsElectric(v: Vehicle) {
    v.fuelType.Value() == "electric"
  }

  /** `filteredVehicles`: "electric" keeps the electric vehicles; "all",
      "sedan", "suv", "luxury" and every other category keep the list as
      loaded. The search box plays no part. */
  function FilteredVehicles(vehicles: seq<Vehicle>, st: BrowseState): (r: seq<Vehicle>)
    ensures st.selectedFilter != "electric" ==> r == vehicles
    ensures st.selectedFilter == "electric" ==> forall v :: v in r <==> v in vehicles && v.fuelType == Electric
    ensures st.selectedFilter == "electric" ==>
      forall v :: multiset(r)[v] == if v.fuelType == Electric then multiset(vehicles)[v] else 0
  {
    if st.selectedFilter == "all" then vehicles
    else if st.selectedFilter == "electric" then
      assert forall v: Vehicle :: IsElectric(v) <==> v.fuelType == Electric by {
        forall v: Vehicle ensures IsElectric(v) <==> v.fuelType == Electric {
          FuelTypeValuesDistinct(v.fuelType, Electric);
        }
      }
      Seqs.Filter(vehicles, IsElectric)
    else if st.selectedFilter in ["sedan", "suv", "luxury"] then vehicles
    else vehicles
  }

  /** Whatever the category, the shown vehicles are a subsequence of the
      loaded ones, and typing in the search box changes nothing. */
  lemma FilteredIsSubsequence(vehicles: seq<Vehicle>, st: BrowseState, query: string)
    ensures Seqs.IsSubsequence(FilteredVehicles(vehicles, st), vehicles)
    ensures FilteredVehicles(vehicles, st.(searchQuery := query)) == FilteredVehicles(vehicles, st)
  {
    if st.selectedFilter == "electric" {
      Seqs.FilterIsSubsequence(vehicles, IsElectric);
    } else {
      Seqs.SubsequenceReflexive(vehicles);
    }
  }

  // ---------------------------------------------------------------- card abbreviations

  /** The transmission on a card: its value's first four characters, the
      first one upper-cased. */
  function TransmissionAbbreviation(t: Transmission): (r: string)
    ensures |r| == 4
    ensures r[0] == Text.ToUpperChar(t.Value()[0]) && r[1..] == t.Value()[1..4]
  {
    Text.UpperFirst(Text.Take(t.Value(), 4))
  }

  /** The fuel on a card: its value's first three characters, the first one
      upper-cased. */
  function FuelAbbreviation(f: FuelType): (r: string)
    ensures |r| == 3
    ensures r[0] == Text.ToUpperChar(f.Value()[0]) && r[1..] == f.Value()[1..3]
  {
    Text.UpperFirst(Text.Take(f.Value(), 3))
  }

  /** The abbreviations still tell the transmissions apart ("Manu", "Auto")
      and the fuels apart ("Pet", "Die", "Ele", "Hyb"). */
  lemma AbbreviationsDistinct(t1: Transmission, t2: Transmission, f1: FuelType, f2: FuelType)
    ensures TransmissionAbbreviation(t1) == TransmissionAbbreviation(t2) ==> t1 == t2
    ensures FuelAbbreviation(f1) == FuelAbbreviation(f2) ==> f1 == f2
  {
    if t1 != t2 {
      assert TransmissionAbbreviation(t1)[1] != TransmissionAbbreviation(t2)[1];
    }
    if f1 != f2 {
      assert FuelAbbreviation(f1)[0] != FuelAbbreviation(f2)[0];
    }
  }
}

=== FILE: austin_car_details_page.dfy ===
/** The car details page of the web client (src/pages/AustinCarDetails.tsx):
    the daily rate with its fallback, the fixed three-day estimate, the
    image list, the star row, the insurance choice and "Book Now". */
module AustinCarDetailsPage {
  import opened Wrappers
  import opened WebModel
  import AustinCarDetailsScreen

  const RentalDays: real := 3.0
  const PremiumPerDay: real := 15.0
  const FallbackDailyRate: real := 49.0

  /** `vehicle.daily_rate || 49`: a zero rate is falsy and replaced. */
  function DailyRate(v: WebVehicle): (rate: real)
    ensures v.dailyRate != 0.0 ==> rate == v.dailyRate
    ensures v.dailyRate == 0.0 ==> rate == FallbackDailyRate
    ensures rate != 0.0
  {
    if v.dailyRate == 0.0 then FallbackDailyRate else v.dailyRate
  }

  datatype Estimate = Estimate(subtotal: real, insuranceCost: real, total: real)

  /** The estimate card: three days at the daily rate, 15 a day for premium
      insurance, and their sum. */
  function PricingEstimate(v: WebVehicle, premiumInsurance: bool): (e: Estimate)
    ensures e.subtotal == 3.0 * DailyRate(v)
    ensures e.insuranceCost == if premiumInsurance then 45.0 else 0.0
    ensures e.total == e.subtotal + e.insuranceCost
  {
    var subtotal := DailyRate(v) * RentalDays;
    var insuranceCost := if premiumInsurance then PremiumPerDay * RentalDays else 0.0;
    Estimate(subtotal, insuranceCost, subtotal + insuranceCost)
  }

  /** Premium adds exactly 45 to the total and nothing to the subtotal, and
      a vehicle without a rate is estimated at 147 before insurance. */
  lemma PremiumAddsFortyFive(v: WebVehicle)
    ensures PricingEstimate(v, true).total == PricingEstimate(v, false).total + 45.0
    ensures PricingEstimate(v, true).subtotal == PricingEstimate(v, false).subtotal
    ensures v.dailyRate == 0.0 ==> PricingEstimate(v, false).total == 147.0
  {
  }

  const PlaceholderImage: string := "https://images.unsplash.com/photo-1549399542-7e3f8b79c341?w=1200&q=80"

  /** `images`: the vehicle's own image when it has a non-empty one, and
      otherwise four copies of the placeholder. */
  function Images(v: WebVehicle): (images: seq<string>)
    ensures |images| >= 1
    ensures v.imageUrl.Some? && v.imageUrl.value != "" ==> images == [v.imageUrl.value]
    ensures v.imageUrl.None? || v.imageUrl.value == "" ==>
      |images| == 4 && forall i :: 0 <= i < 4 ==> images[i] == PlaceholderImage
  {
    match v.imageUrl
    case Some(url) => if url != "" then [url] else [PlaceholderImage, PlaceholderImage, PlaceholderImage, PlaceholderImage]
    case None => [PlaceholderImage, PlaceholderImage, PlaceholderImage, PlaceholderImage]
  }

  /** Star `star` of the fixed rating row is filled. */
  predicate StarFilled(star: int) {
    star <= 4
  }

  /** Of the five stars, the first four are filled and the fifth is not. */
  lemma FourOfFiveStars()
    ensures forall star :: 1 <= star <= 4 ==> StarFilled(star)
    ensures !StarFilled(5)
    ensures |set star | 1 <= star <= 5 && StarFilled(star)| == 4
  {
    assert (set star | 1 <= star <= 5 && StarFilled(star)) == {1, 2, 3, 4};
  }

  /** `handleBookNow`: to sign-in without a user, else to the booking page
      of this vehicle. */
  function HandleBookNow(signedIn: bool, vehicleId: string): (r: Route)
    ensures !signedIn <==> r == AuthPage
    ensures signedIn ==> r == BookPage(vehicleId)
  {
    if !signedIn then AuthPage else BookPage(vehicleId)
  }

  /** The Basic option: premium off, whatever it was. */
  function ChooseBasic(premiumInsurance: bool): (r: bool)
    ensures !r
  {
    false
  }

  /** The Premium option: premium on, whatever it was. */
  function ChoosePremium(premiumInsurance: bool): (r: bool)
    ensures r
  {
    true
  }

  /** The web options are idempotent and agree with the Android radios. */
  lemma ChoicesAgreeWithAndroid(premiumInsurance: bool)
    ensures ChooseBasic(ChooseBasic(premiumInsurance)) == ChooseBasic(premiumInsurance)
    ensures ChoosePremium(ChoosePremium(premiumInsurance)) == ChoosePremium(premiumInsurance)
    ensures ChooseBasic(premiumInsurance) == AustinCarDetailsScreen.SelectBasic(premiumInsurance)
    ensures ChoosePremium(premiumInsurance) == AustinCarDetailsScreen.SelectPremium(premiumInsurance)
  {
  }
}

=== FILE: austin_car_details_screen.dfy ===
/** The car details screen of the Android app
    (ui/screens/austin/AustinCarDetailsScreen.kt): which vehicle it shows,
    the fixed three-day price estimate of its pricing card in 32-bit `Int`
    arithmetic, and the insurance and favourite toggles. */
module AustinCarDetailsScreen {
  import opened Wrappers
  import Seqs
  import Ints
  import opened VehicleModel
  import VehicleRepository

  // ---------------------------------------------------------------- vehicle lookup

  /** `vehicles.find { it.id == vehicleId }`. */
  function FindVehicle(vehicles: seq<Vehicle>, vehicleId: string): (r: Option<Vehicle>)
    ensures r.None? <==> forall i :: 0 <= i < |vehicles| ==> vehicles[i].id != vehicleId
    ensures r.Some? ==> r.value in vehicles && r.value.id == vehicleId
  {
    Seqs.FindFirst(vehicles, (v: Vehicle) => VehicleRepository.HasVehicleId(v, vehicleId))
  }

  /** The screen finds the same vehicle as the repository's `getVehicleById`
      over the same list. */
  lemma FindVehicleAgreesWithRepository(vehicles: seq<Vehicle>, vehicleId: string)
    ensures FindVehicle(vehicles, vehicleId).None? <==> VehicleRepository.GetVehicleById(Ok(vehicles), vehicleId).Err?
    ensures FindVehicle(vehicles, vehicleId).Some? ==>
      VehicleRepository.GetVehicleById(Ok(vehicles), vehicleId) == Ok(FindVehicle(vehicles, vehicleId).value)
  {
    var p := (v: Vehicle) => VehicleRepository.HasVehicleId(v, vehicleId);
    var k := Seqs.IndexOfFirst(vehicles, p);
    if k < |vehicles| {
      assert FindVehicle(vehicles, vehicleId) == Some(vehicles[k]);
    }
  }

  /** What the screen shows. */
  datatype DetailsView = Spinner | NotFound | Details(vehicle: Vehicle)

  /** A missing vehicle shows a spinner while loading and "Vehicle not
      found" afterwards; a present one is shown whether or not loading. */
  function DetailsScreen(vehicles: seq<Vehicle>, loading: bool, vehicleId: string): (v: DetailsView)
    ensures v.Details? <==> exists i :: 0 <= i < |vehicles| && vehicles[i].id == vehicleId
    ensures v.Details? ==> v.vehicle in vehicles && v.vehicle.id == vehicleId
    ensures v.Spinner? <==> loading && forall i :: 0 <= i < |vehicles| ==> vehicles[i].id != vehicleId
  {
    match FindVehicle(vehicles, vehicleId)
    case Some(vehicle) => Details(vehicle)
    case None => if loading then Spinner else NotFound
  }

  // ---------------------------------------------------------------- pricing card

  const RentalDays: int := 3
  const PremiumPerDay: int := 1500

  datatype Estimate = Estimate(dailyRate: int, subtotal: int, insuranceCost: int, total: int)

  /** `PricingCard`: the daily rate truncated to `Int`, three days of it,
      1500 a day for premium insurance, and their sum; every product and
      sum wraps around as Kotlin `Int` arithmetic does. */
  function PricingEstimate(pricePerDay: real, premiumInsurance: bool): (e: Estimate)
    ensures e.dailyRate == Ints.DoubleToInt(pricePerDay)
    ensures e.insuranceCost == if premiumInsurance then 4500 else 0
    ensures Ints.InIntRange(e.subtotal) && Ints.InIntRange(e.total)
    ensures (e.subtotal - e.dailyRate * RentalDays) % 0x1_0000_0000 == 0
    ensures (e.total - e.subtotal - e.insuranceCost) % 0x1_0000_0000 == 0
  {
    var dailyRate := Ints.DoubleToInt(pricePerDay);
    var subtotal := Ints.LongToInt(dailyRate * RentalDays);
    var insuranceCost := if premiumInsurance then Ints.LongToInt(PremiumPerDay * RentalDays) else 0;
    Estimate(dailyRate, subtotal, insuranceCost, Ints.LongToInt(subtotal + insuranceCost))
  }

  /** For any daily price from 0 up to a bound far above real prices, no
      `Int` wraps: the subtotal is three whole days, and premium insurance
      adds exactly 4500 while basic adds nothing. */
  lemma EstimateWithoutOverflow(pricePerDay: real, premiumInsurance: bool)
    requires 0.0 <= pricePerDay < 700_000_000.0
    ensures var e := PricingEstimate(pricePerDay, premiumInsurance);
      e.dailyRate as real <= pricePerDay < e.dailyRate as real + 1.0 &&
      e.subtotal == 3 * e.dailyRate &&
      e.total - e.subtotal == (if premiumInsurance then 4500 else 0)
  {
  }

  /** The premium and basic estimates of one vehicle differ by 4500 in
      total and agree on the rest, below the same bound. */
  lemma PremiumAddsFortyFiveHundred(pricePerDay: real)
    requires 0.0 <= pricePerDay < 700_000_000.0
    ensures PricingEstimate(pricePerDay, true).total == PricingEstimate(pricePerDay, false).total + 4500
    ensures PricingEstimate(pricePerDay, true).subtotal == PricingEstimate(pricePerDay, false).subtotal
  {
    EstimateWithoutOverflow(pricePerDay, true);
    EstimateWithoutOverflow(pricePerDay, false);
  }

  // ---------------------------------------------------------------- toggles

  /** `onInsuranceToggle`: flips premium insurance. */
  function ToggleInsurance(premiumInsurance: bool): (r: bool)
    ensures r != premiumInsurance
  {
    !premiumInsurance
  }

  /** The Basic radio: toggles only when premium is selected. */
  function SelectBasic(premiumInsurance: bool): (r: bool)
    ensures !r
    ensures !premiumInsurance ==> r == premiumInsurance
  {
    if premiumInsurance then ToggleInsurance(premiumInsurance) else premiumInsurance
  }

  /** The Premium radio: toggles only when premium is not selected. */
  function SelectPremium(premiumInsurance: bool): (r: bool)
    ensures r
    ensures premiumInsurance ==> r == premiumInsurance
  {
    if !premiumInsurance then ToggleInsurance(premiumInsurance) else premiumInsurance
  }

  /** Two toggles restore the choice, and each radio is idempotent. */
  lemma ToggleLaws(premiumInsurance: bool)
    ensures ToggleInsurance(ToggleInsurance(premiumInsurance)) == premiumInsurance
    ensures SelectBasic(SelectBasic(premiumInsurance)) == SelectBasic(premiumInsurance)
    ensures SelectPremium(SelectPremium(premiumInsurance)) == SelectPremium(premiumInsurance)
  {
  }

  /** A tap on the favourite icon flips `isFavorite`. */
  function ToggleFavorite(isFavorite: bool): (r: bool)
    ensures r != isFavorite
  {
    !isFavorite
  }

  /** Two taps on the favourite icon restore it. */
  lemma FavoriteTwiceRestores(isFavorite: bool)
    ensures ToggleFavorite(ToggleFavorite(isFavorite)) == isFavorite
  {
  }
}

=== FILE: auth_repository.dfy ===
/** The authentication calls of the Android app (data/repository/AuthRepository.kt).
    What the authentication SDK reports (an error thrown by sign-up or
    sign-in, the current user afterwards) and the rows fetched from the
    backend are inputs; the profile insert of `createProfile` is recorded
    as a write. */
module AuthRepository {
  import opened Wrappers
  import Seqs
  import opened UserModel
  import DatabaseHelper

  /** `getSessionStatus`: whether the SDK has a current user. */
  function GetSessionStatus(current: Option<AuthUser>): (signedIn: bool)
    ensures signedIn <==> current.Some?
  {
    current.Some?
  }

  /** The app's `User` for an SDK user; `fallbackEmail` stands in when the
      SDK user has no email (`user.email ?: fallbackEmail`). */
  function ToUser(u: AuthUser, fallbackEmail: string): (r: User)
    ensures r.id == u.id && r.createdAt == u.createdAt && r.updatedAt.None?
    ensures u.email.Some? ==> r.email == u.email.value
    ensures u.email.None? ==> r.email == fallbackEmail
  {
    User(u.id, u.email.GetOr(fallbackEmail), u.createdAt, None)
  }

  /** `getCurrentUser`: the current user, with "" for a missing email. */
  function GetCurrentUser(current: Option<AuthUser>): (r: Option<User>)
    ensures r.Some? <==> current.Some?
    ensures r.Some? ==> r.value == ToUser(current.value, "")
  {
    match current
    case Some(u) => Some(ToUser(u, ""))
    case None => None
  }

  /** The session is live exactly when there is a current user to report. */
  lemma SessionStatusIsCurrentUser(current: Option<AuthUser>)
    ensures GetSessionStatus(current) <==> GetCurrentUser(current).Some?
  {
  }

  // ---------------------------------------------------------------- signUp

  /** The JSON object `createProfile` inserts into `profiles`. */
  function ProfileRow(userId: string, fullName: string, createdAt: string): (row: DatabaseHelper.Row)
    ensures DatabaseHelper.HasId(row, userId)
    ensures "role" in row && row["role"] == DatabaseHelper.Str(Customer.Value())
    ensures "signup_source" in row && row["signup_source"] == DatabaseHelper.Str("mobile_app")
    ensures "full_name" in row && row["full_name"] == DatabaseHelper.Str(fullName)
  {
    map["id" := DatabaseHelper.Str(userId), "full_name" := DatabaseHelper.Str(fullName),
        "role" := DatabaseHelper.Str(Customer.Value()), "signup_source" := DatabaseHelper.Str("mobile_app"),
        "created_at" := DatabaseHelper.Str(createdAt)]
  }

  datatype ProfileWrite = InsertProfile(row: DatabaseHelper.Row)

  datatype SignUpOutcome = SignUpOutcome(result: Result<User>, writes: seq<ProfileWrite>)

  const RegistrationFailedPrefix: string := "Registration failed: "
  const ProfileCreationFailed: string := "Profile creation failed. Please try again."
  const UserRegistrationFailed: string := "User registration failed. Please check your email for confirmation."

  /** `signUp`. `signUpError` is the message of an exception thrown by the
      SDK's sign-up, `userAfter` the current user afterwards,
      `profileInsertError` the outcome of `createProfile`'s insert (which
      `createProfile` swallows) and `profilesAfter` the `profiles` table as
      `verifyUserProfile` then fetches it. */
  function SignUp(
    email: string, fullName: string, signUpError: Option<string>, userAfter: Option<AuthUser>,
    profileInsertError: Option<string>, profilesAfter: Result<seq<DatabaseHelper.Row>>, now: string): (o: SignUpOutcome)
    ensures signUpError.Some? ==> o == SignUpOutcome(Err(RegistrationFailedPrefix + signUpError.value), [])
    ensures signUpError.None? && userAfter.None? ==> o == SignUpOutcome(Err(UserRegistrationFailed), [])
    ensures signUpError.None? && userAfter.Some? ==>
      o.writes == [InsertProfile(ProfileRow(userAfter.value.id, fullName, now))]
    ensures o.result.Ok? <==>
      signUpError.None? && userAfter.Some? && DatabaseHelper.VerifyUserProfile(profilesAfter, userAfter.value.id) == Ok(true)
    ensures o.result.Ok? ==> o.result.value == ToUser(userAfter.value, email)
    ensures signUpError.None? && userAfter.Some? && o.result.Err? ==> o.result.message == ProfileCreationFailed
  {
    if signUpError.Some? then SignUpOutcome(Err(RegistrationFailedPrefix + signUpError.value), [])
    else match userAfter
      case None => SignUpOutcome(Err(UserRegistrationFailed), [])
      case Some(u) =>
        var writes := [InsertProfile(ProfileRow(u.id, fullName, now))];
        var verified := DatabaseHelper.VerifyUserProfile(profilesAfter, u.id);
        if verified.IsOk() && verified.value then SignUpOutcome(Ok(ToUser(u, email)), writes)
        else SignUpOutcome(Err(ProfileCreationFailed), writes)
  }

  /** `createProfile` swallows its own failure: the outcome of sign-up does
      not depend on whether the profile insert succeeded. */
  lemma SignUpIgnoresProfileInsertError(
    email: string, fullName: string, signUpError: Option<string>, userAfter: Option<AuthUser>,
    e1: Option<string>, e2: Option<string>, profilesAfter: Result<seq<DatabaseHelper.Row>>, now: string)
    ensures SignUp(email, fullName, signUpError, userAfter, e1, profilesAfter, now) ==
            SignUp(email, fullName, signUpError, userAfter, e2, profilesAfter, now)
  {
  }

  /** When the inserted profile row is among the rows fetched afterwards,
      sign-up succeeds with the SDK user (email falling back to the one
      entered), and that user's role reads as "customer" as long as no
      earlier row carries the same id. */
  lemma InsertedProfileCompletesSignUp(
    email: string, fullName: string, u: AuthUser, profileInsertError: Option<string>,
    before: seq<DatabaseHelper.Row>, after: seq<DatabaseHelper.Row>, now: string)
    requires forall i :: 0 <= i < |before| ==> !DatabaseHelper.HasId(before[i], u.id)
    ensures var rows := before + [ProfileRow(u.id, fullName, now)] + after;
      SignUp(email, fullName, None, Some(u), profileInsertError, Ok(rows), now).result == Ok(ToUser(u, email)) &&
      DatabaseHelper.GetUserRole(Ok(rows), u.id) == Ok(Customer.Value())
  {
    var row := ProfileRow(u.id, fullName, now);
    var rows := before + [row] + after;
    assert rows[|before|] == row;
    assert forall j :: 0 <= j < |before| ==> rows[j] == before[j];
    assert DatabaseHelper.RoleOf(Some(row)) == Customer.Value();
  }

  // ---------------------------------------------------------------- signIn, signOut

  const SignInFailed: string := "Sign in failed"

  /** `signIn`: an SDK exception is passed on; with no current user
      afterwards it fails with "Sign in failed"; otherwise it returns the
      user, email falling back to the one entered. */
  function SignIn(email: string, signInError: Option<string>, userAfter: Option<AuthUser>): (r: Result<User>)
    ensures signInError.Some? ==> r == Err(signInError.value)
    ensures signInError.None? ==> (r.Ok? <==> userAfter.Some?)
    ensures signInError.None? && userAfter.None? ==> r == Err(SignInFailed)
    ensures r.Ok? ==> r.value == ToUser(userAfter.value, email)
  {
    if signInError.Some? then Err(signInError.value)
    else match userAfter
      case Some(u) => Ok(ToUser(u, email))
      case None => Err(SignInFailed)
  }

  /** A user without an email in the SDK is reported with the entered email
      by sign-in and sign-up, but with "" by `getCurrentUser`. */
  lemma EmailFallbacksDiffer(
    email: string, fullName: string, u: AuthUser, profileInsertError: Option<string>,
    profilesAfter: Result<seq<DatabaseHelper.Row>>, now: string)
    requires u.email.None?
    ensures SignIn(email, None, Some(u)) == Ok(ToUser(u, email)) && SignIn(email, None, Some(u)).value.email == email
    ensures GetCurrentUser(Some(u)).value.email == ""
    ensures SignUp(email, fullName, None, Some(u), profileInsertError, profilesAfter, now).result.Ok? ==>
      SignUp(email, fullName, None, Some(u), profileInsertError, profilesAfter, now).result.value.email == email
  {
  }

  /** `signOut`: succeeds unless the SDK throws, whose message is passed on. */
  function SignOut(signOutError: Option<string>): (r: Result<()>)
    ensures r.Ok? <==> signOutError.None?
    ensures r.Err? ==> r.message == signOutError.value
  {
    match signOutError
    case Some(m) => Err(m)
    case None => Ok(())
  }

  // ---------------------------------------------------------------- getUserProfile

  const ProfileNotFound: string := "Profile not found"

  /** `profiles[k]` is the first profile whose `id` is `userId`. */
  predicate FirstProfileWithId(profiles: seq<Profile>, k: int, userId: string) {
    0 <= k < |profiles| && profiles[k].id == userId && forall j :: 0 <= j < k ==> profiles[j].id != userId
  }

  predicate HasProfileId(p: Profile, userId: string) {
    p.id == userId
  }

  /** `getUserProfile`: the first fetched profile whose `id` (not its
      `userId` column) equals `userId`, or "Profile not found". */
  function GetUserProfile(fetched: Result<seq<Profile>>, userId: string): (r: Result<Profile>)
    ensures fetched.Err? ==> r == Err(fetched.message)
    ensures fetched.Ok? ==> (r.Err? <==> forall i :: 0 <= i < |fetched.value| ==> fetched.value[i].id != userId)
    ensures fetched.Ok? && r.Err? ==> r.message == ProfileNotFound
    ensures r.Ok? ==> fetched.Ok? && exists k :: FirstProfileWithId(fetched.value, k, userId) && fetched.value[k] == r.value
  {
    match fetched
    case Err(m) => Err(m)
    case Ok(profiles) =>
      var k := Seqs.IndexOfFirst(profiles, (p: Profile) => HasProfileId(p, userId));
      if k < |profiles| then Ok(profiles[k]) else Err(ProfileNotFound)
  }

  /** When profile ids are distinct, a listed profile is found by its id. */
  lemma GetUserProfileFindsListed(profiles: seq<Profile>, k: nat)
    requires k < |profiles|
    requires forall i, j :: 0 <= i < j < |profiles| ==> profiles[i].id != profiles[j].id
    ensures GetUserProfile(Ok(profiles), profiles[k].id) == Ok(profiles[k])
  {
    var r := GetUserProfile(Ok(profiles), profiles[k].id);
    assert r.Ok?;
    var m :| FirstProfileWithId(profiles, m, profiles[k].id) && profiles[m] == r.value;
  }
}

=== FILE: auth_view_model.dfy ===
/** The sign-in/sign-up screen state of the Android app
    (ui/screens/auth/AuthViewModel.kt): ordered input validation and the
    state changes of `signIn`, `signUp`, `signOut`, `clearError` and the
    profile loading. Each public method is a function from the current
    state and the repository's answer to the states it publishes. The
    email pattern (`Patterns.EMAIL_ADDRESS`) is the parameter `isEmail`. */
module AuthViewModel {
  import opened Wrappers
  import Text
  import opened UserModel

  datatype AuthUiState = AuthUiState(loading: bool, error: Option<string>)

  /** The three state flows of the view model. */
  datatype AuthState = AuthState(ui: AuthUiState, currentUser: Option<User>, userProfile: Option<Profile>)

  const Initial: AuthState := AuthState(AuthUiState(false, None), None, None)

  /** `userRole`: the role of the loaded profile, if any. */
  function UserRoleOf(s: AuthState): (r: Option<UserRole>)
    ensures r.Some? <==> s.userProfile.Some?
    ensures r.Some? ==> r.value == s.userProfile.value.role
  {
    match s.userProfile
    case Some(p) => Some(p.role)
    case None => None
  }

  /** Only the error of the screen state differs. */
  predicate OnlyErrorChanged(s: AuthState, t: AuthState) {
    t == s.(ui := s.ui.(error := t.ui.error))
  }

  // ---------------------------------------------------------------- validation

  const EmailRequired: string := "Email is required"
  const InvalidEmailFormat: string := "Invalid email format"
  const PasswordRequired: string := "Password is required"
  const PasswordTooShort: string := "Password must be at least 6 characters"
  const FullNameRequired: string := "Full name is required"
  const MinPasswordLength: nat := 6

  /** The four checks of `validateInput` all pass. */
  predicate InputAcceptable(email: string, password: string, isEmail: string -> bool) {
    !Text.IsBlank(email) && isEmail(email) && !Text.IsBlank(password) && Text.Utf16Length(password) >= MinPasswordLength
  }

  /** The message of the first failing check of `validateInput`, in the
      order blank email, email pattern, blank password, short password
      (`password.length`, in UTF-16 code units). */
  function InputError(email: string, password: string, isEmail: string -> bool): (r: Option<string>)
    ensures r.None? <==> InputAcceptable(email, password, isEmail)
    ensures r == Some(EmailRequired) <==> Text.IsBlank(email)
    ensures r == Some(InvalidEmailFormat) <==> !Text.IsBlank(email) && !isEmail(email)
    ensures r == Some(PasswordRequired) <==> !Text.IsBlank(email) && isEmail(email) && Text.IsBlank(password)
    ensures r == Some(PasswordTooShort) <==>
      !Text.IsBlank(email) && isEmail(email) && !Text.IsBlank(password) && Text.Utf16Length(password) < MinPasswordLength
  {
    if Text.IsBlank(email) then Some(EmailRequired)
    else if !isEmail(email) then Some(InvalidEmailFormat)
    else if Text.IsBlank(password) then Some(PasswordRequired)
    else if Text.Utf16Length(password) < MinPasswordLength then Some(PasswordTooShort)
    else None
  }

  datatype Validated = Validated(ok: bool, state: AuthState)

  /** `validateInput`: accepts and leaves the state alone when every check
      passes; otherwise rejects and sets only the error, to the first
      failing check's message. */
  function ValidateInput(s: AuthState, email: string, password: string, isEmail: string -> bool): (v: Validated)
    ensures v.ok <==> InputAcceptable(email, password, isEmail)
    ensures v.ok ==> v.state == s
    ensures !v.ok ==> OnlyErrorChanged(s, v.state) && v.state.ui.error == InputError(email, password, isEmail)
  {
    match InputError(email, password, isEmail)
    case None => Validated(true, s)
    case Some(m) => Validated(false, s.(ui := s.ui.(error := Some(m))))
  }

  /** `validateSignUpInput`: a blank full name is reported before any email
      or password check; otherwise as `validateInput`. */
  function ValidateSignUpInput(s: AuthState, email: string, password: string, fullName: string, isEmail: string -> bool): (v: Validated)
    ensures Text.IsBlank(fullName) ==> !v.ok && v.state == s.(ui := s.ui.(error := Some(FullNameRequired)))
    ensures !Text.IsBlank(fullName) ==> v == ValidateInput(s, email, password, isEmail)
    ensures v.ok <==> !Text.IsBlank(fullName) && InputAcceptable(email, password, isEmail)
  {
    if Text.IsBlank(fullName) then Validated(false, s.(ui := s.ui.(error := Some(FullNameRequired))))
    else ValidateInput(s, email, password, isEmail)
  }

  /** A password of exactly six characters passes the length check. */
  lemma SixCharacterPasswordPasses(s: AuthState, email: string, password: string, isEmail: string -> bool)
    requires !Text.IsBlank(email) && isEmail(email)
    requires |password| == 6 && !Text.IsBlank(password)
    ensures ValidateInput(s, email, password, isEmail) == Validated(true, s)
  {
  }

  /** `password.length` counts UTF-16 code units, so three characters
      outside the Basic Multilingual Plane (three emoji) make a long
      enough password, while three ordinary letters do not. */
  lemma AstralPasswordPasses(s: AuthState, email: string, isEmail: string -> bool)
    requires !Text.IsBlank(email) && isEmail(email)
    ensures ValidateInput(s, email, seq(3, _ => '\U{1F600}'), isEmail) == Validated(true, s)
    ensures ValidateInput(s, email, "abc", isEmail).state.ui.error == Some(PasswordTooShort)
  {
    var emoji := seq(3, _ => '\U{1F600}');
    var tail1 := emoji[1..];
    var tail2 := tail1[1..];
    assert tail2[1..] == [] && tail2[0] == tail1[0] == emoji[0] == '\U{1F600}';
    assert Text.Utf16Length(tail2) == 2;
    assert Text.Utf16Length(tail1) == 4;
    assert Text.Utf16Length(emoji) == 6;
    assert !Text.IsBlank(emoji) by { assert !Text.IsKotlinSpace(emoji[0]); }
    assert !Text.IsBlank("abc") by { assert !Text.IsKotlinSpace("abc"[0]); }
  }

  /** A non-empty password of spaces only is "required", not "too short". */
  lemma WhitespacePasswordIsRequired(s: AuthState, email: string, n: nat, isEmail: string -> bool)
    requires !Text.IsBlank(email) && isEmail(email)
    requires 0 < n < MinPasswordLength
    ensures ValidateInput(s, email, seq(n, _ => ' '), isEmail).state.ui.error == Some(PasswordRequired)
  {
    assert Text.IsBlank(seq(n, _ => ' '));
  }

  /** `isBlank` counts the information separators U+001C to U+001F as
      whitespace, so a six-character password of them is still missing. */
  lemma SeparatorPasswordIsRequired(s: AuthState, email: string, isEmail: string -> bool)
    requires !Text.IsBlank(email) && isEmail(email)
    ensures ValidateInput(s, email, seq(MinPasswordLength, _ => '\U{1C}'), isEmail).state.ui.error == Some(PasswordRequired)
  {
    assert Text.IsBlank(seq(MinPasswordLength, _ => '\U{1C}'));
  }

  // ---------------------------------------------------------------- signIn, signUp

  /** What the repository call ended with: a user, or a failure whose
      exception message may be null. */
  datatype Attempt = Succeeded(user: User) | Failed(message: Option<string>)

  /** A repository `Result` as seen by the view model. */
  function AttemptOf(r: Result<User>): (a: Attempt)
    ensures r.Ok? <==> a.Succeeded?
    ensures r.Ok? ==> a.user == r.value
    ensures r.Err? ==> a.message == Some(r.message)
  {
    match r
    case Ok(u) => Succeeded(u)
    case Err(m) => Failed(Some(m))
  }

  /** The states a call publishes: `during` while the repository call runs
      (absent when validation rejected the input and no call was made),
      and `after` once it is over. */
  datatype Run = Run(during: Option<AuthState>, after: AuthState)

  /** The shared body of `signIn` and `signUp` once the input is valid:
      loading with no error, then the user on success or the failure's
      message (or `fallback`) on failure, loading ended either way. */
  function Submit(s: AuthState, response: Attempt, fallback: string): (r: Run)
    ensures r.during == Some(s.(ui := AuthUiState(true, None)))
    ensures !r.after.ui.loading
    ensures r.after.userProfile == s.userProfile
    ensures response.Succeeded? ==> r.after.currentUser == Some(response.user) && r.after.ui.error.None?
    ensures response.Failed? ==> r.after.currentUser == s.currentUser
    ensures response.Failed? ==> r.after.ui.error == Some(response.message.GetOr(fallback))
  {
    var started := s.(ui := AuthUiState(true, None));
    match response
    case Succeeded(u) => Run(Some(started), started.(currentUser := Some(u), ui := started.ui.(loading := false)))
    case Failed(m) => Run(Some(started), started.(ui := started.ui.(loading := false, error := Some(m.GetOr(fallback)))))
  }

  const SignInFailed: string := "Sign in failed"
  const SignUpFailed: string := "Sign up failed"

  /** `signIn`: on invalid input only the error changes and the repository
      is not called; otherwise `Submit` with the fallback "Sign in failed". */
  function SignIn(s: AuthState, email: string, password: string, isEmail: string -> bool, response: Attempt): (r: Run)
    ensures r.during.None? <==> !InputAcceptable(email, password, isEmail)
    ensures r.during.None? ==> OnlyErrorChanged(s, r.after) && r.after.ui.error == InputError(email, password, isEmail)
    ensures r.during.Some? ==> r == Submit(s, response, SignInFailed)
  {
    var v := ValidateInput(s, email, password, isEmail);
    if !v.ok then Run(None, v.state) else Submit(v.state, response, SignInFailed)
  }

  /** `signUp`: as `signIn`, with the full-name check first and the fallback
      "Sign up failed". */
  function SignUp(s: AuthState, email: string, password: string, fullName: string, isEmail: string -> bool, response: Attempt): (r: Run)
    ensures r.during.None? <==> !(!Text.IsBlank(fullName) && InputAcceptable(email, password, isEmail))
    ensures r.during.None? ==> OnlyErrorChanged(s, r.after)
    ensures r.during.None? && Text.IsBlank(fullName) ==> r.after.ui.error == Some(FullNameRequired)
    ensures r.during.None? && !Text.IsBlank(fullName) ==> r.after.ui.error == InputError(email, password, isEmail)
    ensures r.during.Some? ==> r == Submit(s, response, SignUpFailed)
  {
    var v := ValidateSignUpInput(s, email, password, fullName, isEmail);
    if !v.ok then Run(None, v.state) else Submit(v.state, response, SignUpFailed)
  }

  /** With a non-blank full name, a sign-up rejects exactly the inputs a
      sign-in rejects, with the same message, and a submitted one differs
      from a sign-in only in the fallback for a message-less failure. */
  lemma SignUpAgreesWithSignIn(s: AuthState, email: string, password: string, fullName: string,
                               isEmail: string -> bool, response: Attempt)
    requires !Text.IsBlank(fullName)
    ensures response.Succeeded? || response.message.Some? ==>
      SignUp(s, email, password, fullName, isEmail, response) == SignIn(s, email, password, isEmail, response)
    ensures SignUp(s, email, password, fullName, isEmail, response).during ==
      SignIn(s, email, password, isEmail, response).during
  {
  }

  /** Whatever the input and the answer, a sign-in never leaves the screen
      loading unless it was already: a rejected input keeps `loading`, a
      submitted one ends with it off. */
  lemma SignInEndsLoading(s: AuthState, email: string, password: string, isEmail: string -> bool, response: Attempt)
    ensures SignIn(s, email, password, isEmail, response).after.ui.loading ==
      (s.ui.loading && !InputAcceptable(email, password, isEmail))
  {
  }

  /** A repository failure whose exception has no message is reported with
      the fallback text; one carrying a message reports that message. */
  lemma SignInFailureMessage(s: AuthState, email: string, password: string, isEmail: string -> bool, m: Option<string>)
    requires InputAcceptable(email, password, isEmail)
    ensures SignIn(s, email, password, isEmail, Failed(m)).after.ui.error ==
      Some(if m.Some? then m.value else SignInFailed)
  {
  }

  // ---------------------------------------------------------------- signOut, clearError, profile

  /** `signOut`: whatever the repository answers, the user and the profile
      are cleared; the screen state is not touched. */
  function SignOut(s: AuthState): (t: AuthState)
    ensures t.currentUser.None? && t.userProfile.None? && t.ui == s.ui
  {
    s.(currentUser := None, userProfile := None)
  }

  /** `clearError`: the error is cleared and `loading` is kept. */
  function ClearError(s: AuthState): (t: AuthState)
    ensures t.ui.error.None? && t.ui.loading == s.ui.loading
    ensures t.currentUser == s.currentUser && t.userProfile == s.userProfile
  {
    s.(ui := s.ui.(error := None))
  }

  /** Clearing twice is clearing once, and clearing undoes a rejected input. */
  lemma ClearErrorUndoesRejection(s: AuthState, email: string, password: string, isEmail: string -> bool)
    ensures ClearError(ClearError(s)) == ClearError(s)
    ensures ClearError(ValidateInput(s, email, password, isEmail).state) == ClearError(s)
  {
  }

  /** `loadUserProfile`: the fetched profile, or the failure's message as the error. */
  function LoadUserProfile(s: AuthState, fetched: Result<Profile>): (t: AuthState)
    ensures fetched.Ok? ==> t == s.(userProfile := Some(fetched.value))
    ensures fetched.Err? ==> OnlyErrorChanged(s, t) && t.ui.error == Some(fetched.message)
  {
    match fetched
    case Ok(p) => s.(userProfile := Some(p))
    case Err(m) => s.(ui := s.ui.(error := Some(m)))
  }

  /** `observeAuthState` on one session event: signed in, the current user
      is stored and, if there is one, the profile is loaded; signed out, the
      user and the profile are cleared. */
  function SessionChanged(s: AuthState, isAuthenticated: bool, current: Option<User>, profile: Result<Profile>): (t: AuthState)
    ensures !isAuthenticated ==> t == SignOut(s)
    ensures isAuthenticated ==> t.currentUser == current
    ensures isAuthenticated && current.None? ==> t == s.(currentUser := None)
    ensures isAuthenticated && current.Some? && profile.Ok? ==>
      t == s.(currentUser := current, userProfile := Some(profile.value)) && UserRoleOf(t) == Some(profile.value.role)
    ensures isAuthenticated && current.Some? && profile.Err? ==>
      t == s.(currentUser := current, ui := s.ui.(error := Some(profile.message)))
  {
    if !isAuthenticated then s.(currentUser := None, userProfile := None)
    else
      var withUser := s.(currentUser := current);
      if current.Some? then LoadUserProfile(withUser, profile) else withUser
  }
}

=== FILE: book_vehicle.dfy ===
/** The booking page of the web client (src/pages/BookVehicle.tsx): loading
    the vehicle to book, the total cost of the chosen dates, and the
    submission, which inserts a booking lock and then the booking. Dates
    are the form's strings; `toMillis` stands for `new Date(s).getTime()`. */
module BookVehicle {
  import opened Wrappers
  import Seqs
  import Money
  import opened WebModel

  datatype BookingForm = BookingForm(startDate: string, endDate: string, pickupLocation: string, returnLocation: string, notes: string)

  const EmptyForm: BookingForm := BookingForm("", "", "", "", "")

  // ---------------------------------------------------------------- loading

  /** The query's filter: this id, and status "available". */
  predicate IsBookable(v: WebVehicle, vehicleId: string) {
    v.id == vehicleId && v.status == "available"
  }

  const VehicleUnavailable: string := "Vehicle not found or unavailable."

  /** `.eq('id', vehicleId).eq('status', 'available').single()` over the
      `vehicles` table: the one matching row, and an error when there is
      none or more than one. */
  function SingleBookable(rows: seq<WebVehicle>, vehicleId: string): (r: Result<WebVehicle>)
    ensures r.Ok? ==> r.value in rows && IsBookable(r.value, vehicleId)
    ensures (forall i :: 0 <= i < |rows| ==> !IsBookable(rows[i], vehicleId)) ==> r.Err?
    ensures r.Err? ==> r.message == VehicleUnavailable
    ensures r.Ok? <==> Seqs.ExactlyOne(rows, v => IsBookable(v, vehicleId))
  {
    var matching := Seqs.Filter(rows, v => IsBookable(v, vehicleId));
    Seqs.FilterSingleton(rows, v => IsBookable(v, vehicleId));
    if |matching| == 1 then
      assert matching[0] in matching;
      Ok(matching[0])
    else
      NoneBookableFiltersNothing(rows, vehicleId);
      Err(VehicleUnavailable)
  }

  /** Without a matching row the filtered table is empty. */
  lemma NoneBookableFiltersNothing(rows: seq<WebVehicle>, vehicleId: string)
    ensures (forall i :: 0 <= i < |rows| ==> !IsBookable(rows[i], vehicleId)) ==>
      |Seqs.Filter(rows, v => IsBookable(v, vehicleId))| == 0
  {
    var matching := Seqs.Filter(rows, v => IsBookable(v, vehicleId));
    if |matching| > 0 {
      assert matching[0] in matching;
    }
  }

  /** What the page holds once the vehicle query has answered. */
  datatype Loaded = Loaded(vehicle: Option<WebVehicle>, form: BookingForm, route: Option<Route>)

  /** `fetchVehicle`: a found vehicle becomes the page's vehicle and both
      locations start as its location, or '' when it has none; otherwise
      the page goes back to the vehicle list with the form unchanged. */
  function FetchVehicle(form: BookingForm, fetched: Result<WebVehicle>): (l: Loaded)
    ensures fetched.Err? ==> l == Loaded(None, form, Some(VehiclesPage))
    ensures fetched.Ok? ==> l.vehicle == Some(fetched.value) && l.route.None?
    ensures fetched.Ok? ==> l.form.pickupLocation == l.form.returnLocation
    ensures fetched.Ok? ==> l.form.startDate == form.startDate && l.form.endDate == form.endDate && l.form.notes == form.notes
    ensures fetched.Ok? && fetched.value.location.Some? && fetched.value.location.value != "" ==>
      l.form.pickupLocation == fetched.value.location.value
    ensures fetched.Ok? && (fetched.value.location.None? || fetched.value.location.value == "") ==>
      l.form.pickupLocation == ""
  {
    match fetched
    case Err(_) => Loaded(None, form, Some(VehiclesPage))
    case Ok(v) =>
      var location := OrElse(v.location, "");
      Loaded(Some(v), form.(pickupLocation := location, returnLocation := location), None)
  }

  // ---------------------------------------------------------------- cost

  const MillisPerDay: int := 86_400_000

  /** `Math.ceil(ms / 86400000)` on a whole number of milliseconds. */
  function CeilDays(ms: int): (days: int)
    ensures (days - 1) * 86_400_000 < ms <= days * 86_400_000
  {
    -((-ms) / MillisPerDay)
  }

  /** `Math.max(1, days)`: the days charged between two instants. */
  function ChargedDays(startMs: int, endMs: int): (days: int)
    ensures days >= 1
    ensures endMs - startMs > 0 ==> days == CeilDays(endMs - startMs)
    ensures endMs - startMs <= 0 ==> days == 1
  {
    var d := CeilDays(endMs - startMs);
    if d > 1 then d else 1
  }

  /** Whole days are charged as they are, a started day as a full one, and
      a same-day or reversed range as one day. */
  lemma ChargedDaysExamples(startMs: int, k: int, extra: int)
    requires k >= 1 && 0 < extra < MillisPerDay
    ensures ChargedDays(startMs, startMs + k * MillisPerDay) == k
    ensures ChargedDays(startMs, startMs + k * MillisPerDay + extra) == k + 1
    ensures ChargedDays(startMs, startMs) == 1
    ensures ChargedDays(startMs, startMs - extra) == 1
  {
  }

  /** `calculateTotalCost`: nothing without a vehicle or with an empty
      date; otherwise the daily rate for every charged day. */
  function CalculateTotalCost(vehicle: Option<WebVehicle>, form: BookingForm, toMillis: string -> int): (cost: real)
    ensures vehicle.None? || form.startDate == "" || form.endDate == "" ==> cost == 0.0
    ensures vehicle.Some? && form.startDate != "" && form.endDate != "" ==>
      cost == Money.Scale(vehicle.value.dailyRate, ChargedDays(toMillis(form.startDate), toMillis(form.endDate)))
  {
    if vehicle.None? || form.startDate == "" || form.endDate == "" then 0.0
    else Money.Scale(vehicle.value.dailyRate, ChargedDays(toMillis(form.startDate), toMillis(form.endDate)))
  }

  /** With both dates entered, the cost is positive exactly when the
      vehicle's daily rate is, and it is the rate times the charged days. */
  lemma CostPositiveIffRate(v: WebVehicle, form: BookingForm, toMillis: string -> int)
    requires form.startDate != "" && form.endDate != ""
    ensures CalculateTotalCost(Some(v), form, toMillis) > 0.0 <==> v.dailyRate > 0.0
    ensures CalculateTotalCost(Some(v), form, toMillis) ==
      v.dailyRate * ChargedDays(toMillis(form.startDate), toMillis(form.endDate)) as real
  {
    var days := ChargedDays(toMillis(form.startDate), toMillis(form.endDate));
    Money.ScalePositive(v.dailyRate, days);
    Money.ScaleIsProduct(v.dailyRate, days);
  }

  /** The submit button: disabled while submitting or while a date is empty. */
  function SubmitDisabled(submitting: bool, form: BookingForm): (disabled: bool)
    ensures !disabled ==> !submitting
    ensures form.startDate == "" || form.endDate == "" ==> disabled
    ensures !submitting && form.startDate != "" && form.endDate != "" ==> !disabled
  {
    submitting || form.startDate == "" || form.endDate == ""
  }

  /** When the button can be pressed, the cost shown is the daily rate for
      at least one day. */
  lemma EnabledSubmitIsCharged(submitting: bool, v: WebVehicle, form: BookingForm, toMillis: string -> int)
    requires !SubmitDisabled(submitting, form)
    ensures exists days :: days >= 1 && CalculateTotalCost(Some(v), form, toMillis) == Money.Scale(v.dailyRate, days)
  {
    var days := ChargedDays(toMillis(form.startDate), toMillis(form.endDate));
    assert CalculateTotalCost(Some(v), form, toMillis) == Money.Scale(v.dailyRate, days);
  }

  // ---------------------------------------------------------------- submission

  /** The inserts the page sends, in order. */
  datatype Insert =
    | LockInsert(vehicleId: string, customerId: string, startDate: string, endDate: string)
    | BookingInsert(customerId: string, vehicleId: string, startDate: string, endDate: string,
                    pickupLocation: string, returnLocation: string, totalCost: real, notes: string)

  /** Nothing done (no user or no vehicle), a failure toast with its
      message, or the booking made (and the page moves to the bookings list). */
  datatype SubmitResult = Ignored | Failed(message: string) | Booked

  datatype Submission = Submission(result: SubmitResult, writes: seq<Insert>)

  const InvalidBookingDates: string := "Invalid booking dates"
  const BookingFailed: string := "Failed to create booking. Please try again."

  /** `handleSubmit`. `lockError` and `bookingError` are the messages of the
      two inserts' errors, if they fail. */
  function HandleSubmit(userId: Option<string>, vehicle: Option<WebVehicle>, form: BookingForm, toMillis: string -> int,
                        lockError: Option<string>, bookingError: Option<string>): (s: Submission)
    ensures userId.None? || vehicle.None? ==> s == Submission(Ignored, [])
    ensures s.result.Booked? <==>
      userId.Some? && vehicle.Some? && CalculateTotalCost(vehicle, form, toMillis) > 0.0 && lockError.None? && bookingError.None?
    ensures |s.writes| <= 2
    ensures |s.writes| >= 1 ==> userId.Some? && vehicle.Some?
    ensures |s.writes| >= 1 ==> s.writes[0] == LockInsert(vehicle.value.id, userId.value, form.startDate, form.endDate)
    ensures |s.writes| == 2 <==> userId.Some? && vehicle.Some? && CalculateTotalCost(vehicle, form, toMillis) > 0.0 && lockError.None?
    ensures |s.writes| == 2 ==> s.writes[1] == BookingInsert(userId.value, vehicle.value.id, form.startDate, form.endDate,
      form.pickupLocation, form.returnLocation, CalculateTotalCost(vehicle, form, toMillis), form.notes)
    ensures |s.writes| == 1 ==> s.result == Failed(OrElse(lockError, BookingFailed))
    ensures |s.writes| == 2 && bookingError.Some? ==> s.result == Failed(OrElse(bookingError, BookingFailed))
  {
    if userId.None? || vehicle.None? then Submission(Ignored, [])
    else
      var v := vehicle.value;
      var cost := CalculateTotalCost(vehicle, form, toMillis);
      if cost <= 0.0 then Submission(Failed(InvalidBookingDates), [])
      else
        var lock := LockInsert(v.id, userId.value, form.startDate, form.endDate);
        if lockError.Some? then Submission(Failed(OrElse(lockError, BookingFailed)), [lock])
        else
          var booking := BookingInsert(userId.value, v.id, form.startDate, form.endDate,
                                       form.pickupLocation, form.returnLocation, cost, form.notes);
          if bookingError.Some? then Submission(Failed(OrElse(bookingError, BookingFailed)), [lock, booking])
          else Submission(Booked, [lock, booking])
  }

  /** With a user and a vehicle, "Invalid booking dates" is reported before
      any insert exactly when the computed cost is not positive; with both
      dates entered, exactly when the daily rate is not positive. */
  lemma InvalidDatesIffNoCost(userId: string, v: WebVehicle, form: BookingForm, toMillis: string -> int,
                              lockError: Option<string>, bookingError: Option<string>)
    ensures var s := HandleSubmit(Some(userId), Some(v), form, toMillis, lockError, bookingError);
      (s.result == Failed(InvalidBookingDates) && s.writes == []) <==> CalculateTotalCost(Some(v), form, toMillis) <= 0.0
    ensures form.startDate != "" && form.endDate != "" ==>
      (HandleSubmit(Some(userId), Some(v), form, toMillis, lockError, bookingError).writes == [] <==> v.dailyRate <= 0.0)
  {
    if form.startDate != "" && form.endDate != "" {
      CostPositiveIffRate(v, form, toMillis);
    }
  }

  /** The booking is never inserted on its own: every booking insert comes
      second, right after the lock insert for the same vehicle, customer
      and dates, and a failed lock stops the submission. */
  lemma LockComesFirst(userId: Option<string>, vehicle: Option<WebVehicle>, form: BookingForm, toMillis: string -> int,
                       lockError: Option<string>, bookingError: Option<string>)
    ensures var s := HandleSubmit(userId, vehicle, form, toMillis, lockError, bookingError);
      forall k :: 0 <= k < |s.writes| && s.writes[k].BookingInsert? ==>
        k == 1 && s.writes[0].LockInsert? && s.writes[0].vehicleId == s.writes[k].vehicleId &&
        s.writes[0].customerId == s.writes[k].customerId &&
        s.writes[0].startDate == s.writes[k].startDate && s.writes[0].endDate == s.writes[k].endDate
    ensures lockError.Some? ==> forall k :: 0 <= k < |HandleSubmit(userId, vehicle, form, toMillis, lockError, bookingError).writes| ==>
      HandleSubmit(userId, vehicle, form, toMillis, lockError, bookingError).writes[k].LockInsert?
  {
  }
}

=== FILE: booking_model.dfy ===
/** The booking record of the Android app (data/model/Booking.kt): the
    `BookingStatus` enum and the record's default status. The database's
    booking enum has two more values, "awaiting_payment" and "scheduled",
    which this enum does not know. */
module BookingModel {
  import opened Wrappers
  import Seqs
  import VehicleModel
  import UserModel

  datatype BookingStatus = Pending | Confirmed | Active | Completed | Cancelled {
    function Value(): string {
      match this
      case Pending => "pending"
      case Confirmed => "confirmed"
      case Active => "active"
      case Completed => "completed"
      case Cancelled => "cancelled"
    }
  }

  const BookingStatuses: seq<BookingStatus> := [Pending, Confirmed, Active, Completed, Cancelled]

  lemma BookingStatusesComplete(x: BookingStatus)
    ensures x in BookingStatuses
  {
  }

  /** `BookingStatus.fromString`: the first status whose value is `value`, else PENDING. */
  function BookingStatusFromString(value: string): (r: BookingStatus)
    ensures (exists x: BookingStatus :: x.Value() == value) ==> r.Value() == value
    ensures (forall x: BookingStatus :: x.Value() != value) ==> r == Pending
  {
    assert forall x: BookingStatus :: x in BookingStatuses by { forall x: BookingStatus ensures x in BookingStatuses { BookingStatusesComplete(x); } }
    Seqs.FindFirst(BookingStatuses, (x: BookingStatus) => x.Value() == value).GetOr(Pending)
  }

  lemma BookingStatusValuesDistinct(a: BookingStatus, b: BookingStatus)
    ensures a.Value() == b.Value() ==> a == b
  {
  }

  lemma BookingStatusRoundTrip(s: BookingStatus)
    ensures BookingStatusFromString(s.Value()) == s
  {
    BookingStatusValuesDistinct(s, BookingStatusFromString(s.Value()));
  }

  /** `fromString` maps the rental and database statuses this enum lacks to PENDING. */
  lemma UnknownBookingStatusesArePending()
    ensures BookingStatusFromString("overdue") == Pending
    ensures BookingStatusFromString("awaiting_payment") == Pending
    ensures BookingStatusFromString("scheduled") == Pending
  {
    NotAValueIsPending("overdue");
    NotAValueIsPending("awaiting_payment");
    NotAValueIsPending("scheduled");
  }

  /** `fromString` maps a text that spells none of the five values to PENDING. */
  lemma NotAValueIsPending(value: string)
    requires value != "pending" && value != "confirmed" && value != "active"
    requires value != "completed" && value != "cancelled"
    ensures BookingStatusFromString(value) == Pending
  {
    forall x: BookingStatus ensures x.Value() != value {}
  }

  datatype Booking = Booking(
    id: string,
    vehicleId: string,
    customerId: string,
    startDate: string,
    endDate: string,
    totalAmount: real,
    status: BookingStatus,
    notes: Option<string>,
    pickupLocation: Option<string>,
    dropoffLocation: Option<string>,
    createdAt: string,
    updatedAt: Option<string>,
    vehicle: Option<VehicleModel.Vehicle>,
    customer: Option<UserModel.Profile>)

  /** A `Booking(...)` built from its required fields only. */
  function BookingWithDefaults(
    id: string, vehicleId: string, customerId: string, startDate: string, endDate: string,
    totalAmount: real, createdAt: string): (b: Booking)
    ensures b.status == Pending
    ensures b.notes.None? && b.pickupLocation.None? && b.dropoffLocation.None?
    ensures b.vehicle.None? && b.customer.None? && b.updatedAt.None?
    ensures b.id == id && b.customerId == customerId && b.totalAmount == totalAmount
  {
    Booking(id, vehicleId, customerId, startDate, endDate, totalAmount, Pending,
            None, None, None, createdAt, None, None, None)
  }
}

=== FILE: booking_view_model.dfy ===
/** The booking form of the Android app (ui/screens/booking/BookingViewModel.kt):
    the `BookingUiState` record, each `update*` method and `toggleExtra` as a
    state transformer, the quote computed by `calculatePricing`, the
    validity gate, loading, and `createBooking`'s request building.

    The repository calls the form makes are inputs: the loaded vehicle,
    locations and extras, today's epoch day, and `createRental` as a
    function from request to result. */
module BookingViewModel {
  import opened Wrappers
  import Seqs
  import Text
  import Ints
  import Money
  import opened RentalModel
  import VehicleModel
  import RentalRepository
  import UserModel

  datatype BookingUiState = BookingUiState(
    isLoading: bool,
    isCreatingBooking: bool,
    error: Option<string>,
    selectedVehicle: Option<VehicleModel.Vehicle>,
    locations: seq<RentalLocation>,
    availableExtras: seq<RentalExtra>,
    pickupDate: Option<int>,
    returnDate: Option<int>,
    pickupTime: Option<LocalTime>,
    returnTime: Option<LocalTime>,
    pickupLocationId: Option<string>,
    returnLocationId: Option<string>,
    insuranceType: InsuranceType,
    selectedExtras: seq<string>,
    specialRequests: string,
    totalDays: int,
    dailyRate: real,
    insuranceCost: real,
    extrasCost: real,
    subtotal: real,
    taxAmount: real,
    totalAmount: real,
    depositAmount: real,
    isValidForBooking: bool)

  /** `BookingUiState()`: nothing loaded, BASIC insurance, one day, zero amounts, not bookable. */
  const InitialState: BookingUiState :=
    BookingUiState(false, false, None, None, [], [], None, None, None, None, None, None,
                   Basic, [], "", 1, 0.0, 0.0, 0.0, 0.0, 0.0, 0.0, 0.0, false)

  /** The selected extras form a set: no id occurs twice. */
  predicate Distinct(xs: seq<string>) {
    forall i, j :: 0 <= i < j < |xs| ==> xs[i] != xs[j]
  }

  /** The fields `calculatePricing` writes are those of `t`, everything else is that of `s`. */
  predicate SameInputs(s: BookingUiState, t: BookingUiState) {
    t.(totalDays := s.totalDays, dailyRate := s.dailyRate, insuranceCost := s.insuranceCost,
       extrasCost := s.extrasCost, subtotal := s.subtotal, taxAmount := s.taxAmount,
       totalAmount := s.totalAmount, depositAmount := s.depositAmount,
       isValidForBooking := s.isValidForBooking) == s
  }

  /** The quote and the validity gate are those of `s`. */
  predicate SameQuote(s: BookingUiState, t: BookingUiState) {
    t.totalDays == s.totalDays && t.dailyRate == s.dailyRate && t.insuranceCost == s.insuranceCost &&
    t.extrasCost == s.extrasCost && t.subtotal == s.subtotal && t.taxAmount == s.taxAmount &&
    t.totalAmount == s.totalAmount && t.depositAmount == s.depositAmount &&
    t.isValidForBooking == s.isValidForBooking
  }

  // ---------------------------------------------------------------- quote

  /** `calculatePricing` goes past its early returns: a vehicle and both
      dates are present and the return date is not before the pickup date. */
  predicate PricingRuns(s: BookingUiState) {
    s.selectedVehicle.Some? && s.pickupDate.Some? && s.returnDate.Some? &&
    !(s.returnDate.value < s.pickupDate.value)
  }

  /** `t` holds the quote pricing gives for the inputs of `u`: its day
      count and the vehicle's rate, the amounts priced from them, and the
      validity gate of `u`'s locations. */
  predicate QuoteOf(u: BookingUiState, t: BookingUiState) {
    PricingRuns(u) &&
    t.totalDays == QuoteDays(u.pickupDate.value, u.returnDate.value) &&
    t.dailyRate == u.selectedVehicle.value.pricePerDay && Priced(t) &&
    (t.isValidForBooking <==> u.pickupLocationId.Some? && u.returnLocationId.Some? && t.totalDays > 0)
  }

  /** The form's day count: `ChronoUnit.DAYS.between` narrowed to `Int`,
      with zero counted as one day. */
  function QuoteDays(pickupDate: int, returnDate: int): (days: int)
    ensures 0 <= returnDate - pickupDate <= Ints.IntMax ==>
      days >= 1 && days == (if returnDate == pickupDate then 1 else returnDate - pickupDate)
    ensures Ints.InIntRange(days) && days != 0
  {
    var d := Ints.LongToInt(returnDate - pickupDate);
    if d == 0 then 1 else d
  }

  /** `calculateInsuranceCost` of the form: the insurance for the whole
      stay, the tier's percentage of the daily rate for every day. */
  function InsuranceCost(dailyRate: real, t: InsuranceType, totalDays: int): (cost: real)
    ensures cost * 100.0 == dailyRate * t.CoveragePercent() as real * totalDays as real
    ensures t == NoInsurance ==> cost == 0.0
  {
    var perDay := dailyRate * RentalRepository.CoverageFraction(t);
    Money.ScaleIsProduct(perDay, totalDays);
    Money.Scale(perDay, totalDays)
  }

  /** The form's insurance is the repository's per-day insurance taken for every day. */
  lemma InsuranceCostPerDay(dailyRate: real, t: InsuranceType, totalDays: int)
    ensures InsuranceCost(dailyRate, t, totalDays) == Money.Scale(RentalRepository.CalculateInsuranceCost(dailyRate, t), totalDays)
  {
  }

  /** The first available extra with id `extraId` (`find { it.id == extraId }`). */
  function FindExtra(extraId: string, available: seq<RentalExtra>): (r: Option<RentalExtra>)
    ensures r.None? <==> forall i :: 0 <= i < |available| ==> available[i].id != extraId
    ensures r.Some? ==> r.value in available && r.value.id == extraId
  {
    Seqs.FindFirst(available, (e: RentalExtra) => e.id == extraId)
  }

  /** The daily rate of the first available extra with id `extraId`, or 0 when there is none. */
  function ExtraDailyRate(extraId: string, available: seq<RentalExtra>): (rate: real)
    ensures (forall i :: 0 <= i < |available| ==> available[i].id != extraId) ==> rate == 0.0
    ensures (exists i :: 0 <= i < |available| && available[i].id == extraId) ==>
      exists i :: 0 <= i < |available| && available[i].id == extraId && rate == available[i].dailyRate
  {
    match FindExtra(extraId, available)
    case Some(e) => e.dailyRate
    case None => 0.0
  }

  /** `calculateExtrasCost`: for each selected id, the matching extra's daily
      rate for every day; ids with no matching extra add nothing. */
  function ExtrasCost(selected: seq<string>, available: seq<RentalExtra>, totalDays: int): real {
    if |selected| == 0 then 0.0
    else Money.Scale(ExtraDailyRate(selected[0], available), totalDays) + ExtrasCost(selected[1..], available, totalDays)
  }

  /** An id with no matching extra can be dropped from the selection without
      changing the extras cost. */
  lemma {:induction false} ExtrasCostIgnoresUnknown(selected: seq<string>, available: seq<RentalExtra>, totalDays: int, k: nat)
    requires k < |selected|
    requires forall i :: 0 <= i < |available| ==> available[i].id != selected[k]
    ensures ExtrasCost(selected, available, totalDays) == ExtrasCost(selected[..k] + selected[k + 1..], available, totalDays)
  {
    var rest := selected[..k] + selected[k + 1..];
    if k == 0 {
      assert rest == selected[1..];
      assert ExtraDailyRate(selected[0], available) == 0.0;
      Money.ScaleZero(totalDays);
    } else {
      var tail := selected[1..];
      ExtrasCostIgnoresUnknown(tail, available, totalDays, k - 1);
      Seqs.RemoveAtTail(selected, k);
    }
  }

  /** The extras cost is non-negative when every rate and the day count are. */
  lemma {:induction false} ExtrasCostNonNegative(selected: seq<string>, available: seq<RentalExtra>, totalDays: int)
    requires totalDays >= 0
    requires forall i :: 0 <= i < |available| ==> available[i].dailyRate >= 0.0
    ensures ExtrasCost(selected, available, totalDays) >= 0.0
  {
    if |selected| > 0 {
      ExtrasCostNonNegative(selected[1..], available, totalDays);
      var r := ExtraDailyRate(selected[0], available);
      assert r >= 0.0;
      Money.ScaleNonNegative(r, totalDays);
    }
  }

  /** `validateBookingData`: vehicle, both dates and both locations chosen, and a positive day count. */
  predicate ValidateBookingData(s: BookingUiState) {
    s.selectedVehicle.Some? && s.pickupDate.Some? && s.returnDate.Some? &&
    s.pickupLocationId.Some? && s.returnLocationId.Some? && s.totalDays > 0
  }

  /** `calculatePricing`. When it runs, the quote is: the vehicle's rate for
      every day, insurance for the stay, the extras, 16% VAT on that
      subtotal and a 30% deposit of the total; and the form is bookable iff
      the validity gate passes. Otherwise the state is left exactly as it was,
      including a stale `isValidForBooking`. */
  function CalculatePricing(s: BookingUiState): (t: BookingUiState)
    ensures !PricingRuns(s) ==> t == s
    ensures SameInputs(s, t)
    ensures PricingRuns(s) ==>
      t.totalDays == QuoteDays(s.pickupDate.value, s.returnDate.value) &&
      t.dailyRate == s.selectedVehicle.value.pricePerDay &&
      t.insuranceCost == InsuranceCost(t.dailyRate, t.insuranceType, t.totalDays) &&
      t.extrasCost == ExtrasCost(t.selectedExtras, t.availableExtras, t.totalDays) &&
      t.subtotal == Money.Scale(t.dailyRate, t.totalDays) + t.insuranceCost + t.extrasCost &&
      t.totalAmount == t.subtotal * 1.16 &&
      t.taxAmount == t.totalAmount - t.subtotal &&
      t.depositAmount * 10.0 == t.totalAmount * 3.0
    ensures PricingRuns(s) ==>
      (t.isValidForBooking <==> s.pickupLocationId.Some? && s.returnLocationId.Some? && t.totalDays > 0)
  {
    if !PricingRuns(s) then s
    else
      var totalDays := QuoteDays(s.pickupDate.value, s.returnDate.value);
      var dailyRate := s.selectedVehicle.value.pricePerDay;
      var insuranceCost := InsuranceCost(dailyRate, s.insuranceType, totalDays);
      var extrasCost := ExtrasCost(s.selectedExtras, s.availableExtras, totalDays);
      var subtotal := Money.Scale(dailyRate, totalDays) + insuranceCost + extrasCost;
      var taxAmount := subtotal * 0.16;
      var totalAmount := subtotal + taxAmount;
      s.(totalDays := totalDays, dailyRate := dailyRate, insuranceCost := insuranceCost,
         extrasCost := extrasCost, subtotal := subtotal, taxAmount := taxAmount,
         totalAmount := totalAmount, depositAmount := totalAmount * 0.30,
         isValidForBooking := ValidateBookingData(s.(totalDays := totalDays)))
  }

  /** Pricing twice is pricing once: the quote depends only on the form's inputs. */
  lemma CalculatePricingIdempotent(s: BookingUiState)
    ensures CalculatePricing(CalculatePricing(s)) == CalculatePricing(s)
  {
    var t := CalculatePricing(s);
    if PricingRuns(s) {
      assert t.selectedVehicle == s.selectedVehicle && t.pickupDate == s.pickupDate && t.returnDate == s.returnDate;
      assert t.insuranceType == s.insuranceType && t.selectedExtras == s.selectedExtras && t.availableExtras == s.availableExtras;
      assert t.pickupLocationId == s.pickupLocationId && t.returnLocationId == s.returnLocationId;
    }
  }

  /** When pricing runs on ordered dates less than 2^31 days apart, the day
      count is at least one, so the gate reduces to the two locations. */
  lemma PricedFormGate(s: BookingUiState)
    requires PricingRuns(s) && s.returnDate.value - s.pickupDate.value <= Ints.IntMax
    ensures CalculatePricing(s).totalDays >= 1
    ensures CalculatePricing(s).isValidForBooking <==> s.pickupLocationId.Some? && s.returnLocationId.Some?
  {
  }

  // ---------------------------------------------------------------- field updates

  /** `updateDates`: sets both dates, then reprices. */
  function UpdateDates(s: BookingUiState, pickupDate: int, returnDate: int): (t: BookingUiState)
    ensures t.pickupDate == Some(pickupDate) && t.returnDate == Some(returnDate)
    ensures SameInputs(s.(pickupDate := Some(pickupDate), returnDate := Some(returnDate)), t)
    ensures s.selectedVehicle.Some? && pickupDate <= returnDate ==>
      QuoteOf(s.(pickupDate := Some(pickupDate), returnDate := Some(returnDate)), t)
    ensures s.selectedVehicle.None? || returnDate < pickupDate ==> SameQuote(s, t)
  {
    CalculatePricing(s.(pickupDate := Some(pickupDate), returnDate := Some(returnDate)))
  }

  /** `updateTimes`: sets both times; the quote is not touched. */
  function UpdateTimes(s: BookingUiState, pickupTime: LocalTime, returnTime: LocalTime): (t: BookingUiState)
    ensures t.pickupTime == Some(pickupTime) && t.returnTime == Some(returnTime)
    ensures t.(pickupTime := s.pickupTime, returnTime := s.returnTime) == s
    ensures SameQuote(s, t)
  {
    s.(pickupTime := Some(pickupTime), returnTime := Some(returnTime))
  }

  /** `updateLocations`: sets both location ids; the quote and the gate are not touched. */
  function UpdateLocations(s: BookingUiState, pickupLocationId: string, returnLocationId: string): (t: BookingUiState)
    ensures t.pickupLocationId == Some(pickupLocationId) && t.returnLocationId == Some(returnLocationId)
    ensures t.(pickupLocationId := s.pickupLocationId, returnLocationId := s.returnLocationId) == s
    ensures SameQuote(s, t)
  {
    s.(pickupLocationId := Some(pickupLocationId), returnLocationId := Some(returnLocationId))
  }

  /** `updateInsurance`: sets the tier, then reprices. */
  function UpdateInsurance(s: BookingUiState, insuranceType: InsuranceType): (t: BookingUiState)
    ensures t.insuranceType == insuranceType
    ensures SameInputs(s.(insuranceType := insuranceType), t)
    ensures PricingRuns(s) ==> QuoteOf(s.(insuranceType := insuranceType), t)
    ensures PricingRuns(s) ==> t.insuranceCost == InsuranceCost(t.dailyRate, insuranceType, t.totalDays)
    ensures !PricingRuns(s) ==> SameQuote(s, t)
  {
    CalculatePricing(s.(insuranceType := insuranceType))
  }

  /** `updateSpecialRequests`: sets the text; the quote is not touched. */
  function UpdateSpecialRequests(s: BookingUiState, requests: string): (t: BookingUiState)
    ensures t.specialRequests == requests
    ensures t.(specialRequests := s.specialRequests) == s
    ensures SameQuote(s, t)
  {
    s.(specialRequests := requests)
  }

  /** `LinkedHashSet.add`: appends the id unless it is already there. */
  function AddId(xs: seq<string>, id: string): (r: seq<string>)
    requires Distinct(xs)
    ensures Distinct(r) && id in r
    ensures forall x :: x in r <==> x in xs || x == id
    ensures id in xs ==> r == xs
  {
    if id in xs then xs else xs + [id]
  }

  /** `LinkedHashSet.remove`: drops the id, keeping the others in order. */
  function RemoveId(xs: seq<string>, id: string): (r: seq<string>)
    requires Distinct(xs)
    ensures Distinct(r) && id !in r
    ensures forall x :: x in r <==> x in xs && x != id
    ensures Seqs.IsSubsequence(r, xs)
  {
    Seqs.FilterIsSubsequence(xs, (x: string) => x != id);
    FilterDistinct(xs, (x: string) => x != id);
    Seqs.Filter(xs, (x: string) => x != id)
  }

  /** Filtering a sequence without repetitions leaves one without repetitions. */
  lemma {:induction false} FilterDistinct(xs: seq<string>, p: string -> bool)
    requires Distinct(xs)
    ensures Distinct(Seqs.Filter(xs, p))
  {
    if |xs| > 0 {
      FilterDistinct(xs[1..], p);
      var rest := Seqs.Filter(xs[1..], p);
      assert xs[0] !in xs[1..];
      assert xs[0] !in rest;
    }
  }

  /** `toggleExtra`: adds or removes the extra's id, then reprices. */
  function ToggleExtra(s: BookingUiState, extra: RentalExtra, isSelected: bool): (t: BookingUiState)
    requires Distinct(s.selectedExtras)
    ensures Distinct(t.selectedExtras)
    ensures (extra.id in t.selectedExtras) == isSelected
    ensures forall x :: x != extra.id ==> (x in t.selectedExtras <==> x in s.selectedExtras)
    ensures SameInputs(s.(selectedExtras := t.selectedExtras), t)
    ensures PricingRuns(s) ==> QuoteOf(s.(selectedExtras := t.selectedExtras), t)
    ensures PricingRuns(s) ==> t.extrasCost == ExtrasCost(t.selectedExtras, s.availableExtras, t.totalDays)
    ensures !PricingRuns(s) ==> SameQuote(s, t)
  {
    var ids := if isSelected then AddId(s.selectedExtras, extra.id) else RemoveId(s.selectedExtras, extra.id);
    CalculatePricing(s.(selectedExtras := ids))
  }

  /** Toggling the same way twice is toggling once. */
  lemma ToggleExtraIdempotent(s: BookingUiState, extra: RentalExtra, isSelected: bool)
    requires Distinct(s.selectedExtras)
    ensures ToggleExtra(ToggleExtra(s, extra, isSelected), extra, isSelected) == ToggleExtra(s, extra, isSelected)
  {
    var ids := if isSelected then AddId(s.selectedExtras, extra.id) else RemoveId(s.selectedExtras, extra.id);
    var u := s.(selectedExtras := ids);
    var t := CalculatePricing(u);
    assert t == ToggleExtra(s, extra, isSelected);
    assert t.selectedExtras == ids;
    var again := if isSelected then AddId(ids, extra.id) else RemoveId(ids, extra.id);
    if !isSelected {
      FilterKeepsAll(ids, (x: string) => x != extra.id);
    }
    assert again == ids;
    assert t.(selectedExtras := again) == t;
    CalculatePricingIdempotent(u);
  }

  /** Filtering by a predicate every element satisfies changes nothing. */
  lemma {:induction false} FilterKeepsAll(xs: seq<string>, p: string -> bool)
    requires forall i :: 0 <= i < |xs| ==> p(xs[i])
    ensures Seqs.Filter(xs, p) == xs
  {
    if |xs| > 0 {
      FilterKeepsAll(xs[1..], p);
      assert xs == [xs[0]] + xs[1..];
    }
  }

  // ---------------------------------------------------------------- loading

  /** `loadBookingData` after its repository calls: a failed vehicle lookup
      only reports an error; otherwise the form is filled with the vehicle,
      the locations and extras (empty when their fetch failed), tomorrow and
      the day after, 09:00 and 17:00, the first location for both ends, and
      then priced. */
  function LoadBookingData(
    s: BookingUiState, vehicleResult: Result<VehicleModel.Vehicle>,
    locationsResult: Result<seq<RentalLocation>>, extrasResult: Result<seq<RentalExtra>>,
    today: int): (t: BookingUiState)
    ensures !t.isLoading
    ensures vehicleResult.Err? ==>
      t == s.(isLoading := false, error := Some("Failed to load vehicle details"))
    ensures vehicleResult.Ok? ==>
      t.error.None? && t.selectedVehicle == Some(vehicleResult.value) &&
      t.pickupDate == Some(today + 1) && t.returnDate == Some(today + 2) &&
      t.pickupTime == Some(LocalTime(9, 0)) && t.returnTime == Some(LocalTime(17, 0)) &&
      t.totalDays == 1 && t.dailyRate == vehicleResult.value.pricePerDay &&
      t.locations == (if locationsResult.Ok? then locationsResult.value else []) &&
      t.availableExtras == (if extrasResult.Ok? then extrasResult.value else []) &&
      (t.isValidForBooking <==> |t.locations| > 0) &&
      (|t.locations| > 0 ==> t.pickupLocationId == t.returnLocationId == Some(t.locations[0].id))
    ensures t.isCreatingBooking == s.isCreatingBooking && t.insuranceType == s.insuranceType &&
      t.selectedExtras == s.selectedExtras && t.specialRequests == s.specialRequests
    // The closing `calculatePricing()` prices the kept choices for one day at the vehicle's rate.
    ensures vehicleResult.Ok? ==>
      Priced(t) &&
      t.insuranceCost == InsuranceCost(vehicleResult.value.pricePerDay, s.insuranceType, 1) &&
      t.extrasCost == ExtrasCost(s.selectedExtras, t.availableExtras, 1)
  {
    var loading := s.(isLoading := true, error := None);
    if vehicleResult.Err? then loading.(isLoading := false, error := Some("Failed to load vehicle details"))
    else
      var vehicle := vehicleResult.value;
      var locations := if locationsResult.Ok? then locationsResult.value else [];
      var extras := if extrasResult.Ok? then extrasResult.value else [];
      var firstId := if |locations| > 0 then Some(locations[0].id) else None;
      var filled := loading.(
        isLoading := false, selectedVehicle := Some(vehicle), locations := locations,
        availableExtras := extras, pickupDate := Some(today + 1), returnDate := Some(today + 2),
        pickupTime := Some(LocalTime(9, 0)), returnTime := Some(LocalTime(17, 0)),
        pickupLocationId := firstId, returnLocationId := firstId, dailyRate := vehicle.pricePerDay);
      assert QuoteDays(today + 1, today + 2) == 1;
      PricedFormGate(filled);
      CalculatePricing(filled)
  }

  /** A freshly loaded form is already priced: pricing it again changes
      nothing, and it carries the quote of its own inputs. */
  lemma LoadedFormIsPriced(
    s: BookingUiState, vehicle: VehicleModel.Vehicle,
    locationsResult: Result<seq<RentalLocation>>, extrasResult: Result<seq<RentalExtra>>, today: int)
    ensures var t := LoadBookingData(s, Ok(vehicle), locationsResult, extrasResult, today);
      CalculatePricing(t) == t && QuoteOf(t, t)
  {
    var t := LoadBookingData(s, Ok(vehicle), locationsResult, extrasResult, today);
    assert QuoteDays(today + 1, today + 2) == 1;
    assert PricingRuns(t);
    var u := CalculatePricing(t);
    assert u.totalDays == t.totalDays && u.dailyRate == t.dailyRate;
    assert u.isValidForBooking == t.isValidForBooking;
  }

  // ---------------------------------------------------------------- createBooking

  /** `mapNotNull` over the selected ids: one selection per id that names an
      available extra, quantity 1, costing its daily rate for every day. */
  function ExtraSelections(selected: seq<string>, available: seq<RentalExtra>, totalDays: int): (r: seq<RentalExtraSelection>)
    ensures |r| <= |selected|
    ensures forall i :: 0 <= i < |r| ==>
      r[i].quantity == 1 && r[i].totalCost == Money.Scale(r[i].dailyRate, totalDays) &&
      r[i].rentalExtraId in selected && r[i].id == "" && r[i].rentalId == ""
    ensures forall i :: 0 <= i < |r| ==>
      FindExtra(r[i].rentalExtraId, available).Some? && r[i].dailyRate == ExtraDailyRate(r[i].rentalExtraId, available)
    ensures (forall id :: id in selected ==> exists e :: e in available && e.id == id) ==> |r| == |selected|
  {
    if |selected| == 0 then []
    else
      var rest := ExtraSelections(selected[1..], available, totalDays);
      assert forall id :: id in selected[1..] ==> id in selected;
      match FindExtra(selected[0], available)
      case Some(e) => [RentalExtraSelection("", "", e.id, 1, e.dailyRate, Money.Scale(e.dailyRate, totalDays))] + rest
      case None =>
        assert selected[0] in selected;
        rest
  }

  /** Each selection sent is stored at the cost the form put on it, when
      the repository counts the same days. */
  lemma SelectionsStoredAtSentCost(selected: seq<string>, available: seq<RentalExtra>, totalDays: int)
    ensures var r := ExtraSelections(selected, available, totalDays);
      forall i :: 0 <= i < |r| ==> RentalRepository.PersistedExtraCost(r[i], totalDays) == r[i].totalCost
  {
    var r := ExtraSelections(selected, available, totalDays);
    forall i | 0 <= i < |r| ensures RentalRepository.PersistedExtraCost(r[i], totalDays) == r[i].totalCost {
      Money.ScaleIsProduct(r[i].dailyRate, totalDays);
    }
  }

  /** The selections cost exactly what the form quoted for the extras. */
  lemma {:induction false} ExtraSelectionsCost(selected: seq<string>, available: seq<RentalExtra>, totalDays: int)
    ensures RentalRepository.ExtrasTotal(ExtraSelections(selected, available, totalDays)) == ExtrasCost(selected, available, totalDays)
  {
    if |selected| > 0 {
      ExtraSelectionsCost(selected[1..], available, totalDays);
      var rest := ExtraSelections(selected[1..], available, totalDays);
      ExtraSelectionsFirst(selected, available, totalDays);
      var all := ExtraSelections(selected, available, totalDays);
      match FindExtra(selected[0], available)
      case Some(e) =>
        assert all[1..] == rest;
        RentalRepository.ExtrasTotalFirst(all);
        assert all[0].totalCost == Money.Scale(ExtraDailyRate(selected[0], available), totalDays);
      case None =>
        assert ExtraDailyRate(selected[0], available) == 0.0;
        Money.ScaleZero(totalDays);
    }
  }

  /** The selections of the first id followed by those of the others. */
  lemma ExtraSelectionsFirst(selected: seq<string>, available: seq<RentalExtra>, totalDays: int)
    requires |selected| > 0
    ensures var rest := ExtraSelections(selected[1..], available, totalDays);
      var all := ExtraSelections(selected, available, totalDays);
      match FindExtra(selected[0], available)
      case Some(e) => all == [RentalExtraSelection("", "", e.id, 1, e.dailyRate, Money.Scale(e.dailyRate, totalDays))] + rest
      case None => all == rest
  {
  }

  /** The request `createBooking` sends, or None when one of its `!!`
      assertions would throw. Missing times default to 09:00 and 17:00, and
      blank special requests are sent as none. */
  function BuildRequest(s: BookingUiState): (r: Option<RentalRequest>)
    ensures r.Some? <==> (s.selectedVehicle.Some? && s.pickupDate.Some? && s.returnDate.Some? &&
      s.pickupLocationId.Some? && s.returnLocationId.Some?)
    ensures r.Some? ==>
      r.value.vehicleId == s.selectedVehicle.value.id &&
      r.value.pickupLocationId == s.pickupLocationId.value &&
      r.value.returnLocationId == s.returnLocationId.value &&
      r.value.pickupDate == s.pickupDate.value && r.value.returnDate == s.returnDate.value &&
      r.value.pickupTime == s.pickupTime.GetOr(LocalTime(9, 0)) &&
      r.value.returnTime == s.returnTime.GetOr(LocalTime(17, 0)) &&
      r.value.insuranceType == s.insuranceType &&
      r.value.selectedExtras == ExtraSelections(s.selectedExtras, s.availableExtras, s.totalDays) &&
      (r.value.specialRequests.None? <==> Text.IsBlank(s.specialRequests)) &&
      (r.value.specialRequests.Some? ==> r.value.specialRequests.value == s.specialRequests)
  {
    if s.selectedVehicle.None? || s.pickupDate.None? || s.returnDate.None? ||
       s.pickupLocationId.None? || s.returnLocationId.None? then None
    else
      Some(RentalRequest(
        s.selectedVehicle.value.id, s.pickupLocationId.value, s.returnLocationId.value,
        s.pickupDate.value, s.pickupTime.GetOr(LocalTime(9, 0)),
        s.returnDate.value, s.returnTime.GetOr(LocalTime(17, 0)),
        s.insuranceType, ExtraSelections(s.selectedExtras, s.availableExtras, s.totalDays),
        if Text.IsBlank(s.specialRequests) then None else Some(s.specialRequests)))
  }

  /** What `createBooking` leads to: the final form state, the request sent
      (if any), and the rental id handed to `onSuccess` (if any). */
  datatype BookingStep = BookingStep(state: BookingUiState, request: Option<RentalRequest>, bookedRentalId: Option<string>)

  const UnknownError: string := "Unknown error occurred"

  /** `createBooking`, with the repository's `createRental` as `createRental`. */
  function CreateBooking(s: BookingUiState, createRental: RentalRequest -> Result<Rental>): (o: BookingStep)
    ensures !s.isValidForBooking ==> o == BookingStep(s, None, None)
    ensures o.request.Some? <==> s.isValidForBooking && BuildRequest(s).Some?
    ensures o.request.Some? ==> o.request == BuildRequest(s)
    ensures o.bookedRentalId.Some? <==> o.request.Some? && createRental(o.request.value).Ok?
    ensures o.bookedRentalId.Some? ==>
      o.bookedRentalId.value == createRental(o.request.value).value.id &&
      o.state == s.(isCreatingBooking := true, error := None)
    ensures s.isValidForBooking && o.bookedRentalId.None? ==>
      !o.state.isCreatingBooking && o.state.error.Some? && SameQuote(s, o.state)
    // A failure restores the form as it was, with the failure's message.
    ensures o.request.Some? && o.bookedRentalId.None? ==>
      o.state == s.(isCreatingBooking := false, error := Some(createRental(o.request.value).message))
    // A form with a missing field makes a `!!` throw a message-less exception.
    ensures s.isValidForBooking && o.request.None? ==>
      o.state == s.(isCreatingBooking := false, error := Some(UnknownError))
  {
    if !s.isValidForBooking then BookingStep(s, None, None)
    else
      match BuildRequest(s)
      case None => BookingStep(s.(isCreatingBooking := false, error := Some(UnknownError)), None, None)
      case Some(req) =>
        match createRental(req)
        case Ok(rental) => BookingStep(s.(isCreatingBooking := true, error := None), Some(req), Some(rental.id))
        case Err(message) => BookingStep(s.(isCreatingBooking := false, error := Some(message)), Some(req), None)
  }

  /** A failed booking leaves a form that can be submitted again, and the
      retry sends the very same request. */
  lemma FailedBookingRetriesSameRequest(s: BookingUiState, first: RentalRequest -> Result<Rental>,
                                        retry: RentalRequest -> Result<Rental>)
    requires s.isValidForBooking && BuildRequest(s).Some? && first(BuildRequest(s).value).Err?
    ensures var o := CreateBooking(s, first);
      o.state.isValidForBooking && CreateBooking(o.state, retry).request == o.request == BuildRequest(s)
  {
  }

  // ---------------------------------------------------------------- quote and charge

  /** The quote fields of `t` are the ones `calculatePricing` computes from
      its own rate, day count, insurance and extras. */
  predicate Priced(t: BookingUiState) {
    t.insuranceCost == InsuranceCost(t.dailyRate, t.insuranceType, t.totalDays) &&
    t.extrasCost == ExtrasCost(t.selectedExtras, t.availableExtras, t.totalDays) &&
    t.subtotal == Money.Scale(t.dailyRate, t.totalDays) + t.insuranceCost + t.extrasCost &&
    t.totalAmount == t.subtotal * 1.16 &&
    t.taxAmount == t.totalAmount - t.subtotal &&
    t.depositAmount * 10.0 == t.totalAmount * 3.0
  }

  /** Pricing leaves the form priced. */
  lemma PricingPrices(s: BookingUiState)
    requires PricingRuns(s)
    ensures Priced(CalculatePricing(s))
  {
  }

  /** Once the form has been priced and is bookable, `createRental` (given a
      signed-in user, a free vehicle whose rate is unchanged, and writes that
      succeed) charges exactly what the form quoted, in exact arithmetic. The
      form's insurance is for the whole stay, the repository's per day. */
  lemma QuoteEqualsCharge(
    s: BookingUiState, user: UserModel.AuthUser, rentals: Result<seq<Rental>>,
    vehicles: seq<VehicleModel.Vehicle>, extraInsertErrors: seq<Option<string>>, millis: string, now: string)
    requires PricingRuns(s)
    requires CalculatePricing(s).isValidForBooking
    requires var v := s.selectedVehicle.value;
      (exists i :: 0 <= i < |vehicles| && vehicles[i].id == v.id) &&
      (forall i :: 0 <= i < |vehicles| && vehicles[i].id == v.id ==> vehicles[i].pricePerDay == v.pricePerDay)
    requires RentalRepository.CheckVehicleAvailability(rentals, s.selectedVehicle.value.id, s.pickupDate.value, s.returnDate.value) == Ok(true)
    requires forall i :: 0 <= i < |extraInsertErrors| ==> extraInsertErrors[i].None?
    ensures var t := CalculatePricing(s);
      BuildRequest(t).Some? &&
      var o := RentalRepository.CreateRental(Some(user), BuildRequest(t).value, rentals, Ok(vehicles), None, extraInsertErrors, millis, now);
      o.result.Ok? &&
      o.result.value.totalAmount == t.totalAmount &&
      o.result.value.subtotal == t.subtotal &&
      o.result.value.taxAmount == t.taxAmount &&
      o.result.value.depositAmount == t.depositAmount &&
      o.result.value.totalDays == t.totalDays &&
      o.result.value.dailyRate == t.dailyRate &&
      o.result.value.insuranceCost == RentalRepository.CalculateInsuranceCost(t.dailyRate, t.insuranceType)
  {
    var t := CalculatePricing(s);
    QuoteIsBooked(s, user, rentals, vehicles, extraInsertErrors, millis, now);
    var req := BuildRequest(t).value;
    var o := RentalRepository.CreateRental(Some(user), req, rentals, Ok(vehicles), None, extraInsertErrors, millis, now);
    var c := ChargeOfQuote(t);
    var r := RentalRepository.PendingRental("temp_id_" + millis, user.id, req, c, now);
    assert o.result == Ok(r);
    PricingPrices(s);
    ChargeMatchesQuote(t);
    RentalCarriesCharge("temp_id_" + millis, user.id, req, c, now, t);
  }

  /** The pending rental carries the amounts of a charge that equals the quote of `t`. */
  lemma RentalCarriesCharge(id: string, customerId: string, req: RentalRequest, c: RentalRepository.Charge, createdAt: string, t: BookingUiState)
    requires c.subtotal == t.subtotal && c.taxAmount == t.taxAmount && c.totalAmount == t.totalAmount
    requires c.depositAmount == t.depositAmount && c.totalDays == t.totalDays && c.dailyRate == t.dailyRate
    requires c.insuranceCost == RentalRepository.CalculateInsuranceCost(t.dailyRate, t.insuranceType)
    ensures var r := RentalRepository.PendingRental(id, customerId, req, c, createdAt);
      r.totalAmount == t.totalAmount && r.subtotal == t.subtotal && r.taxAmount == t.taxAmount &&
      r.depositAmount == t.depositAmount && r.totalDays == t.totalDays && r.dailyRate == t.dailyRate &&
      r.insuranceCost == RentalRepository.CalculateInsuranceCost(t.dailyRate, t.insuranceType)
  {
  }

  /** `createRental` accepts the request of a priced, bookable form and
      records the pending rental with the charge of the form's quote. */
  lemma QuoteIsBooked(
    s: BookingUiState, user: UserModel.AuthUser, rentals: Result<seq<Rental>>,
    vehicles: seq<VehicleModel.Vehicle>, extraInsertErrors: seq<Option<string>>, millis: string, now: string)
    requires PricingRuns(s)
    requires CalculatePricing(s).isValidForBooking
    requires var v := s.selectedVehicle.value;
      (exists i :: 0 <= i < |vehicles| && vehicles[i].id == v.id) &&
      (forall i :: 0 <= i < |vehicles| && vehicles[i].id == v.id ==> vehicles[i].pricePerDay == v.pricePerDay)
    requires RentalRepository.CheckVehicleAvailability(rentals, s.selectedVehicle.value.id, s.pickupDate.value, s.returnDate.value) == Ok(true)
    requires forall i :: 0 <= i < |extraInsertErrors| ==> extraInsertErrors[i].None?
    ensures var t := CalculatePricing(s);
      BuildRequest(t).Some? &&
      var o := RentalRepository.CreateRental(Some(user), BuildRequest(t).value, rentals, Ok(vehicles), None, extraInsertErrors, millis, now);
      o.result == Ok(RentalRepository.PendingRental("temp_id_" + millis, user.id, BuildRequest(t).value, ChargeOfQuote(t), now))
  {
    var t := CalculatePricing(s);
    var req := BuildRequest(t).value;
    QuoteDaysChargedDays(req.pickupDate, req.returnDate);
    assert RentalRepository.CalculateDaysBetween(req.pickupDate, req.returnDate) == t.totalDays;
    assert req.vehicleId == s.selectedVehicle.value.id && req.pickupDate == s.pickupDate.value && req.returnDate == s.returnDate.value;
    RentalRepository.CreateRentalSucceeds(user, req, rentals, vehicles, extraInsertErrors, t.dailyRate, millis, now);
  }

  /** A positive form day count is the day count `createRental` charges. */
  lemma QuoteDaysChargedDays(pickupDate: int, returnDate: int)
    requires QuoteDays(pickupDate, returnDate) > 0
    ensures RentalRepository.CalculateDaysBetween(pickupDate, returnDate) == QuoteDays(pickupDate, returnDate)
  {
  }

  /** The repository's charge for the extras and request of a priced form. */
  function ChargeOfQuote(t: BookingUiState): RentalRepository.Charge {
    RentalRepository.ComputeCharge(t.dailyRate, t.insuranceType, t.totalDays,
      ExtraSelections(t.selectedExtras, t.availableExtras, t.totalDays))
  }

  /** The repository's charge for the request of a priced form is the form's quote. */
  lemma ChargeMatchesQuote(t: BookingUiState)
    requires Priced(t)
    ensures var c := ChargeOfQuote(t);
      c.subtotal == t.subtotal && c.taxAmount == t.taxAmount && c.totalAmount == t.totalAmount &&
      c.depositAmount == t.depositAmount && c.totalDays == t.totalDays && c.dailyRate == t.dailyRate &&
      c.insuranceCost == RentalRepository.CalculateInsuranceCost(t.dailyRate, t.insuranceType)
  {
    var extras := ExtraSelections(t.selectedExtras, t.availableExtras, t.totalDays);
    ChargeExtrasMatch(t);
    assert ChargeOfQuote(t) == RentalRepository.ComputeCharge(t.dailyRate, t.insuranceType, t.totalDays, extras);
    ChargeAgreesWithQuote(t.dailyRate, t.insuranceType, t.totalDays, extras,
                          t.insuranceCost, t.extrasCost, t.subtotal, t.taxAmount, t.totalAmount, t.depositAmount);
  }

  /** The repository's charge agrees with amounts priced the way the form prices them. */
  lemma ChargeAgreesWithQuote(dailyRate: real, insuranceType: InsuranceType, totalDays: int, extras: seq<RentalExtraSelection>,
                              insuranceCost: real, extrasCost: real, subtotal: real, tax: real, total: real, deposit: real)
    requires insuranceCost == InsuranceCost(dailyRate, insuranceType, totalDays)
    requires extrasCost == RentalRepository.ExtrasTotal(extras)
    requires subtotal == Money.Scale(dailyRate, totalDays) + insuranceCost + extrasCost
    requires total == subtotal * 1.16 && tax == total - subtotal && deposit * 10.0 == total * 3.0
    ensures var c := RentalRepository.ComputeCharge(dailyRate, insuranceType, totalDays, extras);
      c.subtotal == subtotal && c.taxAmount == tax && c.totalAmount == total && c.depositAmount == deposit
  {
    var c := RentalRepository.ComputeCharge(dailyRate, insuranceType, totalDays, extras);
    InsuranceCostPerDay(dailyRate, insuranceType, totalDays);
    assert Money.Scale(c.insuranceCost, totalDays) == insuranceCost;
    SameSubtotalSameAmounts(subtotal, tax, total, deposit, c.subtotal, c.taxAmount, c.totalAmount, c.depositAmount);
  }

  /** The per-day insurance charged for every day is the insurance quoted for the stay. */
  lemma ChargeInsuranceMatches(t: BookingUiState)
    requires t.insuranceCost == InsuranceCost(t.dailyRate, t.insuranceType, t.totalDays)
    ensures Money.Scale(ChargeOfQuote(t).insuranceCost, t.totalDays) == t.insuranceCost
  {
    InsuranceCostPerDay(t.dailyRate, t.insuranceType, t.totalDays);
    assert ChargeOfQuote(t).insuranceCost == RentalRepository.CalculateInsuranceCost(t.dailyRate, t.insuranceType);
  }

  /** The extras charged are the extras quoted. */
  lemma ChargeExtrasMatch(t: BookingUiState)
    requires t.extrasCost == ExtrasCost(t.selectedExtras, t.availableExtras, t.totalDays)
    ensures RentalRepository.ExtrasTotal(ExtraSelections(t.selectedExtras, t.availableExtras, t.totalDays)) == t.extrasCost
  {
    ExtraSelectionsCost(t.selectedExtras, t.availableExtras, t.totalDays);
  }

  /** VAT, total and deposit are determined by the subtotal. */
  lemma SameSubtotalSameAmounts(subtotal: real, tax: real, total: real, deposit: real,
                                cSubtotal: real, cTax: real, cTotal: real, cDeposit: real)
    requires total == subtotal * 1.16 && tax == total - subtotal && deposit * 10.0 == total * 3.0
    requires cTotal == cSubtotal * 1.16 && cTax == cTotal - cSubtotal && cDeposit * 10.0 == cTotal * 3.0
    requires cSubtotal == subtotal
    ensures cTotal == total && cTax == tax && cDeposit == deposit
  {
  }

  // ---------------------------------------------------------------- stale gate

  /** As written, reversing the dates of a bookable form leaves it bookable
      with the old quote: pricing returns early without touching the gate,
      and `createRental` then charges a single day. A form priced for days
      10 to 12 and then given the dates 10 and 5 is such a form. */
  lemma StaleGateAfterReversedDates(s: BookingUiState, pickupDate: int, returnDate: int, reversedReturn: int)
    requires s.selectedVehicle.Some? && s.pickupLocationId.Some? && s.returnLocationId.Some?
    requires pickupDate < returnDate <= pickupDate + Ints.IntMax
    requires pickupDate + Ints.IntMin <= reversedReturn < pickupDate
    ensures var priced := UpdateDates(s, pickupDate, returnDate);
      var reversed := UpdateDates(priced, pickupDate, reversedReturn);
      priced.isValidForBooking && priced.totalDays == returnDate - pickupDate &&
      reversed.isValidForBooking && reversed.totalDays == returnDate - pickupDate &&
      BuildRequest(reversed).Some? &&
      RentalRepository.CalculateDaysBetween(BuildRequest(reversed).value.pickupDate, BuildRequest(reversed).value.returnDate) == 1
  {
    var priced := UpdateDates(s, pickupDate, returnDate);
    assert QuoteOf(s.(pickupDate := Some(pickupDate), returnDate := Some(returnDate)), priced);
    var reversed := UpdateDates(priced, pickupDate, reversedReturn);
    assert SameQuote(priced, reversed);
    assert reversed.selectedVehicle.Some? && reversed.pickupLocationId.Some? && reversed.returnLocationId.Some?;
  }

  /** The instance of days 10 to 12 reversed to 10 and 5: a two-day quote
      booked as one day. */
  lemma StaleGateExample(s: BookingUiState)
    requires s.selectedVehicle.Some? && s.pickupLocationId.Some? && s.returnLocationId.Some?
    ensures var reversed := UpdateDates(UpdateDates(s, 10, 12), 10, 5);
      reversed.isValidForBooking && reversed.totalDays == 2 && BuildRequest(reversed).Some? &&
      RentalRepository.CalculateDaysBetween(BuildRequest(reversed).value.pickupDate, BuildRequest(reversed).value.returnDate) == 1
  {
    StaleGateAfterReversedDates(s, 10, 12, 5);
  }

  /** `calculatePricing` with the gate closed whenever it cannot price: a
      form whose dates are missing or reversed is not bookable. */
  function CalculatePricingGated(s: BookingUiState): (t: BookingUiState)
    ensures PricingRuns(s) ==> t == CalculatePricing(s)
    ensures t.isValidForBooking ==> PricingRuns(t) && t == CalculatePricing(t)
    ensures SameInputs(s, t)
  {
    if PricingRuns(s) then
      CalculatePricingIdempotent(s);
      CalculatePricing(s)
    else s.(isValidForBooking := false)
  }

  /** `updateDates` on top of the gated pricing. */
  function UpdateDatesGated(s: BookingUiState, pickupDate: int, returnDate: int): (t: BookingUiState)
    ensures t.pickupDate == Some(pickupDate) && t.returnDate == Some(returnDate)
    ensures returnDate < pickupDate ==> !t.isValidForBooking
  {
    CalculatePricingGated(s.(pickupDate := Some(pickupDate), returnDate := Some(returnDate)))
  }

  /** With the gated pricing, a bookable form is always one whose quote is
      current, so the quote-equals-charge lemma applies to every booking. */
  lemma GatedBookableIsPriced(s: BookingUiState, pickupDate: int, returnDate: int)
    ensures var t := UpdateDatesGated(s, pickupDate, returnDate);
      t.isValidForBooking ==> PricingRuns(t) && pickupDate <= returnDate && t == CalculatePricing(t)
  {
  }

  /** With the gated pricing, whatever the form shows as bookable after a
      date change is charged by `createRental` exactly as quoted. */
  lemma GatedBookingChargesQuote(
    s: BookingUiState, pickupDate: int, returnDate: int, user: UserModel.AuthUser, rentals: Result<seq<Rental>>,
    vehicles: seq<VehicleModel.Vehicle>, extraInsertErrors: seq<Option<string>>, millis: string, now: string)
    requires UpdateDatesGated(s, pickupDate, returnDate).isValidForBooking
    requires var v := UpdateDatesGated(s, pickupDate, returnDate).selectedVehicle;
      v.Some? &&
      (exists i :: 0 <= i < |vehicles| && vehicles[i].id == v.value.id) &&
      (forall i :: 0 <= i < |vehicles| && vehicles[i].id == v.value.id ==> vehicles[i].pricePerDay == v.value.pricePerDay)
    requires s.selectedVehicle.Some? ==>
      RentalRepository.CheckVehicleAvailability(rentals, s.selectedVehicle.value.id, pickupDate, returnDate) == Ok(true)
    requires forall i :: 0 <= i < |extraInsertErrors| ==> extraInsertErrors[i].None?
    ensures var t := UpdateDatesGated(s, pickupDate, returnDate);
      BuildRequest(t).Some? &&
      var o := RentalRepository.CreateRental(Some(user), BuildRequest(t).value, rentals, Ok(vehicles), None, extraInsertErrors, millis, now);
      o.result.Ok? && o.result.value.totalAmount == t.totalAmount && o.result.value.totalDays == t.totalDays
  {
    var t := UpdateDatesGated(s, pickupDate, returnDate);
    GatedBookableIsPriced(s, pickupDate, returnDate);
    QuoteEqualsCharge(t, user, rentals, vehicles, extraInsertErrors, millis, now);
  }
}

=== FILE: bookings_page.dfy ===
/** The bookings page of the web client (src/pages/Bookings.tsx): which
    bookings a role sees, when Cancel is offered, what cancelling writes,
    and the status badge. The `bookings` table is an input sequence in the
    order the query returns it (newest first). */
module BookingsPage {
  import opened Wrappers
  import Seqs
  import Text
  import opened WebModel
  import RentalModel
  import MyRentalsScreen
  import AustinBookingsScreen

  datatype BookingsState = BookingsState(loading: bool, bookings: seq<WebBooking>, error: Option<string>)

  predicate OwnedBy(b: WebBooking, userId: string) {
    b.customerId == userId
  }

  /** The query's scope: a customer's own bookings; every booking for any
      other role, and while the role is not known yet. */
  function Scoped(rows: seq<WebBooking>, userId: string, role: Option<string>): (r: seq<WebBooking>)
    ensures role == Some("customer") ==> forall b :: b in r <==> b in rows && OwnedBy(b, userId)
    ensures role != Some("customer") ==> r == rows
  {
    if role == Some("customer") then Seqs.Filter(rows, b => OwnedBy(b, userId)) else rows
  }

  const LoadFailed: string := "Failed to load bookings. Please try again."

  /** `fetchBookings`: nothing at all without a user; otherwise the scoped
      rows, or an error toast with the list kept, and loading ends. */
  function FetchBookings(st: BookingsState, userId: Option<string>, role: Option<string>, fetched: Result<seq<WebBooking>>): (t: BookingsState)
    ensures userId.None? ==> t == st
    ensures userId.Some? ==> !t.loading
    ensures userId.Some? && fetched.Err? ==> t.bookings == st.bookings && t.error == Some(LoadFailed)
    ensures userId.Some? && fetched.Ok? ==> t.bookings == Scoped(fetched.value, userId.value, role)
  {
    if userId.None? then st
    else match fetched
      case Err(_) => st.(loading := false, error := Some(LoadFailed))
      case Ok(rows) => st.(loading := false, bookings := Scoped(rows, userId.value, role))
  }

  /** A customer sees exactly their own bookings in the table's order; an
      admin or agent sees the whole table. */
  lemma CustomerSeesOnlyOwn(st: BookingsState, userId: string, rows: seq<WebBooking>)
    ensures var t := FetchBookings(st, Some(userId), Some("customer"), Ok(rows));
      forall b :: b in t.bookings <==> b in rows && b.customerId == userId
    ensures Seqs.IsSubsequence(FetchBookings(st, Some(userId), Some("customer"), Ok(rows)).bookings, rows)
    ensures FetchBookings(st, Some(userId), Some("admin"), Ok(rows)).bookings == rows
    ensures FetchBookings(st, Some(userId), Some("agent"), Ok(rows)).bookings == rows
  {
    Seqs.FilterIsSubsequence(rows, b => OwnedBy(b, userId));
  }

  // ---------------------------------------------------------------- cancelling

  /** The Cancel button: a pending booking, seen by a customer. */
  function CancelShown(status: string, role: Option<string>): (shown: bool)
    ensures shown ==> status == "pending"
    ensures shown ==> role == Some("customer")
    ensures status == "pending" && role == Some("customer") ==> shown
  {
    status == "pending" && role == Some("customer")
  }

  /** The web client offers Cancel on pending bookings only, where the
      Android app also offers it on confirmed ones; on pending ones they
      agree for a customer. */
  lemma CancelEligibilityDiffersFromAndroid()
    ensures !CancelShown(RentalModel.RentalStatus.Confirmed.Value(), Some("customer"))
    ensures AustinBookingsScreen.CancelShown(RentalModel.RentalStatus.Confirmed)
    ensures CancelShown(RentalModel.RentalStatus.Pending.Value(), Some("customer")) ==
      AustinBookingsScreen.CancelShown(RentalModel.RentalStatus.Pending)
  {
  }

  const CancelledStatus: string := "cancelled"
  const CancelFailed: string := "Failed to cancel booking. Please try again."

  /** The update `cancelBooking` sends. */
  datatype StatusUpdate = StatusUpdate(bookingId: string, status: string)

  /** The update applied to the table: every row with that id is cancelled,
      every other row is untouched. */
  function ApplyUpdate(rows: seq<WebBooking>, u: StatusUpdate): (r: seq<WebBooking>)
    ensures |r| == |rows|
    ensures forall i :: 0 <= i < |rows| && rows[i].id == u.bookingId ==> r[i] == rows[i].(status := u.status)
    ensures forall i :: 0 <= i < |rows| && rows[i].id != u.bookingId ==> r[i] == rows[i]
  {
    seq(|rows|, i requires 0 <= i < |rows| => if rows[i].id == u.bookingId then rows[i].(status := u.status) else rows[i])
  }

  datatype CancelOutcome = CancelOutcome(write: StatusUpdate, table: seq<WebBooking>, error: Option<string>)

  /** `cancelBooking`: one update setting the status to 'cancelled'; on
      success the table has it, on failure the table is unchanged and the
      failure toast is shown. */
  function CancelBooking(rows: seq<WebBooking>, bookingId: string, writeError: Option<string>): (o: CancelOutcome)
    ensures o.write == StatusUpdate(bookingId, CancelledStatus)
    ensures writeError.Some? ==> o.table == rows && o.error == Some(CancelFailed)
    ensures writeError.None? ==> o.table == ApplyUpdate(rows, o.write) && o.error.None?
  {
    var u := StatusUpdate(bookingId, CancelledStatus);
    if writeError.Some? then CancelOutcome(u, rows, Some(CancelFailed)) else CancelOutcome(u, ApplyUpdate(rows, u), None)
  }

  /** After a successful cancel and the refetch, the customer's list still
      holds the same bookings, the cancelled one no longer offers Cancel,
      and the others are as they were. */
  lemma CancelledBookingLosesButton(st: BookingsState, userId: string, rows: seq<WebBooking>, k: nat)
    requires k < |rows| && rows[k].customerId == userId
    ensures var table := CancelBooking(rows, rows[k].id, None).table;
      var t := FetchBookings(st, Some(userId), Some("customer"), Ok(table));
      table[k] in t.bookings && table[k].status == CancelledStatus && !CancelShown(table[k].status, Some("customer"))
    ensures forall i :: 0 <= i < |rows| && rows[i].id != rows[k].id ==> CancelBooking(rows, rows[k].id, None).table[i] == rows[i]
  {
    var table := CancelBooking(rows, rows[k].id, None).table;
    assert table[k] in table;
    CustomerSeesOnlyOwn(st, userId, table);
  }

  // ---------------------------------------------------------------- badge

  /** The badge text: the status with its first letter upper-cased. */
  function StatusLabel(status: string): (text: string)
    ensures |text| == |status|
    ensures |status| > 0 ==> text[0] == Text.ToUpperChar(status[0]) && text[1..] == status[1..]
  {
    Text.UpperFirst(status)
  }

  /** For the five statuses both clients know, the web badge reads as the
      Android chip does. */
  lemma LabelsAgreeWithAndroid(s: RentalModel.RentalStatus)
    requires s != RentalModel.RentalStatus.Overdue
    ensures StatusLabel(s.Value()) == MyRentalsScreen.ChipLabel(s)
  {
    var chip := MyRentalsScreen.ChipLabel(s);
    assert |chip| == |s.Value()| && chip[0] == Text.ToUpperChar(s.Value()[0]) && chip[1..] == s.Value()[1..];
    CapitalisedLabel(s.Value(), chip);
  }

  /** A chip is the badge of `status` once its first letter is the
      capital of the status's and the rest is the same. */
  lemma CapitalisedLabel(status: string, chip: string)
    requires |chip| == |status| > 0
    requires chip[0] == Text.ToUpperChar(status[0]) && chip[1..] == status[1..]
    ensures StatusLabel(status) == chip
  {
    var text := StatusLabel(status);
    assert text == [text[0]] + text[1..];
    assert chip == [chip[0]] + chip[1..];
  }

  const PendingColor: string := "bg-yellow-100 text-yellow-800 dark:bg-yellow-900 dark:text-yellow-200"
  const ConfirmedColor: string := "bg-blue-100 text-blue-800 dark:bg-blue-900 dark:text-blue-200"
  const ActiveColor: string := "bg-green-100 text-green-800 dark:bg-green-900 dark:text-green-200"
  const CompletedColor: string := "bg-gray-100 text-gray-800 dark:bg-gray-700 dark:text-gray-200"
  const CancelledColor: string := "bg-red-100 text-red-800 dark:bg-red-900 dark:text-red-200"
  const UnknownColor: string := "bg-gray-100 text-gray-800 dark:bg-gray-700 dark:text-gray-200"

  /** The five statuses the page colours. */
  const ColouredStatuses: seq<string> := ["pending", "confirmed", "active", "completed", "cancelled"]

  /** `getStatusColor`. */
  function StatusColor(status: string): (c: string)
    ensures status == "pending" ==> c == PendingColor
    ensures status == "confirmed" ==> c == ConfirmedColor
    ensures status == "active" ==> c == ActiveColor
    ensures status == "completed" ==> c == CompletedColor
    ensures status == "cancelled" ==> c == CancelledColor
    ensures status !in ColouredStatuses ==> c == UnknownColor
  {
    match status
    case "pending" => PendingColor
    case "confirmed" => ConfirmedColor
    case "active" => ActiveColor
    case "completed" => CompletedColor
    case "cancelled" => CancelledColor
    case _ => UnknownColor
  }

  /** The five coloured statuses get five different colours. */
  lemma StatusColors(a: string, b: string)
    requires a in ColouredStatuses && b in ColouredStatuses
    ensures StatusColor(a) == StatusColor(b) ==> a == b
  {
  }

  /** A completed booking is shown in the grey of statuses the page does
      not know, such as the database's "awaiting_payment" and "scheduled". */
  lemma CompletedLooksUnknown()
    ensures StatusColor("completed") == UnknownColor
    ensures StatusColor("awaiting_payment") == UnknownColor && StatusColor("scheduled") == UnknownColor
  {
  }
}

=== FILE: database_helper.dfy ===
/** The untyped profile lookups of the Android app (utils/DatabaseHelper.kt).
    Rows are decoded as `Map<String, Any>`, so a column may be absent, hold a
    string, or hold some other value. */
module DatabaseHelper {
  import opened Wrappers
  import Seqs

  /** A decoded column value: a string, or anything else (a number, a
      boolean, JSON null, ...). */
  datatype Cell = Str(text: string) | NonStr

  type Row = map<string, Cell>

  /** `row["id"] == userId`: the column is present and is that very string. */
  predicate HasId(row: Row, userId: string) {
    "id" in row && row["id"] == Str(userId)
  }

  /** `verifyUserProfile`: whether some fetched profile row has the user's id. */
  function VerifyUserProfile(fetched: Result<seq<Row>>, userId: string): (r: Result<bool>)
    ensures fetched.Err? ==> r == Err(fetched.message)
    ensures fetched.Ok? ==> r.Ok? && (r.value <==> exists i :: 0 <= i < |fetched.value| && HasId(fetched.value[i], userId))
  {
    match fetched
    case Err(m) => Err(m)
    case Ok(rows) => Ok(Seqs.FindFirst(rows, (row: Row) => HasId(row, userId)).Some?)
  }

  /** An empty profile table verifies nobody. */
  lemma EmptyTableVerifiesNobody(userId: string)
    ensures VerifyUserProfile(Ok([]), userId) == Ok(false)
  {
  }

  /** The role a row carries: its `"role"` column when that is a string,
      otherwise "customer" (`as? String ?: "customer"`). */
  function RoleOf(row: Option<Row>): (role: string)
    ensures (row.Some? && "role" in row.value && row.value["role"].Str?) ==> role == row.value["role"].text
    ensures !(row.Some? && "role" in row.value && row.value["role"].Str?) ==> role == "customer"
  {
    match row
    case Some(r) => if "role" in r && r["role"].Str? then r["role"].text else "customer"
    case None => "customer"
  }

  /** `getUserRole`: the role of the first row with the user's id, defaulting
      to "customer". */
  function GetUserRole(fetched: Result<seq<Row>>, userId: string): (r: Result<string>)
    ensures fetched.Err? ==> r == Err(fetched.message)
    ensures fetched.Ok? && (forall i :: 0 <= i < |fetched.value| ==> !HasId(fetched.value[i], userId)) ==>
      r == Ok("customer")
    ensures fetched.Ok? ==> r.Ok?
    ensures fetched.Ok? ==> forall k :: (0 <= k < |fetched.value| && HasId(fetched.value[k], userId) &&
      (forall j :: 0 <= j < k ==> !HasId(fetched.value[j], userId))) ==> r.value == RoleOf(Some(fetched.value[k]))
  {
    match fetched
    case Err(m) => Err(m)
    case Ok(rows) =>
      var found := Seqs.FindFirst(rows, (row: Row) => HasId(row, userId));
      assert found.Some? ==> found == Some(rows[Seqs.IndexOfFirst(rows, (row: Row) => HasId(row, userId))]);
      Ok(RoleOf(found))
  }

  /** A user whose profile is verified has the role of the first matching
      row; a user who is not verified reads as a customer. */
  lemma RoleOfUnverifiedIsCustomer(rows: seq<Row>, userId: string)
    requires VerifyUserProfile(Ok(rows), userId) == Ok(false)
    ensures GetUserRole(Ok(rows), userId) == Ok("customer")
  {
  }
}

=== FILE: fleet_management.dfy ===
/** The fleet administration page of the web client
    (src/pages/admin/FleetManagement.tsx): the vehicle form, the features
    text and its conversion to and from the stored list, saving and
    deleting, and the status badge. */
module FleetManagement {
  import opened Wrappers
  import Seqs
  import Text
  import VehicleModel
  import opened WebModel

  /** The form; `features` is the comma-separated text the admin edits. */
  datatype VehicleForm = VehicleForm(
    make: string,
    model: string,
    year: int,
    vtype: string,
    licensePlate: string,
    color: string,
    seats: int,
    transmission: string,
    fuelType: string,
    mileage: int,
    dailyRate: real,
    status: string,
    location: string,
    features: string)

  /** The form the page starts with; `currentYear` is `new Date().getFullYear()`. */
  function InitialForm(currentYear: int): (f: VehicleForm)
    ensures f.year == currentYear && f.features == "" && f.fuelType == "gasoline"
  {
    VehicleForm("", "", currentYear, "economy", "", "", 5, "automatic", "gasoline", 0, 0.0, "available", "", "")
  }

  /** `resetForm`, written out separately in the page. */
  function ResetForm(currentYear: int): (f: VehicleForm)
    ensures f.status == "available" && f.vtype == "economy" && f.seats == 5
  {
    VehicleForm("", "", currentYear, "economy", "", "", 5, "automatic", "gasoline", 0, 0.0, "available", "", "")
  }

  /** Resetting gives back exactly the initial form, and `FuelType.fromString`
      maps its fuel type "gasoline" to PETROL. */
  lemma ResetIsInitial(currentYear: int)
    ensures ResetForm(currentYear) == InitialForm(currentYear)
    ensures VehicleModel.FuelTypeFromString(InitialForm(currentYear).fuelType) == VehicleModel.Petrol
  {
    VehicleModel.GasolineReadsAsPetrol();
  }

  // ---------------------------------------------------------------- features text

  /** Each piece trimmed (`map(f => f.trim())`). */
  function TrimAll(xs: seq<string>): (r: seq<string>)
    ensures |r| == |xs|
    ensures forall i :: 0 <= i < |xs| ==> r[i] == Text.Trim(xs[i])
  {
    if |xs| == 0 then [] else [Text.Trim(xs[0])] + TrimAll(xs[1..])
  }

  /** The features list saved from the form: none for an empty text,
      otherwise the comma-separated pieces, trimmed. */
  function ParseFeatures(text: string): (r: seq<string>)
    ensures text == "" <==> r == []
    ensures forall i :: 0 <= i < |r| ==> Text.IsTrimmed(r[i]) && ',' !in r[i]
    ensures text != "" ==> |r| == |Text.Split(text)|
  {
    if text == "" then []
    else
      var pieces := Text.Split(text);
      var r := TrimAll(pieces);
      assert forall i :: 0 <= i < |r| ==> ',' !in r[i] by {
        forall i | 0 <= i < |r| ensures ',' !in r[i] {
          TrimKeepsNoComma(pieces[i]);
        }
      }
      r
  }

  /** Trimming removes characters only from the ends. */
  lemma TrimKeepsNoComma(s: string)
    requires ',' !in s
    ensures ',' !in Text.Trim(s)
  {
    var t := s[Text.LeadingSpaces(s)..];
    assert forall c :: c in t ==> c in s;
    assert forall c :: c in t[..Text.EndWithoutSpaces(t)] ==> c in t;
  }

  /** The features text shown when editing: an array joined with ", ",
      and '' for anything else. */
  function FeaturesText(features: Json): (text: string)
    ensures !features.JsonArray? ==> text == ""
    ensures features.JsonArray? ==> text == Text.Join(features.items, ", ")
  {
    match features
    case JsonArray(items) => Text.Join(items, ", ")
    case _ => ""
  }

  /** A feature list survives being shown in the form and saved again,
      provided its entries are trimmed and comma-free and it is not the
      single empty entry (whose text is '', saved as no features). */
  lemma FeaturesRoundTrip(xs: seq<string>)
    requires forall i :: 0 <= i < |xs| ==> Text.IsTrimmed(xs[i]) && ',' !in xs[i]
    requires xs != [""]
    ensures ParseFeatures(FeaturesText(JsonArray(xs))) == xs
  {
    if |xs| > 0 {
      var text := Text.Join(xs, ", ");
      JoinNotEmpty(xs);
      Text.SplitJoin("", xs);
      assert "" + text == text;
      TrimPieces(xs);
    }
  }

  /** The ", "-join of entries is empty only for no entries or one empty entry. */
  lemma JoinNotEmpty(xs: seq<string>)
    requires |xs| > 0 && xs != [""]
    ensures Text.Join(xs, ", ") != ""
  {
    if |xs| == 1 {
      assert xs == [xs[0]];
    } else {
      assert |Text.Join(xs, ", ")| >= 2;
    }
  }

  /** Trimming the pieces of a split join gives back the entries. */
  lemma TrimPieces(xs: seq<string>)
    requires |xs| > 0
    requires forall i :: 0 <= i < |xs| ==> Text.IsTrimmed(xs[i])
    ensures TrimAll([xs[0]] + Text.SpacePrefixed(xs[1..])) == xs
  {
    var pieces := [xs[0]] + Text.SpacePrefixed(xs[1..]);
    var r := TrimAll(pieces);
    forall i | 0 <= i < |xs| ensures r[i] == xs[i] {
      if i == 0 {
        Text.TrimTrimmed(xs[0]);
      } else {
        assert pieces[i] == " " + xs[i];
        Text.TrimSpacePrefix(xs[i]);
      }
    }
  }

  /** The single empty entry does not survive: it comes back as no features. */
  lemma SingleEmptyFeatureIsLost()
    ensures ParseFeatures(FeaturesText(JsonArray([""]))) == []
  {
    assert FeaturesText(JsonArray([""])) == "";
  }

  // ---------------------------------------------------------------- editing and saving

  /** The form `handleEdit` fills from a vehicle: a null mileage becomes 0,
      a null location '', the features their text. */
  function EditForm(v: WebVehicle): (f: VehicleForm)
    ensures f.mileage == v.mileage.GetOr(0)
    ensures f.location == OrElse(v.location, "")
    ensures f.features == FeaturesText(v.features)
    ensures f.make == v.make && f.model == v.model && f.dailyRate == v.dailyRate && f.status == v.status
  {
    VehicleForm(v.make, v.model, v.year, v.vtype, v.licensePlate, v.color, v.seats, v.transmission, v.fuelType,
                v.mileage.GetOr(0), v.dailyRate, v.status, OrElse(v.location, ""), FeaturesText(v.features))
  }

  /** The row sent on save. */
  datatype VehicleData = VehicleData(
    make: string,
    model: string,
    year: int,
    vtype: string,
    licensePlate: string,
    color: string,
    seats: int,
    transmission: string,
    fuelType: string,
    mileage: int,
    dailyRate: real,
    status: string,
    location: string,
    features: seq<string>)

  /** `vehicleData`: the form's fields, with the features text parsed. */
  function ToVehicleData(f: VehicleForm): (d: VehicleData)
    ensures d.features == ParseFeatures(f.features)
    ensures d.make == f.make && d.model == f.model && d.year == f.year && d.mileage == f.mileage
    ensures d.location == f.location && d.dailyRate == f.dailyRate && d.status == f.status
  {
    VehicleData(f.make, f.model, f.year, f.vtype, f.licensePlate, f.color, f.seats, f.transmission, f.fuelType,
                f.mileage, f.dailyRate, f.status, f.location, ParseFeatures(f.features))
  }

  /** Editing a vehicle and saving without changes writes back its own
      fields, its mileage or 0, its location or '', and its features when
      they are a list of trimmed comma-free entries other than `[""]`. */
  lemma EditThenSaveKeepsVehicle(v: WebVehicle)
    requires v.features.JsonArray?
    requires forall i :: 0 <= i < |v.features.items| ==> Text.IsTrimmed(v.features.items[i]) && ',' !in v.features.items[i]
    requires v.features.items != [""]
    ensures var d := ToVehicleData(EditForm(v));
      d.features == v.features.items && d.make == v.make && d.model == v.model && d.year == v.year &&
      d.mileage == v.mileage.GetOr(0) && d.location == OrElse(v.location, "") && d.dailyRate == v.dailyRate
  {
    FeaturesRoundTrip(v.features.items);
  }

  datatype VehicleWrite = InsertVehicle(data: VehicleData) | UpdateVehicle(id: string, data: VehicleData) | DeleteVehicle(id: string)

  datatype FleetState = FleetState(dialogOpen: bool, editing: Option<WebVehicle>, form: VehicleForm)

  /** The new state, the writes sent, and the error toast, if any. */
  datatype FleetStep = FleetStep(state: FleetState, writes: seq<VehicleWrite>, error: Option<string>)

  /** `handleEdit`: the vehicle becomes the one being edited, its form is
      filled, and the dialog opens. */
  function HandleEdit(st: FleetState, v: WebVehicle): (t: FleetState)
    ensures t.dialogOpen && t.editing == Some(v) && t.form == EditForm(v)
  {
    FleetState(true, Some(v), EditForm(v))
  }

  const SaveFailed: string := "Failed to save vehicle."
  const DeleteFailed: string := "Failed to delete vehicle."

  /** `handleSubmit`: an update of the edited vehicle's row, or an insert
      when none is being edited. On success the dialog closes, nothing is
      being edited and the form is reset; on failure the state is kept and
      the error's message (or the fallback) is shown. */
  function HandleSubmit(st: FleetState, writeError: Option<string>, currentYear: int): (s: FleetStep)
    ensures st.editing.Some? ==> s.writes == [UpdateVehicle(st.editing.value.id, ToVehicleData(st.form))]
    ensures st.editing.None? ==> s.writes == [InsertVehicle(ToVehicleData(st.form))]
    ensures writeError.None? ==> s.state == FleetState(false, None, ResetForm(currentYear)) && s.error.None?
    ensures writeError.Some? ==> s.state == st && s.error == Some(OrElse(writeError, SaveFailed))
  {
    var data := ToVehicleData(st.form);
    var write := if st.editing.Some? then UpdateVehicle(st.editing.value.id, data) else InsertVehicle(data);
    if writeError.Some? then FleetStep(st, [write], Some(OrElse(writeError, SaveFailed)))
    else FleetStep(FleetState(false, None, ResetForm(currentYear)), [write], None)
  }

  /** `handleDelete`: nothing unless the admin confirms; then one delete of
      that vehicle, and the error's message (or the fallback) on failure. */
  function HandleDelete(st: FleetState, vehicleId: string, confirmed: bool, writeError: Option<string>): (s: FleetStep)
    ensures !confirmed ==> s == FleetStep(st, [], None)
    ensures confirmed ==> s.writes == [DeleteVehicle(vehicleId)] && s.state == st
    ensures confirmed ==> (s.error.Some? <==> writeError.Some?)
    ensures confirmed && writeError.Some? && writeError.value != "" ==> s.error == writeError
    ensures confirmed && writeError == Some("") ==> s.error == Some(DeleteFailed)
  {
    if !confirmed then FleetStep(st, [], None)
    else FleetStep(st, [DeleteVehicle(vehicleId)], if writeError.Some? then Some(OrElse(writeError, DeleteFailed)) else None)
  }

  /** Editing a vehicle and saving it unchanged updates that vehicle's own
      row with its own data. */
  lemma EditThenSubmitUpdatesSameRow(st: FleetState, v: WebVehicle, currentYear: int)
    ensures HandleSubmit(HandleEdit(st, v), None, currentYear).writes == [UpdateVehicle(v.id, ToVehicleData(EditForm(v)))]
    ensures HandleSubmit(HandleEdit(st, v), None, currentYear).state.form == InitialForm(currentYear)
  {
    ResetIsInitial(currentYear);
  }

  // ---------------------------------------------------------------- status badge

  const AvailableColor: string := "bg-green-100 text-green-800"
  const RentedColor: string := "bg-blue-100 text-blue-800"
  const MaintenanceColor: string := "bg-yellow-100 text-yellow-800"
  const OutOfServiceColor: string := "bg-red-100 text-red-800"
  const UnknownColor: string := "bg-gray-100 text-gray-800"

  /** `getStatusColor`. */
  function StatusColor(status: string): (c: string)
    ensures status == "available" ==> c == AvailableColor
    ensures status == "rented" ==> c == RentedColor
    ensures status == "maintenance" ==> c == MaintenanceColor
    ensures status == "out_of_service" ==> c == OutOfServiceColor
    ensures status !in VehicleStatusEnum ==> c == UnknownColor
  {
    match status
    case "available" => AvailableColor
    case "rented" => RentedColor
    case "maintenance" => MaintenanceColor
    case "out_of_service" => OutOfServiceColor
    case _ => UnknownColor
  }

  /** The four statuses of the database enum get four different colours,
      none of them the grey of an unknown status. */
  lemma StatusColorsDistinct(a: string, b: string)
    requires a in VehicleStatusEnum && b in VehicleStatusEnum
    ensures StatusColor(a) == StatusColor(b) ==> a == b
    ensures StatusColor(a) != UnknownColor
  {
  }

  predicate IsUnderscore(c: char) { c == '_' }

  /** `status.replace('_', ' ')`: the first underscore becomes a space. */
  function BadgeText(status: string): (r: string)
    ensures |r| == |status|
  {
    var k := Seqs.IndexOfFirst(status, IsUnderscore);
    if k < |status| then status[..k] + " " + status[k + 1..] else status
  }

  /** Only the first underscore is replaced: the text before it is kept,
      and so is everything after it, later underscores included. */
  lemma BadgeReplacesFirstUnderscore(before: string, after: string)
    requires '_' !in before
    ensures BadgeText(before + "_" + after) == before + " " + after
    ensures BadgeText(before) == before
  {
    var s := before + "_" + after;
    assert s[|before|] == '_';
    assert forall j :: 0 <= j < |before| ==> s[j] == before[j];
    Seqs.IndexOfFirstUnique(s, IsUnderscore, |before|);
    assert s[..|before|] == before;
    assert s[|before| + 1..] == after;
    Seqs.IndexOfFirstUnique(before, IsUnderscore, |before|);
  }

  /** "out_of_service" is shown as "out of_service". */
  lemma OutOfServiceBadge()
    ensures BadgeText("out_of_service") == "out of_service"
  {
    assert "out_of_service" == "out" + "_" + "of_service";
    BadgeReplacesFirstUnderscore("out", "of_service");
    assert "out" + " " + "of_service" == "out of_service";
  }
}

=== FILE: ints.dfy ===
/** Kotlin's 32-bit `Int` conversions: `Long.toInt()` keeps the low 32 bits,
    and `Double.toInt()` rounds toward zero and saturates at the `Int` bounds. */
module Ints {

  const IntMin: int := -0x8000_0000
  const IntMax: int := 0x7FFF_FFFF

  predicate InIntRange(x: int) {
    IntMin <= x <= IntMax
  }

  /** `Long.toInt()`: the unique `Int` congruent to `x` modulo 2^32. */
  function LongToInt(x: int): (r: int)
    ensures InIntRange(r)
    ensures (x - r) % 0x1_0000_0000 == 0
    ensures InIntRange(x) ==> r == x
  {
    (x - IntMin) % 0x1_0000_0000 + IntMin
  }

  /** `Double.toInt()` on a finite value: truncation toward zero, clamped to the `Int` range. */
  function DoubleToInt(x: real): (r: int)
    ensures InIntRange(r)
    ensures 0.0 <= x < IntMax as real ==> r as real <= x < r as real + 1.0
    ensures IntMin as real < x <= 0.0 ==> r as real - 1.0 < x <= r as real
    ensures x >= IntMax as real ==> r == IntMax
    ensures x <= IntMin as real ==> r == IntMin
  {
    var t := if x >= 0.0 then x.Floor else -((-x).Floor);
    if t > IntMax then IntMax else if t < IntMin then IntMin else t
  }
}

=== FILE: money.dfy ===
/** Amounts of money charged per day or per unit. Prices are exact reals;
    `Scale(amount, n)` is `amount` charged `n` times, defined by repeated
    addition and shown equal to the product `amount * n` by `ScaleIsProduct`.
    Pricing is stated with `Scale` so that a charge for a number of days is
    one term, whatever the number. */
module Money {

  /** `amount` taken `n` times (subtracted `-n` times when `n` is negative). */
  function Scale(amount: real, n: int): real
    decreases if n < 0 then -n else n
  {
    if n == 0 then 0.0
    else if n > 0 then Scale(amount, n - 1) + amount
    else Scale(amount, n + 1) - amount
  }

  /** Scaling is multiplication by the count. */
  lemma {:induction false} ScaleIsProduct(amount: real, n: int)
    ensures Scale(amount, n) == amount * n as real
    decreases if n < 0 then -n else n
  {
    if n > 0 {
      ScaleIsProduct(amount, n - 1);
      assert amount * (n - 1) as real + amount == amount * n as real;
    } else if n < 0 {
      ScaleIsProduct(amount, n + 1);
      assert amount * (n + 1) as real - amount == amount * n as real;
    }
  }

  /** Charging two amounts for the same count is charging their sum. */
  lemma {:induction false} ScaleAdds(a: real, b: real, n: int)
    ensures Scale(a + b, n) == Scale(a, n) + Scale(b, n)
    decreases if n < 0 then -n else n
  {
    if n > 0 {
      ScaleAdds(a, b, n - 1);
    } else if n < 0 {
      ScaleAdds(a, b, n + 1);
    }
  }

  /** A non-negative amount charged a non-negative number of times is non-negative. */
  lemma {:induction false} ScaleNonNegative(amount: real, n: int)
    requires amount >= 0.0 && n >= 0
    ensures Scale(amount, n) >= 0.0
  {
    if n > 0 {
      ScaleNonNegative(amount, n - 1);
    }
  }

  /** Nothing charged any number of times is nothing. */
  lemma {:induction false} ScaleZero(n: int)
    ensures Scale(0.0, n) == 0.0
    decreases if n < 0 then -n else n
  {
    if n > 0 {
      ScaleZero(n - 1);
    } else if n < 0 {
      ScaleZero(n + 1);
    }
  }

  /** One unit of an amount is the amount. */
  lemma ScaleOne(amount: real)
    ensures Scale(amount, 1) == amount
  {
  }

  /** At least one charge of an amount is positive exactly when the amount is. */
  lemma {:induction false} ScalePositive(amount: real, n: int)
    requires n >= 1
    ensures Scale(amount, n) > 0.0 <==> amount > 0.0
  {
    if n > 1 {
      ScalePositive(amount, n - 1);
    }
  }
}

=== FILE: my_rentals_screen.dfy ===
/** The rental history screen of the Android app
    (ui/screens/rentals/MyRentalsScreen.kt): which part of the screen is
    shown, the actions each rental card offers, the status chip labels and
    the date formatting fallback. */
module MyRentalsScreen {
  import opened Wrappers
  import opened RentalModel

  /** The screen state the rentals view model publishes (`MyRentalsUiState`),
      with each rental summary reduced to its rental. */
  datatype RentalsUiState = RentalsUiState(isLoading: bool, error: Option<string>, rentals: seq<Rental>)

  datatype RentalsView = LoadingView | ErrorView(message: string) | EmptyView | ListView(rentals: seq<Rental>)

  /** The screen's `when`: loading, then an error, then the empty state, then the list. */
  function RentalsScreen(st: RentalsUiState): (v: RentalsView)
    ensures st.isLoading <==> v.LoadingView?
    ensures v.ErrorView? <==> !st.isLoading && st.error.Some?
    ensures v.ErrorView? ==> v.message == st.error.value
    ensures v.EmptyView? <==> !st.isLoading && st.error.None? && |st.rentals| == 0
    ensures v.ListView? ==> v.rentals == st.rentals && |v.rentals| > 0
  {
    if st.isLoading then LoadingView
    else if st.error.Some? then ErrorView(st.error.value)
    else if |st.rentals| == 0 then EmptyView
    else ListView(st.rentals)
  }

  /** The list is shown exactly when nothing takes precedence over it. */
  lemma ListShownIff(st: RentalsUiState)
    ensures RentalsScreen(st).ListView? <==> !st.isLoading && st.error.None? && |st.rentals| > 0
  {
  }

  // ---------------------------------------------------------------- card actions

  datatype RentalAction = Cancel | ViewDetails | LeaveReview

  /** The buttons of a rental card, in order. */
  function CardActions(status: RentalStatus): (actions: seq<RentalAction>)
    ensures status == RentalStatus.Pending ==> actions == [Cancel]
    ensures status == RentalStatus.Confirmed ==> actions == [Cancel, ViewDetails]
    ensures status == RentalStatus.Completed ==> actions == [LeaveReview]
    ensures status in {RentalStatus.Active, RentalStatus.Cancelled, RentalStatus.Overdue} ==> actions == [ViewDetails]
  {
    match status
    case Pending => [Cancel]
    case Confirmed => [Cancel, ViewDetails]
    case Completed => [LeaveReview]
    case _ => [ViewDetails]
  }

  /** A card offers Cancel exactly for PENDING and CONFIRMED rentals, and a
      review exactly for COMPLETED ones; every card has at least one button. */
  lemma CancelOfferedIff(status: RentalStatus)
    ensures Cancel in CardActions(status) <==> status == RentalStatus.Pending || status == RentalStatus.Confirmed
    ensures LeaveReview in CardActions(status) <==> status == RentalStatus.Completed
    ensures |CardActions(status)| >= 1
  {
  }

  const CancelReason: string := "Cancelled by user"

  /** What the view model is asked to do when Cancel is pressed. */
  datatype CancelRequest = CancelRequest(rentalId: string, reason: string)

  /** `onCancelRental` of a card: cancel that rental, always with the reason
      "Cancelled by user". */
  function OnCancelRental(r: Rental): (req: CancelRequest)
    ensures req.rentalId == r.id && req.reason == CancelReason
  {
    CancelRequest(r.id, CancelReason)
  }

  // ---------------------------------------------------------------- labels and dates

  /** `RentalStatusChip`'s text. */
  function ChipLabel(status: RentalStatus): (text: string)
    ensures |text| > 0
  {
    match status
    case Pending => "Pending"
    case Confirmed => "Confirmed"
    case Active => "Active"
    case Completed => "Completed"
    case Cancelled => "Cancelled"
    case Overdue => "Overdue"
  }

  /** No two statuses share a chip label. */
  lemma ChipLabelsDistinct(a: RentalStatus, b: RentalStatus)
    ensures ChipLabel(a) == ChipLabel(b) ==> a == b
  {
  }

  /** `formatRentalDate`: a parseable ISO date in the display format given by
      `format`; any other text unchanged. */
  function FormatRentalDate(date: IsoDate, format: int -> string): (shown: string)
    ensures date.Unparsed? ==> shown == date.text
    ensures date.Parsed? ==> shown == format(date.epochDay)
  {
    match date
    case Parsed(day) => format(day)
    case Unparsed(text) => text
  }
}

=== FILE: rental_model.dfy ===
/** The rental records of the Android app (data/model/Rental.kt): the four
    enums with their `value` strings and first-match `fromString` parsers,
    the insurance coverage table, and the `Rental`, `RentalExtra`,
    `RentalExtraSelection` and `RentalRequest` records with their defaults.

    Dates are epoch days. A date column fetched as text is kept as what
    `LocalDate.parse` makes of it (`IsoDate`); times are hour and minute. */
module RentalModel {
  import opened Wrappers
  import Seqs

  /** A stored `yyyy-MM-dd` text as `LocalDate.parse` sees it: a day, or text it rejects. */
  datatype IsoDate = Parsed(epochDay: int) | Unparsed(text: string)

  datatype LocalTime = LocalTime(hour: int, minute: int)

  // ---------------------------------------------------------------- RentalStatus

  datatype RentalStatus = Pending | Confirmed | Active | Completed | Cancelled | Overdue {
    function Value(): string {
      match this
      case Pending => "pending"
      case Confirmed => "confirmed"
      case Active => "active"
      case Completed => "completed"
      case Cancelled => "cancelled"
      case Overdue => "overdue"
    }
  }

  /** `RentalStatus.entries`, in declaration order. */
  const RentalStatuses: seq<RentalStatus> := [Pending, Confirmed, Active, Completed, Cancelled, Overdue]

  lemma RentalStatusesComplete(x: RentalStatus)
    ensures x in RentalStatuses
  {
  }

  /** `RentalStatus.fromString`: the first status whose value is `value`, else PENDING. */
  function RentalStatusFromString(value: string): (r: RentalStatus)
    ensures (exists x: RentalStatus :: x.Value() == value) ==> r.Value() == value
    ensures (forall x: RentalStatus :: x.Value() != value) ==> r == RentalStatus.Pending
  {
    assert forall x: RentalStatus :: x in RentalStatuses by { forall x: RentalStatus ensures x in RentalStatuses { RentalStatusesComplete(x); } }
    Seqs.FindFirst(RentalStatuses, (x: RentalStatus) => x.Value() == value).GetOr(RentalStatus.Pending)
  }

  lemma RentalStatusValuesDistinct(a: RentalStatus, b: RentalStatus)
    ensures a.Value() == b.Value() ==> a == b
  {
  }

  lemma RentalStatusRoundTrip(s: RentalStatus)
    ensures RentalStatusFromString(s.Value()) == s
  {
    RentalStatusValuesDistinct(s, RentalStatusFromString(s.Value()));
  }

  // ---------------------------------------------------------------- InsuranceType

  datatype InsuranceType = NoInsurance | Basic | Comprehensive | Premium {
    function Value(): string {
      match this
      case NoInsurance => "none"
      case Basic => "basic"
      case Comprehensive => "comprehensive"
      case Premium => "premium"
    }

    function DisplayName(): string {
      match this
      case NoInsurance => "No Insurance"
      case Basic => "Basic Coverage"
      case Comprehensive => "Comprehensive"
      case Premium => "Premium Coverage"
    }

    /** Percentage of the daily rate charged per day for this tier. */
    function CoveragePercent(): int {
      match this
      case NoInsurance => 0
      case Basic => 5
      case Comprehensive => 15
      case Premium => 25
    }
  }

  const InsuranceTypes: seq<InsuranceType> := [NoInsurance, Basic, Comprehensive, Premium]

  lemma InsuranceTypesComplete(x: InsuranceType)
    ensures x in InsuranceTypes
  {
  }

  /** Coverage grows strictly with the tier, from 0 to 25 percent. */
  lemma InsuranceCoverageIncreasing()
    ensures forall i, j :: 0 <= i < j < |InsuranceTypes| ==>
      InsuranceTypes[i].CoveragePercent() < InsuranceTypes[j].CoveragePercent()
    ensures forall t: InsuranceType :: 0 <= t.CoveragePercent() <= 25
  {
  }

  /** `InsuranceType.fromString`: the first tier whose value is `value`, else BASIC. */
  function InsuranceTypeFromString(value: string): (r: InsuranceType)
    ensures (exists x: InsuranceType :: x.Value() == value) ==> r.Value() == value
    ensures (forall x: InsuranceType :: x.Value() != value) ==> r == Basic
  {
    assert forall x: InsuranceType :: x in InsuranceTypes by { forall x: InsuranceType ensures x in InsuranceTypes { InsuranceTypesComplete(x); } }
    Seqs.FindFirst(InsuranceTypes, (x: InsuranceType) => x.Value() == value).GetOr(Basic)
  }

  lemma InsuranceTypeValuesDistinct(a: InsuranceType, b: InsuranceType)
    ensures a.Value() == b.Value() ==> a == b
  {
  }

  lemma InsuranceTypeRoundTrip(t: InsuranceType)
    ensures InsuranceTypeFromString(t.Value()) == t
  {
    InsuranceTypeValuesDistinct(t, InsuranceTypeFromString(t.Value()));
  }

  // ---------------------------------------------------------------- records

  datatype Rental = Rental(
    id: string,
    customerId: string,
    vehicleId: string,
    pickupLocationId: string,
    returnLocationId: string,
    pickupDate: IsoDate,
    pickupTime: LocalTime,
    returnDate: IsoDate,
    returnTime: LocalTime,
    dailyRate: real,
    totalDays: int,
    subtotal: real,
    insuranceCost: real,
    taxAmount: real,
    depositAmount: real,
    totalAmount: real,
    status: RentalStatus,
    insuranceType: InsuranceType,
    specialRequests: Option<string>,
    adminNotes: Option<string>,
    createdAt: string)

  /** A `Rental(...)` built from its required fields only: the data class
      defaults fill in the rest. */
  function RentalWithDefaults(
    id: string, customerId: string, vehicleId: string,
    pickupLocationId: string, returnLocationId: string,
    pickupDate: IsoDate, pickupTime: LocalTime, returnDate: IsoDate, returnTime: LocalTime,
    dailyRate: real, totalDays: int, subtotal: real, depositAmount: real, totalAmount: real,
    createdAt: string): (r: Rental)
    ensures r.status == RentalStatus.Pending && r.insuranceType == Basic
    ensures r.insuranceCost == 0.0 && r.taxAmount == 0.0
    ensures r.specialRequests.None? && r.adminNotes.None?
    ensures r.id == id && r.customerId == customerId && r.vehicleId == vehicleId
    ensures r.totalAmount == totalAmount && r.createdAt == createdAt
  {
    Rental(id, customerId, vehicleId, pickupLocationId, returnLocationId,
           pickupDate, pickupTime, returnDate, returnTime,
           dailyRate, totalDays, subtotal, 0.0, 0.0, depositAmount, totalAmount,
           RentalStatus.Pending, Basic, None, None, createdAt)
  }

  datatype RentalLocation = RentalLocation(
    id: string,
    name: string,
    address: string,
    city: string,
    county: string,
    isActive: bool,
    createdAt: string)

  datatype Review = Review(
    id: string,
    rentalId: string,
    customerId: string,
    vehicleId: string,
    overallRating: int,
    title: Option<string>,
    comment: Option<string>,
    isApproved: bool,
    isFeatured: bool,
    createdAt: string)

  datatype RentalExtra = RentalExtra(
    id: string,
    name: string,
    dailyRate: real,
    category: string,
    isActive: bool)

  datatype RentalExtraSelection = RentalExtraSelection(
    id: string,
    rentalId: string,
    rentalExtraId: string,
    quantity: int,
    dailyRate: real,
    totalCost: real)

  datatype RentalRequest = RentalRequest(
    vehicleId: string,
    pickupLocationId: string,
    returnLocationId: string,
    pickupDate: int,
    pickupTime: LocalTime,
    returnDate: int,
    returnTime: LocalTime,
    insuranceType: InsuranceType,
    selectedExtras: seq<RentalExtraSelection>,
    specialRequests: Option<string>)

  /** A `RentalRequest(...)` built from its required fields only. */
  function RentalRequestWithDefaults(
    vehicleId: string, pickupLocationId: string, returnLocationId: string,
    pickupDate: int, pickupTime: LocalTime, returnDate: int, returnTime: LocalTime): (r: RentalRequest)
    ensures r.insuranceType == Basic && r.selectedExtras == [] && r.specialRequests.None?
    ensures r.vehicleId == vehicleId && r.pickupDate == pickupDate && r.returnDate == returnDate
  {
    RentalRequest(vehicleId, pickupLocationId, returnLocationId, pickupDate, pickupTime,
                  returnDate, returnTime, Basic, [], None)
  }
}

/** The payment enums declared alongside the rentals (data/model/Rental.kt). */
module PaymentModel {
  import Seqs

  // ---------------------------------------------------------------- PaymentMethod

  datatype PaymentMethod = Mpesa | Card | BankTransfer | Cash | Wallet {
    function Value(): string {
      match this
      case Mpesa => "mpesa"
      case Card => "card"
      case BankTransfer => "bank_transfer"
      case Cash => "cash"
      case Wallet => "wallet"
    }
  }

  const PaymentMethods: seq<PaymentMethod> := [Mpesa, Card, BankTransfer, Cash, Wallet]

  lemma PaymentMethodsComplete(x: PaymentMethod)
    ensures x in PaymentMethods
  {
  }

  /** `PaymentMethod.fromString`: the first method whose value is `value`, else MPESA. */
  function PaymentMethodFromString(value: string): (r: PaymentMethod)
    ensures (exists x: PaymentMethod :: x.Value() == value) ==> r.Value() == value
    ensures (forall x: PaymentMethod :: x.Value() != value) ==> r == Mpesa
  {
    assert forall x: PaymentMethod :: x in PaymentMethods by { forall x: PaymentMethod ensures x in PaymentMethods { PaymentMethodsComplete(x); } }
    Seqs.FindFirst(PaymentMethods, (x: PaymentMethod) => x.Value() == value).GetOr(Mpesa)
  }

  lemma PaymentMethodValuesDistinct(a: PaymentMethod, b: PaymentMethod)
    ensures a.Value() == b.Value() ==> a == b
  {
  }

  lemma PaymentMethodRoundTrip(m: PaymentMethod)
    ensures PaymentMethodFromString(m.Value()) == m
  {
    PaymentMethodValuesDistinct(m, PaymentMethodFromString(m.Value()));
  }

  // ---------------------------------------------------------------- PaymentStatus

  datatype PaymentStatus = Pending | Processing | Completed | Failed | Refunded | Cancelled {
    function Value(): string {
      match this
      case Pending => "pending"
      case Processing => "processing"
      case Completed => "completed"
      case Failed => "failed"
      case Refunded => "refunded"
      case Cancelled => "cancelled"
    }
  }

  const PaymentStatuses: seq<PaymentStatus> :=
    [Pending, Processing, Completed, Failed, Refunded, Cancelled]

  lemma PaymentStatusesComplete(x: PaymentStatus)
    ensures x in PaymentStatuses
  {
  }

  /** `PaymentStatus.fromString`: the first status whose value is `value`, else PENDING. */
  function PaymentStatusFromString(value: string): (r: PaymentStatus)
    ensures (exists x: PaymentStatus :: x.Value() == value) ==> r.Value() == value
    ensures (forall x: PaymentStatus :: x.Value() != value) ==> r == Pending
  {
    assert forall x: PaymentStatus :: x in PaymentStatuses by { forall x: PaymentStatus ensures x in PaymentStatuses { PaymentStatusesComplete(x); } }
    Seqs.FindFirst(PaymentStatuses, (x: PaymentStatus) => x.Value() == value).GetOr(Pending)
  }

  lemma PaymentStatusValuesDistinct(a: PaymentStatus, b: PaymentStatus)
    ensures a.Value() == b.Value() ==> a == b
  {
  }

  lemma PaymentStatusRoundTrip(s: PaymentStatus)
    ensures PaymentStatusFromString(s.Value()) == s
  {
    PaymentStatusValuesDistinct(s, PaymentStatusFromString(s.Value()));
  }
}

=== FILE: rental_repository.dfy ===
/** The rental rules of the Android repository (data/repository/RentalRepository.kt):
    the availability check over the fetched rentals, the day count, the
    charge of a rental request, `createRental` with its guards and writes,
    the per-extra persisted cost, `getUserRentals` and `submitReview`.

    Every backend read is an input (`Result<seq<...>>`: the decoded rows or
    the exception's message); every backend write is recorded in the
    outcome, and the exception a write may raise is an input too. */
module RentalRepository {
  import opened Wrappers
  import Seqs
  import Text
  import Ints
  import Money
  import opened RentalModel
  import VehicleModel
  import UserModel

  // ---------------------------------------------------------------- writes

  /** A row the repository sends to the backend. `InsertRental` carries the
      rental as returned to the caller; its `id` and `createdAt` are not
      part of the inserted row. */
  datatype Write =
    | InsertRental(rental: Rental)
    | InsertExtraSelection(rentalId: string, rentalExtraId: string, quantity: int, dailyRate: real, totalCost: real)
    | InsertReview(review: Review)

  /** The result of a repository call together with the writes it attempted, in order. */
  datatype Outcome<T> = Outcome(result: Result<T>, writes: seq<Write>)

  // ---------------------------------------------------------------- availability

  /** `datesOverlap`: two inclusive day ranges intersect. */
  predicate DatesOverlap(start1: int, end1: int, start2: int, end2: int) {
    start1 <= end2 && end1 >= start2
  }

  /** The overlap test is symmetric in its two ranges. */
  lemma DatesOverlapSymmetric(start1: int, end1: int, start2: int, end2: int)
    ensures DatesOverlap(start1, end1, start2, end2) == DatesOverlap(start2, end2, start1, end1)
  {
  }

  /** Day `d` lies in the inclusive range from `start` to `end`. */
  predicate InRange(d: int, start: int, end: int) {
    start <= d <= end
  }

  /** For well-formed ranges, overlapping means sharing at least one day; a
      range ending on the day another starts overlaps it. */
  lemma DatesOverlapIffCommonDay(start1: int, end1: int, start2: int, end2: int)
    requires start1 <= end1 && start2 <= end2
    ensures DatesOverlap(start1, end1, start2, end2) <==>
      exists d :: InRange(d, start1, end1) && InRange(d, start2, end2)
    ensures end1 == start2 ==> DatesOverlap(start1, end1, start2, end2)
  {
    if DatesOverlap(start1, end1, start2, end2) {
      var day := if start1 < start2 then start2 else start1;
      assert InRange(day, start1, end1) && InRange(day, start2, end2);
    }
  }

  /** A fetched rental that the availability filter looks at: same vehicle,
      neither CANCELLED nor COMPLETED. */
  predicate Candidate(r: Rental, vehicleId: string) {
    r.vehicleId == vehicleId && r.status != RentalStatus.Cancelled && r.status != RentalStatus.Completed
  }

  /** A candidate whose stored dates parse and overlap the requested range. */
  predicate Blocks(r: Rental, vehicleId: string, startDate: int, endDate: int) {
    Candidate(r, vehicleId) && r.pickupDate.Parsed? && r.returnDate.Parsed? &&
    DatesOverlap(r.pickupDate.epochDay, r.returnDate.epochDay, startDate, endDate)
  }

  /** A candidate with a stored date that `LocalDate.parse` rejects. */
  predicate Unparseable(r: Rental, vehicleId: string) {
    Candidate(r, vehicleId) && (r.pickupDate.Unparsed? || r.returnDate.Unparsed?)
  }

  /** The text `LocalDate.parse` fails on first, in the filter's evaluation
      order: the pickup date before the return date. */
  function RejectedText(r: Rental): string {
    if r.pickupDate.Unparsed? then r.pickupDate.text
    else if r.returnDate.Unparsed? then r.returnDate.text
    else ""
  }

  /** The first unparseable candidate, which aborts the filter. */
  function FirstUnparseable(rentals: seq<Rental>, vehicleId: string): (r: Option<Rental>)
    ensures r.None? <==> forall i :: 0 <= i < |rentals| ==> !Unparseable(rentals[i], vehicleId)
    ensures r.Some? ==> r.value in rentals && Unparseable(r.value, vehicleId)
  {
    Seqs.FindFirst(rentals, (x: Rental) => Unparseable(x, vehicleId))
  }

  const AvailabilityErrorPrefix: string := "Failed to check availability: "

  /** `checkVehicleAvailability`: success(true) when no fetched rental blocks
      the range, success(false) when one does, and a failure when the fetch
      failed or a candidate's stored date does not parse. */
  function CheckVehicleAvailability(fetched: Result<seq<Rental>>, vehicleId: string, startDate: int, endDate: int): (r: Result<bool>)
    ensures fetched.Err? ==> r == Err(AvailabilityErrorPrefix + fetched.message)
    ensures fetched.Ok? ==>
      (r.Err? <==> exists i :: 0 <= i < |fetched.value| && Unparseable(fetched.value[i], vehicleId))
    ensures fetched.Ok? && r.Ok? ==>
      (r.value <==> forall i :: 0 <= i < |fetched.value| ==> !Blocks(fetched.value[i], vehicleId, startDate, endDate))
  {
    if fetched.Err? then Err(AvailabilityErrorPrefix + fetched.message)
    else
      var rentals := fetched.value;
      match FirstUnparseable(rentals, vehicleId)
      case Some(bad) => Err(AvailabilityErrorPrefix + RejectedText(bad))
      case None =>
        Ok(Seqs.FindFirst(rentals, (x: Rental) => Blocks(x, vehicleId, startDate, endDate)).None?)
  }

  /** Rentals of other vehicles and CANCELLED or COMPLETED rentals never
      affect the answer, wherever they appear among the fetched rows. */
  lemma {:induction false} AvailabilityIgnoresNonCandidates(rentals: seq<Rental>, k: nat, x: Rental, vehicleId: string, startDate: int, endDate: int)
    requires k <= |rentals|
    requires !Candidate(x, vehicleId)
    ensures CheckVehicleAvailability(Ok(rentals[..k] + [x] + rentals[k..]), vehicleId, startDate, endDate)
         == CheckVehicleAvailability(Ok(rentals), vehicleId, startDate, endDate)
  {
    var longer := rentals[..k] + [x] + rentals[k..];
    FirstUnparseableSkips(rentals, k, x, vehicleId);
    Seqs.InsertAtMembers(rentals, k, x);
    assert forall i :: 0 <= i < |longer| ==> longer[i] in longer;
    assert forall i :: 0 <= i < |rentals| ==> rentals[i] in rentals;
  }

  /** The first unparseable candidate is the same once a non-candidate is inserted. */
  lemma FirstUnparseableSkips(rentals: seq<Rental>, k: nat, x: Rental, vehicleId: string)
    requires k <= |rentals|
    requires !Candidate(x, vehicleId)
    ensures FirstUnparseable(rentals[..k] + [x] + rentals[k..], vehicleId) == FirstUnparseable(rentals, vehicleId)
  {
    var longer := rentals[..k] + [x] + rentals[k..];
    var p := (y: Rental) => Unparseable(y, vehicleId);
    var j := Seqs.IndexOfFirst(rentals, p);
    Seqs.InsertAt(rentals, k, x);
    if j < k {
      Seqs.IndexOfFirstUnique(longer, p, j);
    } else {
      Seqs.IndexOfFirstUnique(longer, p, j + 1);
    }
  }

  // ---------------------------------------------------------------- pricing

  /** `calculateDaysBetween`: the difference of epoch days, narrowed to `Int`,
      with zero and negative values counted as one day. */
  function CalculateDaysBetween(startDate: int, endDate: int): (days: int)
    ensures 1 <= days <= Ints.IntMax
    ensures 0 < endDate - startDate <= Ints.IntMax ==> days == endDate - startDate
    ensures Ints.IntMin <= endDate - startDate <= 0 ==> days == 1
  {
    var d := Ints.LongToInt(endDate - startDate);
    if d <= 0 then 1 else d
  }

  /** The coverage percentage as a fraction of one. */
  function CoverageFraction(t: InsuranceType): real {
    t.CoveragePercent() as real / 100.0
  }

  /** `calculateInsuranceCost` of the repository: the per-day insurance
      charge, the tier's percentage of the daily rate. */
  function CalculateInsuranceCost(dailyRate: real, t: InsuranceType): (cost: real)
    ensures cost * 100.0 == dailyRate * t.CoveragePercent() as real
    ensures dailyRate >= 0.0 ==> 0.0 <= cost <= dailyRate / 4.0
    ensures t == NoInsurance ==> cost == 0.0
  {
    dailyRate * CoverageFraction(t)
  }

  /** The amounts a rental is charged. */
  datatype Charge = Charge(
    dailyRate: real,
    totalDays: int,
    insuranceCost: real,
    subtotal: real,
    taxAmount: real,
    totalAmount: real,
    depositAmount: real)

  /** The sum of the selections' `totalCost`, as requested. */
  function ExtrasTotal(extras: seq<RentalExtraSelection>): real {
    Seqs.SumOf(extras, (e: RentalExtraSelection) => e.totalCost)
  }

  /** The extras total is the first selection's cost plus the total of the others. */
  lemma ExtrasTotalFirst(extras: seq<RentalExtraSelection>)
    requires |extras| > 0
    ensures ExtrasTotal(extras) == extras[0].totalCost + ExtrasTotal(extras[1..])
  {
  }

  /** The charge `createRental` computes: daily rate plus per-day insurance
      for every day, plus the requested extras, then 16% VAT on top and a
      30% deposit of the total. */
  function ComputeCharge(dailyRate: real, t: InsuranceType, totalDays: int, extras: seq<RentalExtraSelection>): (c: Charge)
    ensures c.dailyRate == dailyRate && c.totalDays == totalDays
    ensures c.insuranceCost == CalculateInsuranceCost(dailyRate, t)
    ensures c.subtotal == Money.Scale(dailyRate, totalDays) + Money.Scale(c.insuranceCost, totalDays) + ExtrasTotal(extras)
    ensures c.totalAmount == c.subtotal * 1.16
    ensures c.taxAmount == c.totalAmount - c.subtotal
    ensures c.depositAmount * 10.0 == c.totalAmount * 3.0
  {
    var insuranceCost := CalculateInsuranceCost(dailyRate, t);
    Money.ScaleAdds(dailyRate, insuranceCost, totalDays);
    var subtotal := Money.Scale(dailyRate + insuranceCost, totalDays) + ExtrasTotal(extras);
    var taxAmount := subtotal * 0.16;
    var totalAmount := subtotal + taxAmount;
    Charge(dailyRate, totalDays, insuranceCost, subtotal, taxAmount, totalAmount, totalAmount * 0.30)
  }

  /** With a non-negative rate, day count and extras, every amount is
      non-negative and the deposit never exceeds the total. */
  lemma ChargeBounds(dailyRate: real, t: InsuranceType, totalDays: int, extras: seq<RentalExtraSelection>)
    requires dailyRate >= 0.0 && totalDays >= 0
    requires forall i :: 0 <= i < |extras| ==> extras[i].totalCost >= 0.0
    ensures var c := ComputeCharge(dailyRate, t, totalDays, extras);
      0.0 <= c.subtotal <= c.totalAmount && 0.0 <= c.taxAmount && 0.0 <= c.depositAmount <= c.totalAmount
  {
    Seqs.SumOfNonNegative(extras, (e: RentalExtraSelection) => e.totalCost);
    var c := ComputeCharge(dailyRate, t, totalDays, extras);
    Money.ScaleNonNegative(dailyRate, totalDays);
    Money.ScaleNonNegative(c.insuranceCost, totalDays);
  }

  /** `addRentalExtras`' `total_cost`: the extra's daily rate times its
      quantity times the rental's days (not the request's `totalCost`). */
  function PersistedExtraCost(e: RentalExtraSelection, totalDays: int): (cost: real)
    ensures cost == Money.Scale(e.dailyRate * e.quantity as real, totalDays)
    ensures e.quantity == 1 ==> cost == Money.Scale(e.dailyRate, totalDays)
    ensures e.dailyRate >= 0.0 && e.quantity >= 0 && totalDays >= 0 ==> cost >= 0.0
  {
    Money.ScaleIsProduct(e.dailyRate * e.quantity as real, totalDays);
    e.dailyRate * e.quantity as real * totalDays as real
  }

  /** The writes of a run of inserts and the error that stopped it, if any. */
  datatype WriteRun = WriteRun(writes: seq<Write>, error: Option<string>)

  /** `addRentalExtras`: one insert per selection, in order; the first insert
      that raises stops the loop (`errors[i]` is the outcome of insert `i`). */
  function AddRentalExtras(rentalId: string, extras: seq<RentalExtraSelection>, totalDays: int, errors: seq<Option<string>>): (run: WriteRun)
    ensures |run.writes| <= |extras|
    ensures forall i :: 0 <= i < |run.writes| ==>
      run.writes[i] == InsertExtraSelection(rentalId, extras[i].rentalExtraId, extras[i].quantity,
                                            extras[i].dailyRate, PersistedExtraCost(extras[i], totalDays))
    ensures run.error.None? <==> forall i :: 0 <= i < |extras| ==> WriteError(errors, i).None?
    ensures run.error.None? ==> |run.writes| == |extras|
    ensures run.error.Some? ==>
      (|run.writes| >= 1 && WriteError(errors, |run.writes| - 1) == run.error &&
       forall i :: 0 <= i < |run.writes| - 1 ==> WriteError(errors, i).None?)
    decreases |extras|
  {
    if |extras| == 0 then WriteRun([], None)
    else
      var e := extras[0];
      var w := InsertExtraSelection(rentalId, e.rentalExtraId, e.quantity, e.dailyRate, PersistedExtraCost(e, totalDays));
      var err := WriteError(errors, 0);
      if err.Some? then WriteRun([w], err)
      else
        var later := if |errors| == 0 then [] else errors[1..];
        var rest := AddRentalExtras(rentalId, extras[1..], totalDays, later);
        WriteErrorShift(errors, later);
        AllWritesSucceedSplit(errors, later, |extras| - 1);
        if rest.error.Some? then AllWritesSucceedSplit(errors, later, |rest.writes| - 1); WriteRun([w] + rest.writes, rest.error)
        else WriteRun([w] + rest.writes, rest.error)
  }

  /** The outcomes after the first write are the outcomes of the later writes. */
  lemma WriteErrorShift(errors: seq<Option<string>>, later: seq<Option<string>>)
    requires later == if |errors| == 0 then [] else errors[1..]
    ensures forall i: nat :: WriteError(later, i) == WriteError(errors, i + 1)
  {
  }

  /** The first `m + 1` writes succeed iff the first does and then the next `m` do. */
  lemma AllWritesSucceedSplit(errors: seq<Option<string>>, later: seq<Option<string>>, m: nat)
    requires later == if |errors| == 0 then [] else errors[1..]
    ensures (forall i :: 0 <= i < m + 1 ==> WriteError(errors, i).None?) <==>
      (WriteError(errors, 0).None? && forall i :: 0 <= i < m ==> WriteError(later, i).None?)
  {
    WriteErrorShift(errors, later);
    if forall i :: 0 <= i < m + 1 ==> WriteError(errors, i).None? {
      forall i | 0 <= i < m ensures WriteError(later, i).None? {
        assert WriteError(errors, i + 1).None?;
      }
    }
    if WriteError(errors, 0).None? && forall i :: 0 <= i < m ==> WriteError(later, i).None? {
      forall i | 0 <= i < m + 1 ensures WriteError(errors, i).None? {
        if i > 0 { assert WriteError(later, i - 1).None?; }
      }
    }
  }

  // ---------------------------------------------------------------- createRental

  const CreateRentalErrorPrefix: string := "Failed to create rental: "
  const NotAuthenticated: string := "User not authenticated"
  const NotAvailable: string := "Vehicle is not available for the selected dates"
  const VehicleNotFound: string := "Vehicle not found"

  /** The rental `createRental` returns: PENDING, the request's ids, dates,
      times, insurance and special requests, and the computed charge. */
  function PendingRental(id: string, customerId: string, req: RentalRequest, c: Charge, createdAt: string): (r: Rental)
    ensures r.status == RentalStatus.Pending && r.adminNotes.None?
    ensures r.id == id && r.customerId == customerId && r.createdAt == createdAt
    ensures r.vehicleId == req.vehicleId && r.insuranceType == req.insuranceType
    ensures r.pickupLocationId == req.pickupLocationId && r.returnLocationId == req.returnLocationId
    ensures r.pickupDate == Parsed(req.pickupDate) && r.returnDate == Parsed(req.returnDate)
    ensures r.specialRequests == req.specialRequests
    ensures r.dailyRate == c.dailyRate && r.totalDays == c.totalDays && r.subtotal == c.subtotal
    ensures r.insuranceCost == c.insuranceCost && r.taxAmount == c.taxAmount
    ensures r.depositAmount == c.depositAmount && r.totalAmount == c.totalAmount
  {
    Rental(id, customerId, req.vehicleId, req.pickupLocationId, req.returnLocationId,
           Parsed(req.pickupDate), req.pickupTime, Parsed(req.returnDate), req.returnTime,
           c.dailyRate, c.totalDays, c.subtotal, c.insuranceCost, c.taxAmount,
           c.depositAmount, c.totalAmount, RentalStatus.Pending, req.insuranceType,
           req.specialRequests, None, createdAt)
  }

  /** `createRental`. The inputs stand for what the backend and the clock
      answer: the signed-in user, the fetched rentals (read by the
      availability check) and vehicles, the outcome of the rental insert and
      of each extra insert, and the current time (as milliseconds text and as
      an instant). */
  function CreateRental(
    currentUser: Option<UserModel.AuthUser>, req: RentalRequest,
    rentalsFetch: Result<seq<Rental>>, vehiclesFetch: Result<seq<VehicleModel.Vehicle>>,
    rentalInsertError: Option<string>, extraInsertErrors: seq<Option<string>>,
    millis: string, now: string): (o: Outcome<Rental>)
    ensures currentUser.None? ==> o == Outcome(Err(NotAuthenticated), [])
    ensures currentUser.Some? && CheckVehicleAvailability(rentalsFetch, req.vehicleId, req.pickupDate, req.returnDate) != Ok(true) ==>
      o == Outcome(Err(NotAvailable), [])
    ensures o.result.Ok? ==>
      currentUser.Some? && CheckVehicleAvailability(rentalsFetch, req.vehicleId, req.pickupDate, req.returnDate) == Ok(true) &&
      vehiclesFetch.Ok? && rentalInsertError.None?
    ensures o.result.Ok? ==>
      exists v :: (v in vehiclesFetch.value && v.id == req.vehicleId &&
        o.result.value == PendingRental("temp_id_" + millis, currentUser.value.id, req,
          ComputeCharge(v.pricePerDay, req.insuranceType, CalculateDaysBetween(req.pickupDate, req.returnDate), req.selectedExtras), now))
    ensures (currentUser.Some? && vehiclesFetch.Ok? &&
      (forall i :: 0 <= i < |vehiclesFetch.value| ==> vehiclesFetch.value[i].id != req.vehicleId) &&
      CheckVehicleAvailability(rentalsFetch, req.vehicleId, req.pickupDate, req.returnDate) == Ok(true)) ==>
      o == Outcome(Err(VehicleNotFound), [])
    ensures (currentUser.Some? && CheckVehicleAvailability(rentalsFetch, req.vehicleId, req.pickupDate, req.returnDate) == Ok(true) &&
      vehiclesFetch.Ok? && (exists v :: v in vehiclesFetch.value && v.id == req.vehicleId) &&
      rentalInsertError.None? && forall i :: 0 <= i < |req.selectedExtras| ==> WriteError(extraInsertErrors, i).None?) ==>
      o.result.Ok?
    ensures o.writes != [] <==>
      currentUser.Some? && CheckVehicleAvailability(rentalsFetch, req.vehicleId, req.pickupDate, req.returnDate) == Ok(true) &&
      vehiclesFetch.Ok? && exists v :: v in vehiclesFetch.value && v.id == req.vehicleId
    ensures o.writes != [] ==> o.writes[0].InsertRental? && o.writes[0].rental.status == RentalStatus.Pending
    ensures o.result.Ok? ==> o.writes[0] == InsertRental(o.result.value) && |o.writes| == 1 + |req.selectedExtras|
    ensures o.result.Ok? ==> forall i :: 0 <= i < |req.selectedExtras| ==> WriteError(extraInsertErrors, i).None?
    // Every exception after the availability check is wrapped with the prefix.
    ensures (currentUser.Some? && CheckVehicleAvailability(rentalsFetch, req.vehicleId, req.pickupDate, req.returnDate) == Ok(true) &&
      vehiclesFetch.Err?) ==> o == Outcome(Err(CreateRentalErrorPrefix + vehiclesFetch.message), [])
    ensures o.writes != [] ==> FailsAtFirstFailedInsert(o, req.selectedExtras, rentalInsertError, extraInsertErrors)
  {
    if currentUser.None? then Outcome(Err(NotAuthenticated), [])
    else if CheckVehicleAvailability(rentalsFetch, req.vehicleId, req.pickupDate, req.returnDate) != Ok(true) then
      Outcome(Err(NotAvailable), [])
    else
      var totalDays := CalculateDaysBetween(req.pickupDate, req.returnDate);
      if vehiclesFetch.Err? then Outcome(Err(CreateRentalErrorPrefix + vehiclesFetch.message), [])
      else
        match Seqs.FindFirst(vehiclesFetch.value, (v: VehicleModel.Vehicle) => v.id == req.vehicleId)
        case None => Outcome(Err(VehicleNotFound), [])
        case Some(vehicle) =>
          var c := ComputeCharge(vehicle.pricePerDay, req.insuranceType, totalDays, req.selectedExtras);
          var rental := PendingRental("temp_id_" + millis, currentUser.value.id, req, c, now);
          InsertRentalWithExtras(rental, req.selectedExtras, totalDays, rentalInsertError, extraInsertErrors)
  }

  /** A failed insert ends the run with the prefixed message of the first
      insert that raised: the rental insert, else the first extra insert
      (the last write made) that failed. */
  predicate FailsAtFirstFailedInsert(o: Outcome<Rental>, extras: seq<RentalExtraSelection>,
                                     rentalInsertError: Option<string>, extraInsertErrors: seq<Option<string>>)
  {
    (rentalInsertError.Some? ==>
      o.result == Err(CreateRentalErrorPrefix + rentalInsertError.value) && |o.writes| == 1) &&
    (rentalInsertError.None? && (exists i :: 0 <= i < |extras| && WriteError(extraInsertErrors, i).Some?) ==>
      2 <= |o.writes| <= 1 + |extras| &&
      WriteError(extraInsertErrors, |o.writes| - 2).Some? &&
      (forall i :: 0 <= i < |o.writes| - 2 ==> WriteError(extraInsertErrors, i).None?) &&
      o.result == Err(CreateRentalErrorPrefix + WriteError(extraInsertErrors, |o.writes| - 2).value))
  }

  /** The tail of `createRental` once the vehicle is found: the rental
      insert, then `addRentalExtras` when there are extras, all inside the
      `try` whose `catch` prefixes the message. */
  function InsertRentalWithExtras(rental: Rental, extras: seq<RentalExtraSelection>, totalDays: int,
                                  rentalInsertError: Option<string>, extraInsertErrors: seq<Option<string>>): (o: Outcome<Rental>)
    ensures |o.writes| >= 1 && o.writes[0] == InsertRental(rental)
    ensures o.result.Ok? <==> rentalInsertError.None? && forall i :: 0 <= i < |extras| ==> WriteError(extraInsertErrors, i).None?
    ensures o.result.Ok? ==> o.result.value == rental && |o.writes| == 1 + |extras|
    ensures FailsAtFirstFailedInsert(o, extras, rentalInsertError, extraInsertErrors)
  {
    if rentalInsertError.Some? then
      Outcome(Err(CreateRentalErrorPrefix + rentalInsertError.value), [InsertRental(rental)])
    else if |extras| == 0 then
      Outcome(Ok(rental), [InsertRental(rental)])
    else
      var run := AddRentalExtras(rental.id, extras, totalDays, extraInsertErrors);
      var writes := [InsertRental(rental)] + run.writes;
      if run.error.Some? then Outcome(Err(CreateRentalErrorPrefix + run.error.value), writes)
      else Outcome(Ok(rental), writes)
  }

  /** When every step succeeds and all listed vehicles with the requested id
      carry the same `rate`, `createRental` records the pending rental
      charged at that rate. */
  lemma CreateRentalSucceeds(
    user: UserModel.AuthUser, req: RentalRequest, rentalsFetch: Result<seq<Rental>>,
    vehicles: seq<VehicleModel.Vehicle>, extraInsertErrors: seq<Option<string>>,
    rate: real, millis: string, now: string)
    requires CheckVehicleAvailability(rentalsFetch, req.vehicleId, req.pickupDate, req.returnDate) == Ok(true)
    requires exists i :: 0 <= i < |vehicles| && vehicles[i].id == req.vehicleId
    requires forall i :: 0 <= i < |vehicles| && vehicles[i].id == req.vehicleId ==> vehicles[i].pricePerDay == rate
    requires forall i :: 0 <= i < |extraInsertErrors| ==> extraInsertErrors[i].None?
    ensures CreateRental(Some(user), req, rentalsFetch, Ok(vehicles), None, extraInsertErrors, millis, now).result ==
      Ok(PendingRental("temp_id_" + millis, user.id, req,
        ComputeCharge(rate, req.insuranceType, CalculateDaysBetween(req.pickupDate, req.returnDate), req.selectedExtras), now))
  {
    var k :| 0 <= k < |vehicles| && vehicles[k].id == req.vehicleId;
    assert vehicles[k] in vehicles;
    assert forall i :: 0 <= i < |req.selectedExtras| ==> WriteError(extraInsertErrors, i).None?;
    var o := CreateRental(Some(user), req, rentalsFetch, Ok(vehicles), None, extraInsertErrors, millis, now);
    assert o.result.Ok?;
    var w :| w in vehicles && w.id == req.vehicleId &&
      o.result.value == PendingRental("temp_id_" + millis, user.id, req,
        ComputeCharge(w.pricePerDay, req.insuranceType, CalculateDaysBetween(req.pickupDate, req.returnDate), req.selectedExtras), now);
    var j :| 0 <= j < |vehicles| && vehicles[j] == w;
  }

  // ---------------------------------------------------------------- getUserRentals

  /** Ordered by `createdAt`, latest first (`sortedByDescending`). */
  predicate NewestFirst(rs: seq<Rental>) {
    forall i, j :: 0 <= i < j < |rs| ==> !Text.LexLess(rs[i].createdAt, rs[j].createdAt)
  }

  /** Inserts `x` before the first rental it is not older than. */
  function InsertNewestFirst(x: Rental, rs: seq<Rental>): (r: seq<Rental>)
    requires NewestFirst(rs)
    ensures NewestFirst(r)
    ensures multiset(r) == multiset(rs) + multiset{x}
    ensures |r| == |rs| + 1
  {
    if |rs| == 0 || !Text.LexLess(x.createdAt, rs[0].createdAt) then
      NotOlderThanHead(x, rs);
      PrependNewestFirst(x, rs);
      [x] + rs
    else
      var rest := InsertNewestFirst(x, rs[1..]);
      Text.LexLessTotal(x.createdAt, rs[0].createdAt);
      assert rs == [rs[0]] + rs[1..];
      NotOlderThanAny(rs[0], rest, rs[1..], x);
      PrependNewestFirst(rs[0], rest);
      [rs[0]] + rest
  }

  /** A rental not older than the head of a newest-first list is not older
      than any of its rentals. */
  lemma NotOlderThanHead(x: Rental, rs: seq<Rental>)
    requires NewestFirst(rs)
    requires |rs| == 0 || !Text.LexLess(x.createdAt, rs[0].createdAt)
    ensures forall j :: 0 <= j < |rs| ==> !Text.LexLess(x.createdAt, rs[j].createdAt)
  {
    forall j | 0 <= j < |rs| ensures !Text.LexLess(x.createdAt, rs[j].createdAt) {
      if j > 0 { Text.LexNotLessTransitive(x.createdAt, rs[0].createdAt, rs[j].createdAt); }
    }
  }

  /** A rental not older than the elements of `xs` and `x` is not older than
      any element of a rearrangement of them. */
  lemma NotOlderThanAny(y: Rental, rest: seq<Rental>, xs: seq<Rental>, x: Rental)
    requires multiset(rest) == multiset(xs) + multiset{x}
    requires forall j :: 0 <= j < |xs| ==> !Text.LexLess(y.createdAt, xs[j].createdAt)
    requires !Text.LexLess(y.createdAt, x.createdAt)
    ensures forall j :: 0 <= j < |rest| ==> !Text.LexLess(y.createdAt, rest[j].createdAt)
  {
    forall j | 0 <= j < |rest| ensures !Text.LexLess(y.createdAt, rest[j].createdAt) {
      assert rest[j] in multiset(rest);
      if rest[j] != x {
        assert rest[j] in multiset(xs);
        var k :| 0 <= k < |xs| && xs[k] == rest[j];
      }
    }
  }

  /** Prepending a rental not older than all of a newest-first list keeps it
      newest first. */
  lemma PrependNewestFirst(x: Rental, rs: seq<Rental>)
    requires NewestFirst(rs)
    requires forall j :: 0 <= j < |rs| ==> !Text.LexLess(x.createdAt, rs[j].createdAt)
    ensures NewestFirst([x] + rs)
  {
    var r := [x] + rs;
    forall i, j | 0 <= i < j < |r| ensures !Text.LexLess(r[i].createdAt, r[j].createdAt) {
      assert r[j] == rs[j - 1];
      if i > 0 { assert r[i] == rs[i - 1]; }
    }
  }

  /** An insertion sort, latest `createdAt` first. */
  function SortNewestFirst(rs: seq<Rental>): (r: seq<Rental>)
    ensures NewestFirst(r)
    ensures multiset(r) == multiset(rs)
  {
    if |rs| == 0 then []
    else
      assert rs == [rs[0]] + rs[1..];
      InsertNewestFirst(rs[0], SortNewestFirst(rs[1..]))
  }

  /** `getUserRentals`, up to the summary decoration: the user's own
      rentals, each exactly as often as fetched, latest first. */
  function GetUserRentals(fetched: Result<seq<Rental>>, userId: string): (r: Result<seq<Rental>>)
    ensures fetched.Err? ==> r == Err("Failed to fetch user rentals: " + fetched.message)
    ensures fetched.Ok? ==> r.Ok? && NewestFirst(r.value)
    ensures fetched.Ok? ==> forall x :: multiset(r.value)[x] == if x.customerId == userId then multiset(fetched.value)[x] else 0
  {
    if fetched.Err? then Err("Failed to fetch user rentals: " + fetched.message)
    else Ok(SortNewestFirst(Seqs.Filter(fetched.value, (x: Rental) => x.customerId == userId)))
  }

  /** Every listed rental belongs to the user, and every fetched rental of
      the user is listed. */
  lemma GetUserRentalsExactlyOwn(rentals: seq<Rental>, userId: string)
    ensures var r := GetUserRentals(Ok(rentals), userId).value;
      (forall x :: x in r ==> x.customerId == userId && x in rentals) &&
      (forall x :: x in rentals && x.customerId == userId ==> x in r)
  {
    var r := GetUserRentals(Ok(rentals), userId).value;
    forall x | x in r ensures x.customerId == userId && x in rentals {
      assert x in multiset(r);
    }
    forall x | x in rentals && x.customerId == userId ensures x in r {
      assert x in multiset(rentals);
      assert multiset(r)[x] > 0;
    }
  }

  // ---------------------------------------------------------------- submitReview

  const ReviewFailedPrefix: string := "Failed to submit review: "
  const RentalNotFound: string := "Rental not found or not authorized"
  const NotCompleted: string := "Can only review completed rentals"

  /** `find { it.id == rentalId && it.customerId == userId }`: the user's
      first rental with that id, if any. */
  function FindOwnRental(rentals: seq<Rental>, rentalId: string, userId: string): (r: Option<Rental>)
    ensures r.None? <==> forall i :: 0 <= i < |rentals| ==> !(rentals[i].id == rentalId && rentals[i].customerId == userId)
    ensures r.Some? ==> r.value.id == rentalId && r.value.customerId == userId
    ensures r.Some? ==> exists k :: (0 <= k < |rentals| && rentals[k] == r.value &&
      forall j :: 0 <= j < k ==> !(rentals[j].id == rentalId && rentals[j].customerId == userId))
  {
    var p := (x: Rental) => x.id == rentalId && x.customerId == userId;
    var k := Seqs.IndexOfFirst(rentals, p);
    if k < |rentals| then Some(rentals[k]) else None
  }

  /** `submitReview`: the signed-in user may review a rental of theirs that
      is COMPLETED; the review is created unapproved and not featured. */
  function SubmitReview(
    currentUser: Option<UserModel.AuthUser>, rentalsFetch: Result<seq<Rental>>,
    rentalId: string, overallRating: int, title: Option<string>, comment: Option<string>,
    insertError: Option<string>, millis: string, now: string): (o: Outcome<Review>)
    ensures currentUser.None? ==> o == Outcome(Err(NotAuthenticated), [])
    ensures currentUser.Some? && rentalsFetch.Err? ==> o == Outcome(Err(ReviewFailedPrefix + rentalsFetch.message), [])
    ensures currentUser.Some? && rentalsFetch.Ok? ==>
      var found := FindOwnRental(rentalsFetch.value, rentalId, currentUser.value.id);
      (found.Some? && found.value.status != RentalStatus.Completed ==> o == Outcome(Err(NotCompleted), [])) &&
      (found.Some? && found.value.status == RentalStatus.Completed && insertError.Some? ==>
         o.result == Err(ReviewFailedPrefix + insertError.value) && |o.writes| == 1 && o.writes[0].InsertReview?) &&
      (found.Some? && found.value.status == RentalStatus.Completed && insertError.None? ==>
         o.result.Ok? && o.result.value.vehicleId == found.value.vehicleId)
    ensures (currentUser.Some? && rentalsFetch.Ok? &&
      (forall i :: 0 <= i < |rentalsFetch.value| ==>
        !(rentalsFetch.value[i].id == rentalId && rentalsFetch.value[i].customerId == currentUser.value.id))) ==>
      o == Outcome(Err(RentalNotFound), [])
    ensures o.result.Ok? ==>
      (currentUser.Some? && rentalsFetch.Ok? && insertError.None? &&
       exists rental :: (rental in rentalsFetch.value && rental.id == rentalId &&
         rental.customerId == currentUser.value.id && rental.status == RentalStatus.Completed &&
         o.result.value.vehicleId == rental.vehicleId))
    ensures o.result.Ok? ==> o.writes == [InsertReview(o.result.value)]
    ensures o.result.Ok? ==> var rv := o.result.value;
      rv.rentalId == rentalId && rv.customerId == currentUser.value.id && rv.overallRating == overallRating &&
      rv.title == title && rv.comment == comment && !rv.isApproved && !rv.isFeatured
    ensures |o.writes| <= 1
    ensures o.writes != [] ==>
      (currentUser.Some? && rentalsFetch.Ok? &&
       exists rental :: (rental in rentalsFetch.value && rental.id == rentalId &&
         rental.customerId == currentUser.value.id && rental.status == RentalStatus.Completed))
  {
    if currentUser.None? then Outcome(Err(NotAuthenticated), [])
    else if rentalsFetch.Err? then Outcome(Err(ReviewFailedPrefix + rentalsFetch.message), [])
    else
      var user := currentUser.value;
      match FindOwnRental(rentalsFetch.value, rentalId, user.id)
      case None => Outcome(Err(RentalNotFound), [])
      case Some(rental) =>
        if rental.status != RentalStatus.Completed then Outcome(Err(NotCompleted), [])
        else
          var review := Review("temp_review_" + millis, rentalId, user.id, rental.vehicleId,
                               overallRating, title, comment, false, false, now);
          if insertError.Some? then Outcome(Err(ReviewFailedPrefix + insertError.value), [InsertReview(review)])
          else Outcome(Ok(review), [InsertReview(review)])
  }

  /** With the user's rental fetched and COMPLETED (ids being unique), and
      the insert succeeding, the review goes through. */
  lemma SubmitReviewSucceeds(
    user: UserModel.AuthUser, rentals: seq<Rental>, k: nat,
    overallRating: int, title: Option<string>, comment: Option<string>, millis: string, now: string)
    requires k < |rentals|
    requires rentals[k].customerId == user.id && rentals[k].status == RentalStatus.Completed
    requires forall i :: 0 <= i < |rentals| && i != k ==> rentals[i].id != rentals[k].id
    ensures SubmitReview(Some(user), Ok(rentals), rentals[k].id, overallRating, title, comment, None, millis, now).result.Ok?
  {
    var p := (x: Rental) => x.id == rentals[k].id && x.customerId == user.id;
    var found := Seqs.FindFirst(rentals, p);
    assert p(rentals[k]);
    var i := Seqs.IndexOfFirst(rentals, p);
    assert i == k;
  }

  /** A rental of the user's that is not COMPLETED cannot be reviewed, and
      nothing is written, whatever the insert would have answered. */
  lemma {:induction false} SubmitReviewNeedsCompleted(
    user: UserModel.AuthUser, rentals: seq<Rental>, k: nat, overallRating: int,
    title: Option<string>, comment: Option<string>, insertError: Option<string>, millis: string, now: string)
    requires k < |rentals|
    requires rentals[k].customerId == user.id && rentals[k].status != RentalStatus.Completed
    requires forall i :: 0 <= i < k ==> !(rentals[i].id == rentals[k].id && rentals[i].customerId == user.id)
    ensures SubmitReview(Some(user), Ok(rentals), rentals[k].id, overallRating, title, comment, insertError, millis, now)
      == Outcome(Err(NotCompleted), [])
  {
    var p := (x: Rental) => x.id == rentals[k].id && x.customerId == user.id;
    Seqs.IndexOfFirstUnique(rentals, p, k);
  }
}

=== FILE: seqs.dfy ===
/** Sequence operations the app applies to fetched rows: Kotlin's
    `find`/`firstOrNull`, `filter`, `sumOf`, and JavaScript's `find`, `filter`
    and `reduce`, with contracts that characterise their results. */
module Seqs {
  import opened Wrappers

  /** The position of the first element satisfying `p`, or `|xs|` when none does. */
  function IndexOfFirst<T>(xs: seq<T>, p: T -> bool): (i: nat)
    ensures i <= |xs|
    ensures forall j :: 0 <= j < i ==> !p(xs[j])
    ensures i < |xs| ==> p(xs[i])
  {
    if |xs| == 0 then 0
    else if p(xs[0]) then 0
    else 1 + IndexOfFirst(xs[1..], p)
  }

  /** The first position satisfying `p` is the only one with nothing before it satisfying `p`. */
  lemma {:induction false} IndexOfFirstUnique<T>(xs: seq<T>, p: T -> bool, i: nat)
    requires i <= |xs|
    requires forall j :: 0 <= j < i ==> !p(xs[j])
    requires i < |xs| ==> p(xs[i])
    ensures IndexOfFirst(xs, p) == i
  {
    if i > 0 && !p(xs[0]) {
      IndexOfFirstUnique(xs[1..], p, i - 1);
    }
  }

  /** Kotlin `find { p }` / `firstOrNull { p }`: the first element satisfying `p`. */
  function FindFirst<T>(xs: seq<T>, p: T -> bool): (r: Option<T>)
    ensures r.None? <==> forall j :: 0 <= j < |xs| ==> !p(xs[j])
    ensures r.Some? ==> r.value in xs && p(r.value)
  {
    var i := IndexOfFirst(xs, p);
    if i < |xs| then Some(xs[i]) else None
  }

  /** `a` can be obtained from `b` by deleting elements (order is kept). */
  predicate IsSubsequence<T(==)>(a: seq<T>, b: seq<T>)
    decreases |b|
  {
    |a| == 0 || (|b| > 0 && if a[0] == b[0] then IsSubsequence(a[1..], b[1..]) else IsSubsequence(a, b[1..]))
  }

  /** Kotlin/JavaScript `filter { p }`: exactly the elements satisfying `p`,
      each as often as in `xs`. */
  function Filter<T(!new)>(xs: seq<T>, p: T -> bool): (r: seq<T>)
    ensures |r| <= |xs|
    ensures forall x :: x in r <==> x in xs && p(x)
    ensures forall x :: multiset(r)[x] == if p(x) then multiset(xs)[x] else 0
  {
    if |xs| == 0 then []
    else
      assert xs == [xs[0]] + xs[1..];
      (if p(xs[0]) then [xs[0]] else []) + Filter(xs[1..], p)
  }

  /** The filtered sequence keeps the order of the original. */
  lemma {:induction false} FilterIsSubsequence<T(!new)>(xs: seq<T>, p: T -> bool)
    ensures IsSubsequence(Filter(xs, p), xs)
  {
    if |xs| > 0 {
      FilterIsSubsequence(xs[1..], p);
      var rest := Filter(xs[1..], p);
      if p(xs[0]) {
        assert Filter(xs, p) == [xs[0]] + rest;
      } else {
        assert Filter(xs, p) == rest;
        SubsequenceOfTail(rest, xs);
      }
    }
  }

  /** Filtering by a predicate every element satisfies changes nothing. */
  lemma {:induction false} FilterAll<T(!new)>(xs: seq<T>, p: T -> bool)
    requires forall x :: x in xs ==> p(x)
    ensures Filter(xs, p) == xs
  {
    if |xs| > 0 {
      FilterAll(xs[1..], p);
      assert xs[0] in xs;
    }
  }

  /** Every sequence is a subsequence of itself. */
  lemma {:induction false} SubsequenceReflexive<T>(xs: seq<T>)
    ensures IsSubsequence(xs, xs)
  {
    if |xs| > 0 {
      SubsequenceReflexive(xs[1..]);
    }
  }

  /** A subsequence of the tail is a subsequence of the whole sequence. */
  lemma {:induction false} SubsequenceOfTail<T>(a: seq<T>, b: seq<T>)
    requires |b| > 0 && IsSubsequence(a, b[1..])
    ensures IsSubsequence(a, b)
    decreases |b|, 0
  {
    if |a| > 0 && a[0] == b[0] {
      SubsequenceDropFirst(a, b[1..]);
    }
  }

  /** Dropping the first element of a subsequence leaves a subsequence. */
  lemma {:induction false} SubsequenceDropFirst<T>(a: seq<T>, b: seq<T>)
    requires |a| > 0 && IsSubsequence(a, b)
    ensures IsSubsequence(a[1..], b)
    decreases |b|, 1
  {
    if a[0] == b[0] {
      if |b| > 1 && |a| > 1 {
        SubsequenceOfTail(a[1..], b);
      } else if |a| > 1 {
        assert IsSubsequence(a[1..], b[1..]);
      }
    } else {
      SubsequenceDropFirst(a, b[1..]);
      SubsequenceOfTail(a[1..], b);
    }
  }

  /** Kotlin `sumOf { f }` / JavaScript `reduce((s, x) => s + f(x), 0)`, in exact arithmetic. */
  function SumOf<T>(xs: seq<T>, f: T -> real): real
  {
    if |xs| == 0 then 0.0 else f(xs[0]) + SumOf(xs[1..], f)
  }

  /** A sum of non-negative terms is non-negative. */
  lemma {:induction false} SumOfNonNegative<T>(xs: seq<T>, f: T -> real)
    requires forall i :: 0 <= i < |xs| ==> f(xs[i]) >= 0.0
    ensures SumOf(xs, f) >= 0.0
  {
    if |xs| > 0 {
      SumOfNonNegative(xs[1..], f);
    }
  }

  /** The number of elements satisfying `p`. */
  function CountIf<T(!new)>(xs: seq<T>, p: T -> bool): (n: nat)
    ensures n <= |xs|
    ensures n == |Filter(xs, p)|
  {
    if |xs| == 0 then 0 else (if p(xs[0]) then 1 else 0) + CountIf(xs[1..], p)
  }

  /** Counts of two predicates that never hold together add up to the count
      of their disjunction. */
  lemma {:induction false} CountIfDisjoint<T(!new)>(xs: seq<T>, p: T -> bool, q: T -> bool)
    requires forall x :: !(p(x) && q(x))
    ensures CountIf(xs, p) + CountIf(xs, q) == CountIf(xs, x => p(x) || q(x))
  {
    if |xs| > 0 {
      CountIfDisjoint(xs[1..], p, q);
    }
  }

  /** Exactly one position of `xs` satisfies `p`. */
  predicate ExactlyOne<T>(xs: seq<T>, p: T -> bool) {
    exists i :: 0 <= i < |xs| && p(xs[i]) && forall j :: 0 <= j < |xs| && j != i ==> !p(xs[j])
  }

  /** Filtering leaves a single element exactly when one position satisfies the predicate. */
  lemma {:induction false} FilterSingleton<T(!new)>(xs: seq<T>, p: T -> bool)
    ensures |Filter(xs, p)| == 1 <==> ExactlyOne(xs, p)
  {
    if |xs| > 0 {
      var t := xs[1..];
      FilterSingleton(t, p);
      FilterLength(xs, p);
      if p(xs[0]) {
        FilterEmpty(t, p);
        ExactlyOneHead(xs, p);
      } else {
        ExactlyOneSkip(xs, p);
      }
    }
  }

  /** The head adds one to the filtered length when it satisfies the predicate. */
  lemma FilterLength<T(!new)>(xs: seq<T>, p: T -> bool)
    requires |xs| > 0
    ensures |Filter(xs, p)| == (if p(xs[0]) then 1 else 0) + |Filter(xs[1..], p)|
  {
  }

  /** Nothing is left by filtering exactly when no element satisfies the predicate. */
  lemma FilterEmpty<T(!new)>(xs: seq<T>, p: T -> bool)
    ensures |Filter(xs, p)| == 0 <==> forall j :: 0 <= j < |xs| ==> !p(xs[j])
  {
    if |Filter(xs, p)| > 0 {
      assert Filter(xs, p)[0] in Filter(xs, p);
    }
  }

  /** When the head satisfies `p`, it is the only one exactly when no later element does. */
  lemma ExactlyOneHead<T>(xs: seq<T>, p: T -> bool)
    requires |xs| > 0 && p(xs[0])
    ensures ExactlyOne(xs, p) <==> forall j :: 0 <= j < |xs[1..]| ==> !p(xs[1..][j])
  {
    var t := xs[1..];
    if forall j :: 0 <= j < |t| ==> !p(t[j]) {
      forall j | 0 <= j < |xs| && j != 0 ensures !p(xs[j]) {
        assert xs[j] == t[j - 1];
      }
    }
    if ExactlyOne(xs, p) {
      var i :| 0 <= i < |xs| && p(xs[i]) && forall j :: 0 <= j < |xs| && j != i ==> !p(xs[j]);
      assert i == 0;
      forall j | 0 <= j < |t| ensures !p(t[j]) {
        assert t[j] == xs[j + 1];
      }
    }
  }

  /** When the head does not satisfy `p`, exactly one element does exactly when one later element does. */
  lemma ExactlyOneSkip<T>(xs: seq<T>, p: T -> bool)
    requires |xs| > 0 && !p(xs[0])
    ensures ExactlyOne(xs, p) <==> ExactlyOne(xs[1..], p)
  {
    var t := xs[1..];
    if ExactlyOne(xs, p) {
      var i :| 0 <= i < |xs| && p(xs[i]) && forall j :: 0 <= j < |xs| && j != i ==> !p(xs[j]);
      forall j | 0 <= j < |t| && j != i - 1 ensures !p(t[j]) {
        assert t[j] == xs[j + 1];
      }
      assert t[i - 1] == xs[i];
    }
    if ExactlyOne(t, p) {
      var i :| 0 <= i < |t| && p(t[i]) && forall j :: 0 <= j < |t| && j != i ==> !p(t[j]);
      forall j | 0 <= j < |xs| && j != i + 1 ensures !p(xs[j]) {
        if j > 0 { assert xs[j] == t[j - 1]; }
      }
      assert xs[i + 1] == t[i];
    }
  }

  /** Removing a later element keeps the head and removes it from the tail. */
  lemma RemoveAtTail<T>(xs: seq<T>, k: nat)
    requires 0 < k < |xs|
    ensures var r := xs[..k] + xs[k + 1..]; |r| > 0 && r[0] == xs[0] && r[1..] == xs[1..][..k - 1] + xs[1..][k..]
  {
    var r := xs[..k] + xs[k + 1..];
    assert xs[..k] == [xs[0]] + xs[1..][..k - 1];
    assert xs[k + 1..] == xs[1..][k..];
  }

  /** Inserting `x` at position `k` shifts the later elements up by one. */
  lemma InsertAt<T>(xs: seq<T>, k: nat, x: T)
    requires k <= |xs|
    ensures |xs[..k] + [x] + xs[k..]| == |xs| + 1
    ensures (xs[..k] + [x] + xs[k..])[k] == x
    ensures forall i :: 0 <= i < k ==> (xs[..k] + [x] + xs[k..])[i] == xs[i]
    ensures forall i :: k < i <= |xs| ==> (xs[..k] + [x] + xs[k..])[i] == xs[i - 1]
  {
  }

  /** After inserting `x`, the elements are `x` and those of `xs`. */
  lemma InsertAtMembers<T>(xs: seq<T>, k: nat, x: T)
    requires k <= |xs|
    ensures forall y :: y in xs[..k] + [x] + xs[k..] <==> y == x || y in xs
  {
    InsertAt(xs, k, x);
    var ys := xs[..k] + [x] + xs[k..];
    forall y ensures y in ys <==> y == x || y in xs {
      if y in xs {
        var i :| 0 <= i < |xs| && xs[i] == y;
        if i < k { assert ys[i] == y; } else { assert ys[i + 1] == y; }
      }
      if y in ys {
        var i :| 0 <= i < |ys| && ys[i] == y;
        if i < k { assert xs[i] == y; } else if i > k { assert xs[i - 1] == y; }
      }
    }
  }
}

=== FILE: settings_context.dfy ===
/** The application-wide settings of the web client
    (src/contexts/SettingsContext.tsx): the `settings` key/value table read
    into typed fields, single-key updates, and the dark-mode switch kept in
    the browser's local storage. */
module SettingsContext {
  import opened Wrappers
  import opened WebModel

  datatype Settings = Settings(currency: string, maintenanceMode: bool, darkMode: bool, autoBackup: bool, loading: bool)

  /** The provider's state before anything is read. */
  const Initial: Settings := Settings("USD", false, false, true, true)

  // ---------------------------------------------------------------- flags

  /** `value === 'true'`. */
  function ParseFlag(value: string): (b: bool)
    ensures b <==> value == "true"
  {
    value == "true"
  }

  /** `bool.toString()`. */
  function ShowFlag(b: bool): (s: string)
    ensures b ==> s == "true"
    ensures !b ==> s == "false"
  {
    if b then "true" else "false"
  }

  /** Writing a flag and reading it back gives the flag; reading is exact,
      so other spellings of truth read as false, and only the two written
      forms survive a read and a write. */
  lemma FlagRoundTrip(b: bool, s: string)
    ensures ParseFlag(ShowFlag(b)) == b
    ensures ShowFlag(ParseFlag(s)) == s <==> s == "true" || s == "false"
    ensures !ParseFlag("True") && !ParseFlag("1") && !ParseFlag("TRUE") && !ParseFlag("yes")
  {
  }

  // ---------------------------------------------------------------- the table

  datatype SettingRow = SettingRow(key: string, value: string)

  /** The value of the last row with `key`, if any. */
  function LastValue(rows: seq<SettingRow>, key: string): (r: Option<string>)
    ensures r.None? <==> forall i :: 0 <= i < |rows| ==> rows[i].key != key
    ensures r.Some? ==> exists i :: 0 <= i < |rows| && rows[i] == SettingRow(key, r.value)
  {
    if |rows| == 0 then None
    else
      match LastValue(rows[1..], key)
      case Some(v) =>
        assert forall i :: 0 <= i < |rows[1..]| ==> rows[1..][i] == rows[i + 1];
        Some(v)
      case None =>
        if rows[0].key == key then Some(rows[0].value) else None
  }

  /** The table's content: one value per key. */
  type Table = map<string, string>

  /** `rows` is what `select('key, value')` may return for `table`: every
      row is an entry of the table, and every entry has a row. The order is
      not specified. */
  predicate Lists(rows: seq<SettingRow>, table: Table) {
    (forall i :: 0 <= i < |rows| ==> rows[i].key in table && table[rows[i].key] == rows[i].value)
    && (forall k :: k in table ==> exists i :: 0 <= i < |rows| && rows[i].key == k)
  }

  /** Whatever order the rows come in, the last value of a key is the
      table's value for it. */
  lemma ListedLastValue(rows: seq<SettingRow>, table: Table, key: string)
    requires Lists(rows, table)
    ensures LastValue(rows, key) == if key in table then Some(table[key]) else None
  {
    if key in table {
      var i :| 0 <= i < |rows| && rows[i].key == key;
    }
  }

  /** `upsert({ key, value })` on the `key` primary key. */
  function Upsert(table: Table, row: SettingRow): (t: Table)
    ensures row.key in t && t[row.key] == row.value
    ensures forall k :: k != row.key ==> (k in t <==> k in table)
    ensures forall k :: k != row.key && k in table ==> t[k] == table[k]
  {
    table[row.key := row.value]
  }

  // ---------------------------------------------------------------- reading

  /** The keys bound to a field; any other key is ignored. */
  const BoundKeys: seq<string> := ["currency", "maintenance_mode", "auto_backup"]

  /** One row of `fetchSettings`' loop: its key's field takes the value. */
  function ApplySetting(s: Settings, row: SettingRow): (t: Settings)
    ensures row.key == "currency" ==> t == s.(currency := row.value)
    ensures row.key == "maintenance_mode" ==> t == s.(maintenanceMode := ParseFlag(row.value))
    ensures row.key == "auto_backup" ==> t == s.(autoBackup := ParseFlag(row.value))
    ensures row.key !in BoundKeys ==> t == s
  {
    match row.key
    case "currency" => s.(currency := row.value)
    case "maintenance_mode" => s.(maintenanceMode := ParseFlag(row.value))
    case "auto_backup" => s.(autoBackup := ParseFlag(row.value))
    case _ => s
  }

  /** `data.forEach(...)`: the rows in order. */
  function ApplyAll(s: Settings, rows: seq<SettingRow>): Settings
    decreases |rows|
  {
    if |rows| == 0 then s else ApplyAll(ApplySetting(s, rows[0]), rows[1..])
  }

  /** A flag's new value: the stored one parsed, or the old one without a row. */
  function FlagOr(v: Option<string>, previous: bool): bool {
    match v
    case Some(x) => ParseFlag(x)
    case None => previous
  }

  /** `fetchSettings`: a failed or empty read only ends loading. */
  function FetchSettings(s: Settings, fetched: Result<Option<seq<SettingRow>>>): (t: Settings)
    ensures !t.loading
    ensures fetched.Err? || fetched.value.None? ==> t == s.(loading := false)
  {
    match fetched
    case Ok(Some(rows)) => ApplyAll(s, rows).(loading := false)
    case _ => s.(loading := false)
  }

  lemma ApplyAllLastWins(s: Settings, rows: seq<SettingRow>)
    ensures ApplyAll(s, rows).currency == LastValue(rows, "currency").GetOr(s.currency)
    ensures ApplyAll(s, rows).maintenanceMode == FlagOr(LastValue(rows, "maintenance_mode"), s.maintenanceMode)
    ensures ApplyAll(s, rows).autoBackup == FlagOr(LastValue(rows, "auto_backup"), s.autoBackup)
    ensures ApplyAll(s, rows).darkMode == s.darkMode && ApplyAll(s, rows).loading == s.loading
  {
    CurrencyLastWins(s, rows);
    MaintenanceLastWins(s, rows);
    AutoBackupLastWins(s, rows);
    UnreadFieldsKept(s, rows);
  }

  lemma {:induction false} CurrencyLastWins(s: Settings, rows: seq<SettingRow>)
    ensures ApplyAll(s, rows).currency == LastValue(rows, "currency").GetOr(s.currency)
    decreases |rows|
  {
    if |rows| > 0 {
      CurrencyLastWins(ApplySetting(s, rows[0]), rows[1..]);
    }
  }

  lemma {:induction false} MaintenanceLastWins(s: Settings, rows: seq<SettingRow>)
    ensures ApplyAll(s, rows).maintenanceMode == FlagOr(LastValue(rows, "maintenance_mode"), s.maintenanceMode)
    decreases |rows|
  {
    if |rows| > 0 {
      MaintenanceLastWins(ApplySetting(s, rows[0]), rows[1..]);
    }
  }

  lemma {:induction false} AutoBackupLastWins(s: Settings, rows: seq<SettingRow>)
    ensures ApplyAll(s, rows).autoBackup == FlagOr(LastValue(rows, "auto_backup"), s.autoBackup)
    decreases |rows|
  {
    if |rows| > 0 {
      AutoBackupLastWins(ApplySetting(s, rows[0]), rows[1..]);
    }
  }

  lemma {:induction false} UnreadFieldsKept(s: Settings, rows: seq<SettingRow>)
    ensures ApplyAll(s, rows).darkMode == s.darkMode && ApplyAll(s, rows).loading == s.loading
    decreases |rows|
  {
    if |rows| > 0 {
      UnreadFieldsKept(ApplySetting(s, rows[0]), rows[1..]);
    }
  }

  /** Each bound field takes the value of the last row with its key and
      keeps its value when there is none; dark mode is not read from the
      table. */
  lemma FetchSettingsLastWins(s: Settings, rows: seq<SettingRow>)
    ensures var t := FetchSettings(s, Ok(Some(rows)));
      t.currency == LastValue(rows, "currency").GetOr(s.currency) && t.darkMode == s.darkMode
    ensures var t := FetchSettings(s, Ok(Some(rows)));
      t.maintenanceMode == FlagOr(LastValue(rows, "maintenance_mode"), s.maintenanceMode)
    ensures var t := FetchSettings(s, Ok(Some(rows)));
      t.autoBackup == FlagOr(LastValue(rows, "auto_backup"), s.autoBackup)
  {
    ApplyAllLastWins(s, rows);
  }

  // ---------------------------------------------------------------- updating

  datatype Toast = Saved | Failed(message: string)

  datatype UpdateOutcome = UpdateOutcome(settings: Settings, write: SettingRow, toast: Toast)

  const UpdateFailed: string := "Failed to update settings."

  /** `updateSetting`: one upsert; only once it succeeds does the field
      bound to the key change. */
  function UpdateSetting(s: Settings, key: string, value: string, writeError: Option<string>): (o: UpdateOutcome)
    ensures o.write == SettingRow(key, value)
    ensures writeError.Some? ==> o.settings == s && o.toast == Failed(OrElse(writeError, UpdateFailed))
    ensures writeError.None? ==> o.toast == Saved
    ensures writeError.None? ==> o.settings == ApplySetting(s, SettingRow(key, value))
  {
    var row := SettingRow(key, value);
    if writeError.Some? then UpdateOutcome(s, row, Failed(OrElse(writeError, UpdateFailed)))
    else UpdateOutcome(ApplySetting(s, row), row, Saved)
  }

  /** An update that succeeded is what the next read of the table shows:
      reading any listing of the upserted table gives the updated field the
      value the update gave it, whatever state the reader started from. */
  lemma UpdateThenFetchAgrees(s: Settings, r: Settings, table: Table, key: string, value: string, rows: seq<SettingRow>)
    requires key in BoundKeys
    requires Lists(rows, Upsert(table, SettingRow(key, value)))
    ensures var u := UpdateSetting(s, key, value, None).settings;
      var t := FetchSettings(r, Ok(Some(rows)));
      (key == "currency" ==> t.currency == u.currency)
      && (key == "maintenance_mode" ==> t.maintenanceMode == u.maintenanceMode)
      && (key == "auto_backup" ==> t.autoBackup == u.autoBackup)
  {
    ListedLastValue(rows, Upsert(table, SettingRow(key, value)), key);
    FetchSettingsLastWins(r, rows);
  }

  // ---------------------------------------------------------------- dark mode

  /** The two pieces of browser state dark mode uses: the `darkMode` item
      of local storage and the `dark` class of the document element. */
  datatype Browser = Browser(stored: Option<string>, darkClass: bool)

  datatype View = View(settings: Settings, browser: Browser)

  /** The mount effect: dark mode is on exactly when storage holds "true";
      the class is added then, and otherwise left as it was. */
  function Mount(s: Settings, b: Browser): (v: View)
    ensures v.settings == s.(darkMode := b.stored == Some("true"))
    ensures v.browser.stored == b.stored
    ensures v.browser.darkClass <==> b.darkClass || b.stored == Some("true")
  {
    var saved := match b.stored case Some(x) => ParseFlag(x) case None => false;
    View(s.(darkMode := saved), b.(darkClass := b.darkClass || saved))
  }

  /** `toggleDarkMode`: flips the mode, stores it, and sets the class to match. */
  function ToggleDarkMode(s: Settings, b: Browser): (v: View)
    ensures v.settings == s.(darkMode := !s.darkMode)
    ensures v.browser.stored == Some(ShowFlag(!s.darkMode))
    ensures v.browser.darkClass == !s.darkMode
  {
    var newDarkMode := !s.darkMode;
    View(s.(darkMode := newDarkMode), Browser(Some(ShowFlag(newDarkMode)), newDarkMode))
  }

  /** Two toggles restore the mode and leave the class matching it, and the
      stored flag is read back as the mode on the next mount. */
  lemma DarkModeRoundTrip(s: Settings, b: Browser, later: Settings, page: Browser)
    ensures var once := ToggleDarkMode(s, b);
      var twice := ToggleDarkMode(once.settings, once.browser);
      twice.settings == s && twice.browser.darkClass == s.darkMode
    ensures var once := ToggleDarkMode(s, b);
      Mount(later, page.(stored := once.browser.stored)).settings.darkMode == once.settings.darkMode
  {
    FlagRoundTrip(!s.darkMode, "");
  }
}

=== FILE: system_settings.dfy ===
/** The administrator's system settings page of the web client
    (src/pages/admin/SystemSettings.tsx): a twelve-field form of which
    three fields are read from and saved to the `settings` table. */
module SystemSettings {
  import opened Wrappers
  import opened WebModel
  import SettingsContext

  /** What `parseInt` gives for a number input: an integer or NaN. */
  datatype ParsedInt = Int(value: int) | NotANumber

  datatype SettingsForm = SettingsForm(
    siteName: string, siteUrl: string,
    emailNotifications: bool, smsNotifications: bool, maintenanceMode: bool, autoBackup: bool,
    sessionTimeout: ParsedInt, maxBookingsPerUser: ParsedInt, defaultBookingDuration: ParsedInt,
    currency: string, timezone: string, language: string)

  const InitialForm: SettingsForm := SettingsForm(
    "SmartDrive", "https://smartdrive.com",
    true, false, false, true,
    Int(30), Int(5), Int(24),
    "USD", "UTC", "English")

  // ---------------------------------------------------------------- loading

  type Row = SettingsContext.SettingRow

  /** `reduce((acc, s) => { acc[s.key] = s.value; ... }, acc)`, from the left. */
  function MapFrom(acc: map<string, string>, rows: seq<Row>): map<string, string>
    decreases |rows|
  {
    if |rows| == 0 then acc else MapFrom(acc[rows[0].key := rows[0].value], rows[1..])
  }

  /** `settingsMap`: a missing result gives the empty map. */
  function SettingsMap(data: Option<seq<Row>>): map<string, string> {
    match data
    case None => map[]
    case Some(rows) => MapFrom(map[], rows)
  }

  /** `settingsMap[key]`, absent as `None`. */
  function Get(m: map<string, string>, key: string): Option<string> {
    if key in m then Some(m[key]) else None
  }

  lemma {:induction false} MapFromLastWins(acc: map<string, string>, rows: seq<Row>, key: string)
    ensures Get(MapFrom(acc, rows), key) == match SettingsContext.LastValue(rows, key)
      case Some(v) => Some(v)
      case None => Get(acc, key)
    decreases |rows|
  {
    if |rows| > 0 {
      MapFromLastWins(acc[rows[0].key := rows[0].value], rows[1..], key);
    }
  }

  /** The map holds, for each key, the value of the last row with it: the
      same value the application-wide settings take from the same rows. */
  lemma SettingsMapLastWins(rows: seq<Row>, key: string)
    ensures Get(SettingsMap(Some(rows)), key) == SettingsContext.LastValue(rows, key)
  {
    MapFromLastWins(map[], rows, key);
  }

  /** `loadSettings`: currency, maintenance mode and automatic backup from
      the table; a failed read changes nothing. */
  function LoadSettings(form: SettingsForm, fetched: Result<Option<seq<Row>>>): (r: SettingsForm)
    ensures fetched.Err? ==> r == form
    ensures fetched.Ok? ==> r == form.(currency := r.currency, maintenanceMode := r.maintenanceMode, autoBackup := r.autoBackup)
    ensures fetched.Ok? ==> r.currency == OrElse(Get(SettingsMap(fetched.value), "currency"), form.currency)
    ensures fetched.Ok? ==> (r.maintenanceMode <==> Get(SettingsMap(fetched.value), "maintenance_mode") == Some("true"))
    ensures fetched.Ok? ==> (r.autoBackup <==> Get(SettingsMap(fetched.value), "auto_backup") == Some("true"))
  {
    match fetched
    case Err(_) => form
    case Ok(data) =>
      var m := SettingsMap(data);
      form.(currency := OrElse(Get(m, "currency"), form.currency),
            maintenanceMode := Get(m, "maintenance_mode") == Some("true"),
            autoBackup := Get(m, "auto_backup") == Some("true"))
  }

  /** Unlike the currency, which is kept when its row is missing or empty,
      the two flags are switched off when their rows are missing; the
      application-wide settings keep them instead. */
  lemma MissingRowsDiffer(form: SettingsForm, s: SettingsContext.Settings)
    requires form.maintenanceMode && s.maintenanceMode
    ensures LoadSettings(form, Ok(Some([]))).currency == form.currency
    ensures LoadSettings(form, Ok(Some([SettingsContext.SettingRow("currency", "")]))).currency == form.currency
    ensures !LoadSettings(form, Ok(Some([]))).maintenanceMode
    ensures SettingsContext.FetchSettings(s, Ok(Some([]))).maintenanceMode
  {
    SettingsMapLastWins([SettingsContext.SettingRow("currency", "")], "currency");
  }

  /** When a row for each flag is present, the page and the
      application-wide settings read the same flags from the same rows. */
  lemma FlagsAgreeWithContext(form: SettingsForm, s: SettingsContext.Settings, rows: seq<Row>)
    requires SettingsContext.LastValue(rows, "maintenance_mode").Some?
    requires SettingsContext.LastValue(rows, "auto_backup").Some?
    ensures LoadSettings(form, Ok(Some(rows))).maintenanceMode == SettingsContext.FetchSettings(s, Ok(Some(rows))).maintenanceMode
    ensures LoadSettings(form, Ok(Some(rows))).autoBackup == SettingsContext.FetchSettings(s, Ok(Some(rows))).autoBackup
  {
    SettingsMapLastWins(rows, "maintenance_mode");
    SettingsMapLastWins(rows, "auto_backup");
    SettingsContext.FetchSettingsLastWins(s, rows);
  }

  // ---------------------------------------------------------------- editing

  /** The twelve fields a control can change. */
  datatype Field =
    | SiteName | SiteUrl | EmailNotifications | SmsNotifications | MaintenanceMode | AutoBackup
    | SessionTimeout | MaxBookingsPerUser | DefaultBookingDuration | Currency | Timezone | Language

  /** A field's value. */
  datatype FieldValue = Text(text: string) | Flag(flag: bool) | Number(number: ParsedInt)

  /** A control's `handleSettingChange(key, value)` call. */
  datatype Change = Change(field: Field, value: FieldValue)

  /** The value of one field of the form. */
  function Read(form: SettingsForm, field: Field): FieldValue {
    match field
    case SiteName => Text(form.siteName)
    case SiteUrl => Text(form.siteUrl)
    case EmailNotifications => Flag(form.emailNotifications)
    case SmsNotifications => Flag(form.smsNotifications)
    case MaintenanceMode => Flag(form.maintenanceMode)
    case AutoBackup => Flag(form.autoBackup)
    case SessionTimeout => Number(form.sessionTimeout)
    case MaxBookingsPerUser => Number(form.maxBookingsPerUser)
    case DefaultBookingDuration => Number(form.defaultBookingDuration)
    case Currency => Text(form.currency)
    case Timezone => Text(form.timezone)
    case Language => Text(form.language)
  }

  /** The kind of value each control sends for its field. */
  predicate WellTyped(c: Change) {
    match c.field
    case EmailNotifications | SmsNotifications | MaintenanceMode | AutoBackup => c.value.Flag?
    case SessionTimeout | MaxBookingsPerUser | DefaultBookingDuration => c.value.Number?
    case _ => c.value.Text?
  }

  /** `handleSettingChange`: the named field takes the value; every other
      field keeps its own. */
  function HandleSettingChange(form: SettingsForm, c: Change): (r: SettingsForm)
    requires WellTyped(c)
    ensures Read(r, c.field) == c.value
    ensures forall f :: f != c.field ==> Read(r, f) == Read(form, f)
  {
    match c.field
    case SiteName => form.(siteName := c.value.text)
    case SiteUrl => form.(siteUrl := c.value.text)
    case EmailNotifications => form.(emailNotifications := c.value.flag)
    case SmsNotifications => form.(smsNotifications := c.value.flag)
    case MaintenanceMode => form.(maintenanceMode := c.value.flag)
    case AutoBackup => form.(autoBackup := c.value.flag)
    case SessionTimeout => form.(sessionTimeout := c.value.number)
    case MaxBookingsPerUser => form.(maxBookingsPerUser := c.value.number)
    case DefaultBookingDuration => form.(defaultBookingDuration := c.value.number)
    case Currency => form.(currency := c.value.text)
    case Timezone => form.(timezone := c.value.text)
    case Language => form.(language := c.value.text)
  }

  /** Two forms with the same value in every field are the same form. */
  lemma {:induction false} ReadDetermines(a: SettingsForm, b: SettingsForm)
    requires forall f :: Read(a, f) == Read(b, f)
    ensures a == b
  {
    assert Read(a, SiteName) == Read(b, SiteName) && Read(a, SiteUrl) == Read(b, SiteUrl);
    assert Read(a, EmailNotifications) == Read(b, EmailNotifications) && Read(a, SmsNotifications) == Read(b, SmsNotifications);
    assert Read(a, MaintenanceMode) == Read(b, MaintenanceMode) && Read(a, AutoBackup) == Read(b, AutoBackup);
    assert Read(a, SessionTimeout) == Read(b, SessionTimeout) && Read(a, MaxBookingsPerUser) == Read(b, MaxBookingsPerUser);
    assert Read(a, DefaultBookingDuration) == Read(b, DefaultBookingDuration) && Read(a, Currency) == Read(b, Currency);
    assert Read(a, Timezone) == Read(b, Timezone) && Read(a, Language) == Read(b, Language);
  }

  /** Changes to different fields commute. */
  lemma ChangesCommute(form: SettingsForm, c1: Change, c2: Change)
    requires WellTyped(c1) && WellTyped(c2) && c1.field != c2.field
    ensures HandleSettingChange(HandleSettingChange(form, c1), c2) == HandleSettingChange(HandleSettingChange(form, c2), c1)
  {
    var m1 := HandleSettingChange(form, c1);
    var m2 := HandleSettingChange(form, c2);
    var a := HandleSettingChange(m1, c2);
    var b := HandleSettingChange(m2, c1);
    forall f ensures Read(a, f) == Read(b, f) {
      if f == c1.field {
        assert Read(a, f) == Read(m1, f) == c1.value;
      } else if f == c2.field {
        assert Read(b, f) == Read(m2, f) == c2.value;
      } else {
        assert Read(a, f) == Read(m1, f) == Read(form, f);
      }
    }
    ReadDetermines(a, b);
  }

  /** Of two changes to one field, the later one wins. */
  lemma LaterChangeWins(form: SettingsForm, c1: Change, c2: Change)
    requires WellTyped(c1) && WellTyped(c2) && c1.field == c2.field
    ensures HandleSettingChange(HandleSettingChange(form, c1), c2) == HandleSettingChange(form, c2)
  {
    var a := HandleSettingChange(HandleSettingChange(form, c1), c2);
    var b := HandleSettingChange(form, c2);
    forall f ensures Read(a, f) == Read(b, f) {
    }
    ReadDetermines(a, b);
  }

  // ---------------------------------------------------------------- saving

  /** `settingsToUpdate`: the three bound fields, flags as 'true'/'false'. */
  function SaveRows(form: SettingsForm): (rows: seq<Row>)
    ensures |rows| == 3
    ensures rows[0] == SettingsContext.SettingRow("currency", form.currency)
    ensures SettingsContext.ParseFlag(rows[1].value) == form.maintenanceMode && rows[1].key == "maintenance_mode"
    ensures SettingsContext.ParseFlag(rows[2].value) == form.autoBackup && rows[2].key == "auto_backup"
  {
    [SettingsContext.SettingRow("currency", form.currency),
     SettingsContext.SettingRow("maintenance_mode", SettingsContext.ShowFlag(form.maintenanceMode)),
     SettingsContext.SettingRow("auto_backup", SettingsContext.ShowFlag(form.autoBackup))]
  }

  const SaveFailed: string := "Failed to save settings."

  datatype SaveOutcome = SaveOutcome(writes: seq<Row>, table: SettingsContext.Table, toast: SettingsContext.Toast)

  /** `handleSave`: the three upserts in order, the i-th answered by
      `respond(i)`; the first failure stops the loop and its message (or
      the fallback) is shown. Each upsert that succeeded is in the table. */
  method HandleSave(form: SettingsForm, table: SettingsContext.Table, respond: nat -> Option<string>) returns (o: SaveOutcome)
    ensures 1 <= |o.writes| <= 3 && o.writes == SaveRows(form)[..|o.writes|]
    ensures forall i :: 0 <= i < |o.writes| - 1 ==> respond(i).None?
    ensures o.toast.Saved? <==> forall i :: 0 <= i < 3 ==> respond(i).None?
    ensures o.toast.Saved? ==> o.table == Applied(table, SaveRows(form))
    ensures o.toast.Failed? ==> var k := |o.writes| - 1;
      respond(k).Some? && o.toast.message == OrElse(respond(k), SaveFailed) && o.table == Applied(table, SaveRows(form)[..k])
  {
    var rows := SaveRows(form);
    var t := table;
    var i := 0;
    while i < |rows|
      invariant 0 <= i <= |rows|
      invariant forall j :: 0 <= j < i ==> respond(j).None?
      invariant t == Applied(table, rows[..i])
    {
      var error := respond(i);
      if error.Some? {
        o := SaveOutcome(rows[..i + 1], t, SettingsContext.Failed(OrElse(error, SaveFailed)));
        StoppedSave(rows, i, o);
        return;
      }
      AppliedPrefix(table, rows, i);
      t := t[rows[i].key := rows[i].value];
      i := i + 1;
    }
    AppliedPrefix(table, rows, |rows|);
    return SaveOutcome(rows, t, SettingsContext.Saved);
  }

  /** One more row of the same list is one more upsert; all of its rows
      are the whole list. */
  lemma AppliedPrefix(table: SettingsContext.Table, rows: seq<Row>, i: nat)
    requires i <= |rows|
    ensures i < |rows| ==> Applied(table, rows[..i + 1]) == Applied(table, rows[..i])[rows[i].key := rows[i].value]
    ensures i == |rows| ==> Applied(table, rows[..i]) == Applied(table, rows)
  {
    if i < |rows| {
      AppliedStep(table, rows[..i], rows[i]);
      assert rows[..i + 1] == rows[..i] + [rows[i]];
    } else {
      assert rows[..i] == rows;
    }
  }

  /** The writes of a save stopped by the `i`-th upsert are the rows up to
      and including it. */
  lemma StoppedSave(rows: seq<Row>, i: nat, o: SaveOutcome)
    requires i < |rows| && o.writes == rows[..i + 1]
    ensures 1 <= |o.writes| <= |rows| && o.writes == rows[..|o.writes|] && |o.writes| - 1 == i
  {
  }

  /** The table after a sequence of successful upserts. */
  function Applied(table: SettingsContext.Table, rows: seq<Row>): SettingsContext.Table
    decreases |rows|
  {
    if |rows| == 0 then table else SettingsContext.Upsert(Applied(table, rows[..|rows| - 1]), rows[|rows| - 1])
  }

  lemma AppliedStep(table: SettingsContext.Table, rows: seq<Row>, row: Row)
    ensures Applied(table, rows + [row]) == SettingsContext.Upsert(Applied(table, rows), row)
  {
    assert (rows + [row])[..|rows|] == rows;
  }

  /** The table after the three upserts of a save. */
  lemma SavedTable(table: SettingsContext.Table, form: SettingsForm)
    ensures var saved := Applied(table, SaveRows(form));
      "currency" in saved && "maintenance_mode" in saved && "auto_backup" in saved
    ensures var saved := Applied(table, SaveRows(form));
      saved["currency"] == form.currency && saved["maintenance_mode"] == SaveRows(form)[1].value && saved["auto_backup"] == SaveRows(form)[2].value
  {
    var s := SaveRows(form);
    assert s[..2][..1] == s[..1] && s[..1][..0] == [] && s[..3] == s;
    assert s[..1][0] == s[0] && s[..2][1] == s[1];
    assert Applied(table, []) == table;
    var t1 := Applied(table, s[..1]);
    assert t1 == SettingsContext.Upsert(table, s[0]);
    var t2 := Applied(table, s[..2]);
    assert t2 == SettingsContext.Upsert(t1, s[1]);
    assert Applied(table, s) == SettingsContext.Upsert(t2, s[2]);
  }

  /** A save that succeeded and a later load restore the three saved fields
      (the currency unless it is empty, which a load treats as missing),
      whatever order the table's rows are read in. */
  lemma SaveThenLoad(form: SettingsForm, table: SettingsContext.Table, saved: SettingsContext.Table, other: SettingsForm, rows: seq<Row>)
    requires saved == Applied(table, SaveRows(form))
    requires SettingsContext.Lists(rows, saved)
    ensures var r := LoadSettings(other, Ok(Some(rows)));
      r.maintenanceMode == form.maintenanceMode && r.autoBackup == form.autoBackup
    ensures form.currency != "" ==> LoadSettings(other, Ok(Some(rows))).currency == form.currency
  {
    SavedTable(table, form);
    SettingsContext.ListedLastValue(rows, saved, "currency");
    SettingsContext.ListedLastValue(rows, saved, "maintenance_mode");
    SettingsContext.ListedLastValue(rows, saved, "auto_backup");
    SettingsMapLastWins(rows, "currency");
    SettingsMapLastWins(rows, "maintenance_mode");
    SettingsMapLastWins(rows, "auto_backup");
  }
}

=== FILE: text.dfy ===
/** String helpers shared by both clients: blank tests (Kotlin `isBlank`),
    ASCII case mapping (`uppercase`, `toUpperCase`, `toLowerCase`), substring
    search (`includes`), `trim`, `split(',')`, `join`, and the lexicographic
    order of `String.compareTo`. Case mapping covers ASCII letters only. */
module Text {
  import Seqs

  /** Unicode general categories Zs, Zl and Zp (space, line and paragraph separators). */
  predicate IsSeparator(c: char) {
    c == ' ' || c == '\U{A0}' || c == '\U{1680}' || '\U{2000}' <= c <= '\U{200A}' ||
    c == '\U{2028}' || c == '\U{2029}' || c == '\U{202F}' || c == '\U{205F}' || c == '\U{3000}'
  }

  /** Kotlin `Char.isWhitespace()` on the JVM: `Character.isWhitespace`
      (tab to carriage return, U+001C to U+001F, separators) or
      `Character.isSpaceChar` (separators, the no-break ones included). */
  predicate IsKotlinSpace(c: char) {
    '\t' <= c <= '\r' || '\U{1C}' <= c <= '\U{1F}' || IsSeparator(c)
  }

  /** ECMAScript WhiteSpace and LineTerminator, the characters `trim()` removes. */
  predicate IsSpace(c: char) {
    '\t' <= c <= '\r' || c == '\U{FEFF}' || IsSeparator(c)
  }

  /** Kotlin `String.length`: the number of UTF-16 code units, two for a
      character outside the Basic Multilingual Plane (a surrogate pair). */
  function Utf16Length(s: string): (n: nat)
    ensures |s| <= n <= 2 * |s|
    ensures n == |s| <==> forall i :: 0 <= i < |s| ==> s[i] < '\U{10000}'
  {
    if |s| == 0 then 0
    else (if s[0] < '\U{10000}' then 1 else 2) + Utf16Length(s[1..])
  }

  /** Kotlin `isBlank()`: empty or whitespace only. */
  predicate IsBlank(s: string) {
    forall i :: 0 <= i < |s| ==> IsKotlinSpace(s[i])
  }

  function ToUpperChar(c: char): (u: char)
    ensures 'a' <= c <= 'z' ==> 'A' <= u <= 'Z' && u as int - c as int == 'A' as int - 'a' as int
    ensures !('a' <= c <= 'z') ==> u == c
  {
    if 'a' <= c <= 'z' then (c as int - 'a' as int + 'A' as int) as char else c
  }

  function ToLowerChar(c: char): (l: char)
    ensures 'A' <= c <= 'Z' ==> 'a' <= l <= 'z' && l as int - c as int == 'a' as int - 'A' as int
    ensures !('A' <= c <= 'Z') ==> l == c
  {
    if 'A' <= c <= 'Z' then (c as int - 'A' as int + 'a' as int) as char else c
  }

  /** `toLowerCase()`. */
  function Lower(s: string): (r: string)
    ensures |r| == |s|
    ensures forall i :: 0 <= i < |s| ==> r[i] == ToLowerChar(s[i])
  {
    seq(|s|, i requires 0 <= i < |s| => ToLowerChar(s[i]))
  }

  /** Kotlin `replaceFirstChar { it.uppercase() }` and JavaScript
      `charAt(0).toUpperCase() + slice(1)`: the first character upper-cased,
      the rest unchanged. */
  function UpperFirst(s: string): (r: string)
    ensures |r| == |s|
    ensures |s| > 0 ==> r[0] == ToUpperChar(s[0]) && r[1..] == s[1..]
  {
    if |s| == 0 then s else [ToUpperChar(s[0])] + s[1..]
  }

  /** Kotlin `take(n)`. */
  function Take(s: string, n: nat): (r: string)
    ensures |r| == if n < |s| then n else |s|
    ensures r <= s
  {
    if n < |s| then s[..n] else s
  }

  /** JavaScript `includes`: `needle` occurs in `hay` at some position. */
  predicate Contains(hay: string, needle: string) {
    exists i :: 0 <= i <= |hay| && needle <= hay[i..]
  }

  /** The empty string occurs in every string. */
  lemma ContainsEmpty(hay: string)
    ensures Contains(hay, "")
  {
    assert "" <= hay[0..];
  }

  /** The number of leading whitespace characters. */
  function LeadingSpaces(s: string): (k: nat)
    ensures k <= |s|
    ensures forall i :: 0 <= i < k ==> IsSpace(s[i])
    ensures k < |s| ==> !IsSpace(s[k])
  {
    Seqs.IndexOfFirst(s, c => !IsSpace(c))
  }

  /** The length of `s` without its trailing whitespace. */
  function EndWithoutSpaces(s: string): (e: nat)
    ensures e <= |s|
    ensures forall i :: e <= i < |s| ==> IsSpace(s[i])
    ensures e > 0 ==> !IsSpace(s[e - 1])
  {
    if |s| == 0 || !IsSpace(s[|s| - 1]) then |s| else EndWithoutSpaces(s[..|s| - 1])
  }

  /** Neither starts nor ends with whitespace. */
  predicate IsTrimmed(s: string) {
    |s| == 0 || (!IsSpace(s[0]) && !IsSpace(s[|s| - 1]))
  }

  /** JavaScript `trim()`: `s` without leading and trailing whitespace. */
  function Trim(s: string): (r: string)
    ensures IsTrimmed(r)
  {
    var t := s[LeadingSpaces(s)..];
    t[..EndWithoutSpaces(t)]
  }

  /** Trimming a trimmed string changes nothing. */
  lemma TrimTrimmed(s: string)
    requires IsTrimmed(s)
    ensures Trim(s) == s
  {
  }

  /** Trimming removes a leading space in front of a trimmed string. */
  lemma TrimSpacePrefix(s: string)
    requires IsTrimmed(s)
    ensures Trim(" " + s) == s
  {
    var t := " " + s;
    if |s| == 0 {
      assert LeadingSpaces(t) == 1;
    } else {
      assert LeadingSpaces(t) == 1;
      assert t[1..] == s;
    }
  }

  predicate IsComma(c: char) { c == ',' }

  /** JavaScript `split(',')`: the comma-free pieces between commas. */
  function Split(s: string): (r: seq<string>)
    ensures |r| >= 1
    ensures forall i :: 0 <= i < |r| ==> ',' !in r[i]
    decreases |s|
  {
    var i := Seqs.IndexOfFirst(s, IsComma);
    if i < |s| then [s[..i]] + Split(s[i + 1..]) else [s]
  }

  /** `join(sep)`: the pieces with `sep` between consecutive ones. */
  function Join(xs: seq<string>, sep: string): string
  {
    if |xs| == 0 then ""
    else if |xs| == 1 then xs[0]
    else xs[0] + sep + Join(xs[1..], sep)
  }

  /** Each piece with a leading space, as it follows a `", "` separator. */
  function SpacePrefixed(xs: seq<string>): (r: seq<string>)
    ensures |r| == |xs|
    ensures forall i :: 0 <= i < |xs| ==> r[i] == " " + xs[i]
  {
    if |xs| == 0 then [] else [" " + xs[0]] + SpacePrefixed(xs[1..])
  }

  /** Splitting `p + Join(xs, ", ")` on commas gives `p + xs[0]` followed by
      the other pieces, each with the space that followed its comma. */
  lemma {:induction false} SplitJoin(p: string, xs: seq<string>)
    requires |xs| >= 1
    requires ',' !in p
    requires forall i :: 0 <= i < |xs| ==> ',' !in xs[i]
    ensures Split(p + Join(xs, ", ")) == [p + xs[0]] + SpacePrefixed(xs[1..])
    decreases |xs|
  {
    var s := p + Join(xs, ", ");
    if |xs| == 1 {
      assert s == p + xs[0];
      SplitNoComma(s);
    } else {
      var head := p + xs[0];
      var tail := " " + Join(xs[1..], ", ");
      assert s == head + "," + tail;
      SplitAtFirstComma(head, tail);
      SplitJoin(" ", xs[1..]);
      assert xs[1..][1..] == xs[2..];
    }
  }

  /** A string without a comma splits into itself. */
  lemma SplitNoComma(s: string)
    requires ',' !in s
    ensures Split(s) == [s]
  {
    Seqs.IndexOfFirstUnique(s, IsComma, |s|);
  }

  /** Splitting at the first comma: the text before it, then the split of the rest. */
  lemma SplitAtFirstComma(head: string, tail: string)
    requires ',' !in head
    ensures Split(head + "," + tail) == [head] + Split(tail)
  {
    var s := head + "," + tail;
    assert s[|head|] == ',';
    assert forall j :: 0 <= j < |head| ==> s[j] == head[j];
    Seqs.IndexOfFirstUnique(s, IsComma, |head|);
    assert s[..|head|] == head;
    assert s[|head| + 1..] == tail;
  }

  /** Kotlin `String.compareTo(...) < 0`: lexicographic order by character code. */
  predicate LexLess(a: string, b: string)
    decreases |a|
  {
    if |a| == 0 then |b| > 0
    else if |b| == 0 then false
    else if a[0] != b[0] then a[0] < b[0]
    else LexLess(a[1..], b[1..])
  }

  /** Two distinct strings are ordered one way or the other, and never both. */
  lemma {:induction false} LexLessTotal(a: string, b: string)
    ensures a != b ==> LexLess(a, b) || LexLess(b, a)
    ensures !(LexLess(a, b) && LexLess(b, a))
    decreases |a|
  {
    if |a| > 0 && |b| > 0 && a[0] == b[0] {
      LexLessTotal(a[1..], b[1..]);
      if a != b {
        assert a == [a[0]] + a[1..] && b == [b[0]] + b[1..];
      }
    }
  }

  lemma {:induction false} LexLessTransitive(a: string, b: string, c: string)
    requires LexLess(a, b) && LexLess(b, c)
    ensures LexLess(a, c)
    decreases |a|
  {
    if |a| > 0 && a[0] == b[0] && b[0] == c[0] {
      LexLessTransitive(a[1..], b[1..], c[1..]);
    }
  }

  /** "Not less than" is transitive too: it is the reverse of a total order. */
  lemma LexNotLessTransitive(a: string, b: string, c: string)
    requires !LexLess(a, b) && !LexLess(b, c)
    ensures !LexLess(a, c)
  {
    if LexLess(a, c) {
      LexLessTotal(a, b);
      LexLessTotal(b, c);
      LexLessTotal(a, c);
      if a != b && b != c {
        LexLessTransitive(c, b, a);
      }
    }
  }
}

=== FILE: user_management.dfy ===
/** The user administration page of the web client
    (src/pages/admin/UserManagement.tsx): loading profiles with the
    fallback for a missing `active` column, the email search, activation,
    and role editing. */
module UserManagement {
  import opened Wrappers
  import Seqs
  import Text
  import opened WebModel

  /** A profile row as the page reads it; `active` is absent when the
      column does not exist or is not set. */
  datatype ManagedUser = ManagedUser(id: string, email: string, role: string, active: Option<bool>, createdAt: string)

  /** `active !== false`: a user is active unless marked inactive. */
  predicate IsActive(u: ManagedUser) {
    u.active != Some(false)
  }

  // ---------------------------------------------------------------- loading

  const MissingActiveColumn: string := "column \"active\" does not exist"
  const LoadFailed: string := "Failed to load users."

  /** The rows of the fallback query, each marked active. */
  function MarkAllActive(users: seq<ManagedUser>): (r: seq<ManagedUser>)
    ensures |r| == |users|
    ensures forall i :: 0 <= i < |users| ==> r[i] == users[i].(active := Some(true))
  {
    seq(|users|, i requires 0 <= i < |users| => users[i].(active := Some(true)))
  }

  /** `fetchUsers`: the first query's rows; when it fails because the
      `active` column is missing, the fallback query's rows, all active;
      a remaining failure is reported with its message or the fallback. */
  function FetchUsers(first: Result<seq<ManagedUser>>, fallback: Result<seq<ManagedUser>>): (r: Result<seq<ManagedUser>>)
    ensures first.Ok? ==> r == first
    ensures first.Err? && !Text.Contains(first.message, MissingActiveColumn) ==> r == Err(OrElse(Some(first.message), LoadFailed))
    ensures first.Err? && Text.Contains(first.message, MissingActiveColumn) && fallback.Ok? ==> r == Ok(MarkAllActive(fallback.value))
    ensures first.Err? && Text.Contains(first.message, MissingActiveColumn) && fallback.Err? ==>
      r == Err(OrElse(Some(fallback.message), LoadFailed))
  {
    if first.Err? && Text.Contains(first.message, MissingActiveColumn) then
      match fallback
      case Ok(rows) => Ok(MarkAllActive(rows))
      case Err(m) => Err(OrElse(Some(m), LoadFailed))
    else
      match first
      case Ok(rows) => Ok(rows)
      case Err(m) => Err(OrElse(Some(m), LoadFailed))
  }

  /** After the fallback every user is active, and the users are those of
      the fallback query, in order. */
  lemma FallbackUsersAreActive(first: Result<seq<ManagedUser>>, rows: seq<ManagedUser>)
    requires first.Err? && Text.Contains(first.message, MissingActiveColumn)
    ensures FetchUsers(first, Ok(rows)).Ok?
    ensures forall i :: 0 <= i < |rows| ==> IsActive(FetchUsers(first, Ok(rows)).value[i])
    ensures forall i :: 0 <= i < |rows| ==>
      FetchUsers(first, Ok(rows)).value[i].id == rows[i].id && FetchUsers(first, Ok(rows)).value[i].email == rows[i].email
  {
  }

  // ---------------------------------------------------------------- search

  predicate MatchesSearch(u: ManagedUser, term: string) {
    Text.Contains(Text.Lower(u.email), Text.Lower(term))
  }

  /** `filteredUsers`: the users whose lower-cased email contains the
      lower-cased search term, in order. */
  function FilteredUsers(users: seq<ManagedUser>, term: string): (r: seq<ManagedUser>)
    ensures forall u :: u in r <==> u in users && MatchesSearch(u, term)
    ensures |r| <= |users|
  {
    Seqs.Filter(users, u => MatchesSearch(u, term))
  }

  /** The search keeps the list's order, and an empty term keeps everyone. */
  lemma SearchKeepsOrder(users: seq<ManagedUser>, term: string)
    ensures Seqs.IsSubsequence(FilteredUsers(users, term), users)
    ensures term == "" ==> FilteredUsers(users, term) == users
  {
    Seqs.FilterIsSubsequence(users, u => MatchesSearch(u, term));
    if term == "" {
      forall u: ManagedUser ensures MatchesSearch(u, term) {
        Text.ContainsEmpty(Text.Lower(u.email));
      }
      Seqs.FilterAll(users, u => MatchesSearch(u, term));
    }
  }

  /** The search ignores ASCII case: an email matches a term exactly when
      it matches the term upper- or lower-cased. */
  lemma SearchIgnoresCase(u: ManagedUser, term: string)
    ensures MatchesSearch(u, term) <==> MatchesSearch(u, Text.Lower(term))
  {
    LowerIdempotent(term);
  }

  lemma LowerIdempotent(s: string)
    ensures Text.Lower(Text.Lower(s)) == Text.Lower(s)
  {
  }

  // ---------------------------------------------------------------- activation

  /** The action the toggle button proposes. */
  function ToggleAction(currentlyActive: bool): (action: string)
    ensures action == "deactivate" <==> currentlyActive
    ensures action == "activate" <==> !currentlyActive
  {
    if currentlyActive then "deactivate" else "activate"
  }

  datatype ActiveUpdate = ActiveUpdate(userId: string, active: bool)

  /** Nothing asked (not confirmed), the column is missing, a failure with
      its message, or done. */
  datatype ToggleResult = NotConfirmed | FeatureUnavailable | ToggleFailed(message: string) | Toggled

  datatype ToggleOutcome = ToggleOutcome(result: ToggleResult, writes: seq<ActiveUpdate>)

  /** `toggleUserActivation`, called with `active !== false`: once
      confirmed, one update writing the opposite of the current state. */
  function ToggleUserActivation(u: ManagedUser, confirmed: bool, writeError: Option<string>): (o: ToggleOutcome)
    ensures !confirmed <==> o.result.NotConfirmed?
    ensures !confirmed ==> o.writes == []
    ensures confirmed ==> o.writes == [ActiveUpdate(u.id, !IsActive(u))]
    ensures o.result.Toggled? <==> confirmed && writeError.None?
    ensures o.result.FeatureUnavailable? <==> confirmed && writeError.Some? && Text.Contains(writeError.value, MissingActiveColumn)
    ensures o.result.ToggleFailed? ==> o.result.message == OrElse(writeError, "Failed to " + ToggleAction(IsActive(u)) + " user.")
  {
    if !confirmed then ToggleOutcome(NotConfirmed, [])
    else
      var write := [ActiveUpdate(u.id, !IsActive(u))];
      match writeError
      case None => ToggleOutcome(Toggled, write)
      case Some(m) =>
        if Text.Contains(m, MissingActiveColumn) then ToggleOutcome(FeatureUnavailable, write)
        else ToggleOutcome(ToggleFailed(OrElse(writeError, "Failed to " + ToggleAction(IsActive(u)) + " user.")), write)
  }

  /** A user whose `active` is unset is treated as active everywhere: the
      badge says "Active", the button deactivates, and the write sets
      `active` to false. */
  lemma UnsetMeansActive(u: ManagedUser)
    requires u.active.None?
    ensures StatusBadge(u) == "Active"
    ensures ToggleAction(IsActive(u)) == "deactivate"
    ensures ToggleUserActivation(u, true, None).writes == [ActiveUpdate(u.id, false)]
  {
  }

  /** The status badge text. */
  function StatusBadge(u: ManagedUser): (text: string)
    ensures text == "Active" <==> IsActive(u)
    ensures text == "Inactive" <==> !IsActive(u)
  {
    if IsActive(u) then "Active" else "Inactive"
  }

  const GreenBadge: string := "bg-green-100 text-green-800 dark:bg-green-900 dark:text-green-200"
  const RedBadge: string := "bg-red-100 text-red-800 dark:bg-red-900 dark:text-red-200"
  const BlueBadge: string := "bg-blue-100 text-blue-800 dark:bg-blue-900 dark:text-blue-200"

  /** `getStatusColor`: green for an active user, red otherwise. */
  function StatusColor(u: ManagedUser): (c: string)
    ensures IsActive(u) ==> c == GreenBadge
    ensures !IsActive(u) ==> c == RedBadge
  {
    if u.active != Some(false) then GreenBadge else RedBadge
  }

  /** The toggle button's caption. */
  function ToggleCaption(u: ManagedUser): (text: string)
    ensures text == "Deactivate" <==> IsActive(u)
    ensures text == "Activate" <==> !IsActive(u)
  {
    if u.active != Some(false) then "Deactivate" else "Activate"
  }

  /** The badge, its colour, the button and the action it confirms all
      follow the one `active !== false` test: an active user is shown
      green "Active" with "Deactivate", and the button's action is the
      caption lower-cased. */
  lemma RowIsConsistent(u: ManagedUser)
    ensures StatusBadge(u) == "Active" <==> ToggleCaption(u) == "Deactivate"
    ensures StatusColor(u) == GreenBadge <==> StatusBadge(u) == "Active"
    ensures Text.Lower(ToggleCaption(u)) == ToggleAction(IsActive(u))
  {
  }

  /** A successful toggle followed by a reload shows the other badge. */
  lemma ToggleFlipsBadge(u: ManagedUser)
    ensures var w := ToggleUserActivation(u, true, None).writes[0];
      StatusBadge(u.(active := Some(w.active))) != StatusBadge(u)
  {
  }

  // ---------------------------------------------------------------- roles

  /** The role dialog: the user being edited, the chosen role, and whether it is shown. */
  datatype RoleDialog = RoleDialog(editing: Option<ManagedUser>, newRole: string, shown: bool)

  const ClosedDialog: RoleDialog := RoleDialog(None, "", false)

  /** `handleEditRole`: the user's current role is pre-selected and the dialog opens. */
  function HandleEditRole(u: ManagedUser): (d: RoleDialog)
    ensures d.editing == Some(u) && d.newRole == u.role && d.shown
  {
    RoleDialog(Some(u), u.role, true)
  }

  datatype RoleUpdate = RoleUpdate(userId: string, role: string)

  datatype RoleStep = RoleStep(dialog: RoleDialog, writes: seq<RoleUpdate>, error: Option<string>)

  /** `updateUserRole`: nothing without an edited user or with an empty
      role; otherwise one update, after which the dialog is closed and
      reset, or an error toast with the dialog kept. */
  function UpdateUserRole(d: RoleDialog, writeError: Option<string>): (s: RoleStep)
    ensures d.editing.None? || d.newRole == "" ==> s == RoleStep(d, [], None)
    ensures d.editing.Some? && d.newRole != "" ==> s.writes == [RoleUpdate(d.editing.value.id, d.newRole)]
    ensures d.editing.Some? && d.newRole != "" && writeError.None? ==> s.dialog == ClosedDialog && s.error.None?
    ensures d.editing.Some? && d.newRole != "" && writeError.Some? ==>
      s.dialog == d && s.error == Some(OrElse(writeError, "Failed to update user role."))
  {
    if d.editing.None? || d.newRole == "" then RoleStep(d, [], None)
    else
      var write := [RoleUpdate(d.editing.value.id, d.newRole)];
      if writeError.Some? then RoleStep(d, write, Some(OrElse(writeError, "Failed to update user role.")))
      else RoleStep(ClosedDialog, write, None)
  }

  /** Opening the dialog and saving without choosing another role writes
      the user's own role back, unless the role is empty, when nothing is
      written. */
  lemma SavingUnchangedRoleRewritesIt(u: ManagedUser)
    ensures u.role != "" ==> UpdateUserRole(HandleEditRole(u), None).writes == [RoleUpdate(u.id, u.role)]
    ensures u.role == "" ==> UpdateUserRole(HandleEditRole(u), None).writes == []
  {
  }

  /** `getRoleColor`: admins red, agents blue, everyone else green. */
  function RoleColor(role: string): (c: string)
    ensures role == "admin" ==> c == RedBadge
    ensures role == "agent" ==> c == BlueBadge
    ensures role != "admin" && role != "agent" ==> c == GreenBadge
  {
    if role == "admin" then RedBadge else if role == "agent" then BlueBadge else GreenBadge
  }

  /** An administrator's role badge has the colour of an inactive user's
      status badge, and a customer's that of an active one. */
  lemma RoleColoursShareStatusColours(u: ManagedUser)
    ensures RoleColor("admin") == StatusColor(u.(active := Some(false)))
    ensures RoleColor("customer") == StatusColor(u.(active := None))
    ensures RoleColor("admin") != RoleColor("agent") && RoleColor("agent") != RoleColor("customer")
  {
  }
}

=== FILE: user_model.dfy ===
/** The user record and role enum of the Android app (data/model/User.kt). */
module UserModel {
  import opened Wrappers
  import Seqs

  datatype User = User(id: string, email: string, createdAt: string, updatedAt: Option<string>)

  /** The signed-in user as the authentication SDK reports it; its email may be absent. */
  datatype AuthUser = AuthUser(id: string, email: Option<string>, createdAt: string)

  /** A row of the `profiles` table as the app decodes it (data/model/Profile.kt). */
  datatype Profile = Profile(
    id: string, userId: string, fullName: Option<string>, avatarUrl: Option<string>,
    role: UserRole, phone: Option<string>, signupSource: Option<string>,
    createdAt: string, updatedAt: Option<string>)

  datatype UserRole = Admin | Agent | Customer {
    function Value(): string {
      match this
      case Admin => "admin"
      case Agent => "agent"
      case Customer => "customer"
    }
  }

  const UserRoles: seq<UserRole> := [Admin, Agent, Customer]

  lemma UserRolesComplete(x: UserRole)
    ensures x in UserRoles
  {
  }

  /** `UserRole.fromString`: the first role whose value is `value`, else CUSTOMER.
      It is total: every string maps to one of the three roles. */
  function UserRoleFromString(value: string): (r: UserRole)
    ensures r in UserRoles
    ensures (exists x: UserRole :: x.Value() == value) ==> r.Value() == value
    ensures (forall x: UserRole :: x.Value() != value) ==> r == Customer
  {
    assert forall x: UserRole :: x in UserRoles by { forall x: UserRole ensures x in UserRoles { UserRolesComplete(x); } }
    Seqs.FindFirst(UserRoles, (x: UserRole) => x.Value() == value).GetOr(Customer)
  }

  lemma UserRoleValuesDistinct(a: UserRole, b: UserRole)
    ensures a.Value() == b.Value() ==> a == b
  {
  }

  lemma UserRoleRoundTrip(r: UserRole)
    ensures UserRoleFromString(r.Value()) == r
  {
    UserRoleValuesDistinct(r, UserRoleFromString(r.Value()));
  }

  /** Matching is case-sensitive: "Admin" is not a role value and `fromString` maps it to CUSTOMER. */
  lemma CapitalisedRoleIsCustomer()
    ensures UserRoleFromString("Admin") == Customer
  {
    assert UserRoleFromString("Admin").Value() != "Admin";
  }
}

=== FILE: vehicle_model.dfy ===
/** The vehicle record of the Android app (data/model/Vehicle.kt) and its
    three enums with their `value` strings and first-match `fromString`
    parsers. */
module VehicleModel {
  import opened Wrappers
  import Seqs

  // ---------------------------------------------------------------- FuelType

  datatype FuelType = Petrol | Diesel | Electric | Hybrid {
    function Value(): string {
      match this
      case Petrol => "petrol"
      case Diesel => "diesel"
      case Electric => "electric"
      case Hybrid => "hybrid"
    }
  }

  const FuelTypes: seq<FuelType> := [Petrol, Diesel, Electric, Hybrid]

  lemma FuelTypesComplete(x: FuelType)
    ensures x in FuelTypes
  {
  }

  /** `FuelType.fromString`: the first fuel whose value is `value`, else PETROL. */
  function FuelTypeFromString(value: string): (r: FuelType)
    ensures (exists x: FuelType :: x.Value() == value) ==> r.Value() == value
    ensures (forall x: FuelType :: x.Value() != value) ==> r == Petrol
  {
    assert forall x: FuelType :: x in FuelTypes by { forall x: FuelType ensures x in FuelTypes { FuelTypesComplete(x); } }
    Seqs.FindFirst(FuelTypes, (x: FuelType) => x.Value() == value).GetOr(Petrol)
  }

  lemma FuelTypeValuesDistinct(a: FuelType, b: FuelType)
    ensures a.Value() == b.Value() ==> a == b
  {
  }

  lemma FuelTypeRoundTrip(f: FuelType)
    ensures FuelTypeFromString(f.Value()) == f
  {
    FuelTypeValuesDistinct(f, FuelTypeFromString(f.Value()));
  }

  /** The web fleet form's default fuel "gasoline" is no Android fuel: `fromString` maps it to PETROL. */
  lemma GasolineReadsAsPetrol()
    ensures FuelTypeFromString("gasoline") == Petrol
  {
    var r := FuelTypeFromString("gasoline");
    assert r.Value() != "gasoline";
  }

  // ---------------------------------------------------------------- Transmission

  datatype Transmission = Manual | Automatic {
    function Value(): string {
      match this
      case Manual => "manual"
      case Automatic => "automatic"
    }
  }

  const Transmissions: seq<Transmission> := [Manual, Automatic]

  lemma TransmissionsComplete(x: Transmission)
    ensures x in Transmissions
  {
  }

  /** `Transmission.fromString`: the first transmission whose value is `value`, else MANUAL. */
  function TransmissionFromString(value: string): (r: Transmission)
    ensures (exists x: Transmission :: x.Value() == value) ==> r.Value() == value
    ensures (forall x: Transmission :: x.Value() != value) ==> r == Manual
  {
    assert forall x: Transmission :: x in Transmissions by { forall x: Transmission ensures x in Transmissions { TransmissionsComplete(x); } }
    Seqs.FindFirst(Transmissions, (x: Transmission) => x.Value() == value).GetOr(Manual)
  }

  lemma TransmissionValuesDistinct(a: Transmission, b: Transmission)
    ensures a.Value() == b.Value() ==> a == b
  {
  }

  lemma TransmissionRoundTrip(t: Transmission)
    ensures TransmissionFromString(t.Value()) == t
  {
    TransmissionValuesDistinct(t, TransmissionFromString(t.Value()));
  }

  // ---------------------------------------------------------------- VehicleStatus

  datatype VehicleStatus = Available | Rented | Maintenance | Unavailable {
    function Value(): string {
      match this
      case Available => "available"
      case Rented => "rented"
      case Maintenance => "maintenance"
      case Unavailable => "unavailable"
    }
  }

  const VehicleStatuses: seq<VehicleStatus> := [Available, Rented, Maintenance, Unavailable]

  lemma VehicleStatusesComplete(x: VehicleStatus)
    ensures x in VehicleStatuses
  {
  }

  /** `VehicleStatus.fromString`: the first status whose value is `value`, else AVAILABLE. */
  function VehicleStatusFromString(value: string): (r: VehicleStatus)
    ensures (exists x: VehicleStatus :: x.Value() == value) ==> r.Value() == value
    ensures (forall x: VehicleStatus :: x.Value() != value) ==> r == Available
  {
    assert forall x: VehicleStatus :: x in VehicleStatuses by { forall x: VehicleStatus ensures x in VehicleStatuses { VehicleStatusesComplete(x); } }
    Seqs.FindFirst(VehicleStatuses, (x: VehicleStatus) => x.Value() == value).GetOr(Available)
  }

  lemma VehicleStatusValuesDistinct(a: VehicleStatus, b: VehicleStatus)
    ensures a.Value() == b.Value() ==> a == b
  {
  }

  lemma VehicleStatusRoundTrip(s: VehicleStatus)
    ensures VehicleStatusFromString(s.Value()) == s
  {
    VehicleStatusValuesDistinct(s, VehicleStatusFromString(s.Value()));
  }

  /** The database's "out_of_service" has no Android counterpart:
      `fromString` maps it to AVAILABLE, not to UNAVAILABLE. */
  lemma OutOfServiceReadsAsAvailable()
    ensures VehicleStatusFromString("out_of_service") == Available
  {
    var r := VehicleStatusFromString("out_of_service");
    assert r.Value() != "out_of_service";
  }

  // ---------------------------------------------------------------- Vehicle

  datatype Vehicle = Vehicle(
    id: string,
    make: string,
    model: string,
    year: int,
    licensePlate: string,
    color: Option<string>,
    fuelType: FuelType,
    transmission: Transmission,
    seatingCapacity: int,
    pricePerDay: real,
    imageUrl: Option<string>,
    status: VehicleStatus,
    features: seq<string>,
    agentId: Option<string>,
    createdAt: string,
    updatedAt: Option<string>)

  /** A `Vehicle(...)` built from its required fields only: the data class
      defaults fill in the rest. */
  function VehicleWithDefaults(
    id: string, make: string, model: string, year: int, licensePlate: string,
    seatingCapacity: int, pricePerDay: real, createdAt: string): (v: Vehicle)
    ensures v.fuelType == Petrol && v.transmission == Manual
    ensures v.status == Available && v.features == []
    ensures v.color.None? && v.imageUrl.None? && v.agentId.None? && v.updatedAt.None?
    ensures v.id == id && v.pricePerDay == pricePerDay && v.createdAt == createdAt
  {
    Vehicle(id, make, model, year, licensePlate, None, Petrol, Manual, seatingCapacity,
            pricePerDay, None, Available, [], None, createdAt, None)
  }
}

=== FILE: vehicle_repository.dfy ===
/** The vehicle queries of the Android app (data/repository/VehicleRepository.kt).
    Each query fetches the whole `vehicles` table; the fetch is an input
    here, and a failed fetch is passed on with its message. */
module VehicleRepository {
  import opened Wrappers
  import Seqs
  import opened VehicleModel

  predicate IsAvailable(v: Vehicle) {
    v.status == Available
  }

  /** `getAvailableVehicles`: the fetched vehicles whose status is AVAILABLE,
      each as often as fetched and in fetched order. */
  function GetAvailableVehicles(fetched: Result<seq<Vehicle>>): (r: Result<seq<Vehicle>>)
    ensures fetched.Err? ==> r == Err(fetched.message)
    ensures fetched.Ok? ==> r.Ok? && forall v :: v in r.value <==> v in fetched.value && v.status == Available
    ensures fetched.Ok? ==> forall v :: multiset(r.value)[v] == if v.status == Available then multiset(fetched.value)[v] else 0
  {
    match fetched
    case Err(m) => Err(m)
    case Ok(vehicles) => Ok(Seqs.Filter(vehicles, IsAvailable))
  }

  /** The available vehicles keep the order in which they were fetched. */
  lemma AvailableVehiclesInFetchedOrder(vehicles: seq<Vehicle>)
    ensures GetAvailableVehicles(Ok(vehicles)).Ok?
    ensures Seqs.IsSubsequence(GetAvailableVehicles(Ok(vehicles)).value, vehicles)
  {
    Seqs.FilterIsSubsequence(vehicles, IsAvailable);
  }

  /** `getAllVehicles`: the fetched list, unfiltered. */
  function GetAllVehicles(fetched: Result<seq<Vehicle>>): (r: Result<seq<Vehicle>>)
    ensures r.Ok? <==> fetched.Ok?
    ensures r.Ok? ==> |r.value| == |fetched.value| && forall i :: 0 <= i < |r.value| ==> r.value[i] == fetched.value[i]
    ensures r.Err? ==> r.message == fetched.message
  {
    fetched
  }

  /** Every available vehicle is among all vehicles, and a vehicle of all
      vehicles is missing from the available ones exactly when it is not
      AVAILABLE. */
  lemma AvailableAmongAll(fetched: Result<seq<Vehicle>>, v: Vehicle)
    requires fetched.Ok?
    ensures v in GetAvailableVehicles(fetched).value ==> v in GetAllVehicles(fetched).value
    ensures v in GetAllVehicles(fetched).value ==> (v in GetAvailableVehicles(fetched).value <==> v.status == Available)
  {
    var all := GetAllVehicles(fetched).value;
    assert all == fetched.value;
  }

  const VehicleNotFound: string := "Vehicle not found"

  predicate HasVehicleId(v: Vehicle, id: string) {
    v.id == id
  }

  /** `vehicles[k]` is the first vehicle with the id. */
  predicate FirstWithId(vehicles: seq<Vehicle>, k: int, id: string) {
    0 <= k < |vehicles| && vehicles[k].id == id && forall j :: 0 <= j < k ==> vehicles[j].id != id
  }

  /** `getVehicleById`: the first fetched vehicle with the id, or a
      "Vehicle not found" failure when there is none. */
  function GetVehicleById(fetched: Result<seq<Vehicle>>, id: string): (r: Result<Vehicle>)
    ensures fetched.Err? ==> r == Err(fetched.message)
    ensures fetched.Ok? ==> (r.Err? <==> forall i :: 0 <= i < |fetched.value| ==> fetched.value[i].id != id)
    ensures fetched.Ok? && r.Err? ==> r.message == VehicleNotFound
    ensures r.Ok? ==> fetched.Ok? && exists k :: FirstWithId(fetched.value, k, id) && fetched.value[k] == r.value
  {
    match fetched
    case Err(m) => Err(m)
    case Ok(vehicles) =>
      var k := Seqs.IndexOfFirst(vehicles, (v: Vehicle) => HasVehicleId(v, id));
      if k < |vehicles| then Ok(vehicles[k]) else Err(VehicleNotFound)
  }

  /** When the fetched ids are distinct, looking a listed vehicle up by its
      id finds that very vehicle. */
  lemma GetVehicleByIdFindsListed(vehicles: seq<Vehicle>, k: nat)
    requires k < |vehicles|
    requires forall i, j :: 0 <= i < j < |vehicles| ==> vehicles[i].id != vehicles[j].id
    ensures GetVehicleById(Ok(vehicles), vehicles[k].id) == Ok(vehicles[k])
  {
    var r := GetVehicleById(Ok(vehicles), vehicles[k].id);
    assert r.Ok?;
    var m :| FirstWithId(vehicles, m, vehicles[k].id) && vehicles[m] == r.value;
  }
}

=== FILE: vehicles_page.dfy ===
/** The vehicle list of the web client (src/pages/Vehicles.tsx): the type
    filter's options, the feature preview of each card, and "Book". */
module VehiclesPage {
  import Text
  import opened WebModel
  import AustinCarDetailsPage

  /** `vehicleTypes`, as written in the page. */
  const VehicleTypes: seq<string> := ["economy", "compact", "midsize", "fullsize", "luxury", "suv", "truck", "van"]

  /** The type filter offers exactly the database's vehicle types, in the
      enum's order, with no repetition. */
  lemma TypesAreTheEnum()
    ensures VehicleTypes == VehicleTypeEnum
    ensures forall i, j :: 0 <= i < j < |VehicleTypes| ==> VehicleTypes[i] != VehicleTypes[j]
  {
  }

  /** An option of the type filter: its value and its label. */
  datatype TypeOption = TypeOption(value: string, text: string)

  /** "All Types" first, then each type with its first letter upper-cased. */
  function TypeOptions(): (options: seq<TypeOption>)
    ensures |options| == |VehicleTypes| + 1
    ensures options[0] == TypeOption("", "All Types")
    ensures forall i :: 0 <= i < |VehicleTypes| ==> options[i + 1].value == VehicleTypes[i]
    ensures forall i :: 0 <= i < |VehicleTypes| ==>
      |options[i + 1].text| == |VehicleTypes[i]| && options[i + 1].text[1..] == VehicleTypes[i][1..]
  {
    [TypeOption("", "All Types")] + seq(|VehicleTypes|, i requires 0 <= i < |VehicleTypes| => TypeOption(VehicleTypes[i], Text.UpperFirst(VehicleTypes[i])))
  }

  /** Each type's label is the type with a capital initial: "Economy", ..., "Van". */
  lemma TypeLabelsCapitalised(i: nat)
    requires i < |VehicleTypes|
    ensures 'A' <= TypeOptions()[i + 1].text[0] <= 'Z'
    ensures Text.ToLowerChar(TypeOptions()[i + 1].text[0]) == VehicleTypes[i][0]
  {
    assert 'a' <= VehicleTypes[i][0] <= 'z';
  }

  /** What a card shows of the features: up to three of them, and the
      number of the others when there are more than three. */
  datatype Preview = Preview(shown: seq<string>, more: nat)

  /** The feature preview: `features.slice(0, 3)`, and a "+(n-3) more" chip
      exactly when there are more than three (`more` is 0 without a chip). */
  function FeaturePreview(features: seq<string>): (p: Preview)
    ensures |features| <= 3 ==> p.shown == features && p.more == 0
    ensures |features| > 3 ==> p.shown == features[..3] && p.more == |features| - 3
  {
    if |features| <= 3 then Preview(features, 0) else Preview(features[..3], |features| - 3)
  }

  /** No feature is lost from the count: the shown ones are a prefix of
      the list and, with the chip's number, make up the whole list. The
      chip appears exactly when not everything is shown. */
  lemma PreviewAccountsForAll(features: seq<string>)
    ensures FeaturePreview(features).shown <= features
    ensures |FeaturePreview(features).shown| + FeaturePreview(features).more == |features|
    ensures |FeaturePreview(features).shown| <= 3
    ensures FeaturePreview(features).more > 0 <==> FeaturePreview(features).shown != features
  {
  }

  /** The preview of a vehicle's column, with `getFeatures`' fallback. */
  function CardFeatures(v: WebVehicle): (p: Preview)
    ensures !v.features.JsonArray? ==> p == Preview([], 0)
    ensures v.features.JsonArray? ==> |p.shown| + p.more == |v.features.items|
  {
    PreviewAccountsForAll(GetFeatures(v.features));
    FeaturePreview(GetFeatures(v.features))
  }

  /** `handleBookVehicle`: to sign-in without a user, else to the booking
      page of the vehicle. */
  function HandleBookVehicle(signedIn: bool, vehicleId: string): (r: Route)
    ensures !signedIn ==> r == AuthPage
    ensures signedIn ==> r == BookPage(vehicleId)
  {
    if signedIn then BookPage(vehicleId) else AuthPage
  }

  /** The list and the car details page send a visitor to the same place. */
  lemma BookingRoutesAgree(signedIn: bool, vehicleId: string)
    ensures HandleBookVehicle(signedIn, vehicleId) == AustinCarDetailsPage.HandleBookNow(signedIn, vehicleId)
  {
  }
}

=== FILE: web_model.dfy ===
/** The rows and values the React web client reads from the database
    (src/integrations/supabase/types.ts), as far as its pages use them, and
    the JavaScript value rules they rely on: `x || d` on a possibly empty or
    null string, `Array.isArray` on a JSON column, and page navigation. */
module WebModel {
  import opened Wrappers

  /** A JSON column as the pages test it: null, an array of strings, or
      any other JSON value. */
  datatype Json = JsonNull | JsonArray(items: seq<string>) | JsonOther

  /** A row of the `vehicles` table. `status` and `vtype` hold the
      database enum values as strings; `imageUrl` is the `image_url` field
      the car details page reads. */
  datatype WebVehicle = WebVehicle(
    id: string,
    make: string,
    model: string,
    year: int,
    vtype: string,
    licensePlate: string,
    color: string,
    seats: int,
    transmission: string,
    fuelType: string,
    mileage: Option<int>,
    dailyRate: real,
    status: string,
    location: Option<string>,
    features: Json,
    imageUrl: Option<string>)

  /** A row of the `bookings` table. */
  datatype WebBooking = WebBooking(
    id: string,
    customerId: string,
    vehicleId: string,
    startDate: string,
    endDate: string,
    pickupLocation: string,
    returnLocation: string,
    totalCost: real,
    status: string,
    notes: Option<string>,
    createdAt: string)

  /** The `vehicle_status` database enum. */
  const VehicleStatusEnum: seq<string> := ["available", "rented", "maintenance", "out_of_service"]

  /** The `vehicle_type` database enum, in declaration order. */
  const VehicleTypeEnum: seq<string> :=
    ["economy", "compact", "midsize", "fullsize", "luxury", "suv", "truck", "van"]

  /** The `booking_status` database enum. */
  const BookingStatusEnum: seq<string> :=
    ["pending", "confirmed", "active", "completed", "cancelled", "awaiting_payment", "scheduled"]

  /** JavaScript `s || fallback` on a string that may be null: the empty
      string and null are both falsy. */
  function OrElse(s: Option<string>, fallback: string): (r: string)
    ensures s.Some? && s.value != "" ==> r == s.value
    ensures s.None? || s.value == "" ==> r == fallback
  {
    match s
    case Some(v) => if v == "" then fallback else v
    case None => fallback
  }

  /** `getFeatures` of the vehicle pages: the array when the column holds
      one, and no features for null or any other value. */
  function GetFeatures(features: Json): (r: seq<string>)
    ensures features.JsonArray? ==> r == features.items
    ensures !features.JsonArray? ==> r == []
  {
    match features
    case JsonArray(items) => items
    case _ => []
  }

  /** The pages a handler navigates to. */
  datatype Route = AuthPage | BookPage(vehicleId: string) | BookingsPage | VehiclesPage
}

=== FILE: wrappers.dfy ===
/** Optional values, results carrying an error message, and the outcome of a
    sequence of backend writes. The Kotlin `Result<T>` and the `T?` nullable
    types of the app, and the `{ data, error }` pairs of the web client, are
    all modelled with these. */
module Wrappers {

  datatype Option<+T> = None | Some(value: T) {

    /** The value, or `default` when absent (Kotlin `?:`, JavaScript `||` on objects). */
    function GetOr(default: T): T {
      match this
      case Some(v) => v
      case None => default
    }
  }

  /** `Result.success(value)` or `Result.failure(Exception(message))`. */
  datatype Result<+T> = Ok(value: T) | Err(message: string) {

    predicate IsOk() {
      Ok?
    }
  }

  /** The error the backend reports for the `k`-th write of an operation
      (counting from 0); writes past the end of `errors` succeed. */
  function WriteError(errors: seq<Option<string>>, k: nat): Option<string> {
    if k < |errors| then errors[k] else None
  }
}
